=== FILE: README.md ===
# LeNLP core, modelled in Dafny

This project models the Rust core of LeNLP, a text-processing library for Python.
The model covers these parts of the core:

- **Keyword extraction.** `RSKeywordProcessor` (rust/rsflashtext.rs) holds a trie of keywords, adds keywords to it and scans sentences for them. It reports each keyword found with its byte offsets in the original sentence.
- **Count vectorizer.** `SparseMatrixBuilder` (rust/rssparse.rs) learns a vocabulary of column indices. It turns term-frequency maps into coordinate triplets `(count, row, column)`.
- **Vectorisation pipeline** (rust/rsvectorizer.rs):
  - normalization (rust/rsnormalizer.rs);
  - stop-word filtering (rust/rsstop_words.rs);
  - word and character n-grams, in the current tree (rust/rsanalyzer.rs) and the older one (src/rsanalyzer.rs);
  - counting (rust/rscounter.rs).

Each module follows one source file:

| module | file | form |
|---|---|---|
| `Base` | — | `Option` and `Result`. A Rust `panic!` is the `Panic` alternative of `Result`. |
| `Text` | — | The standard-library string behaviour the core relies on: `split_whitespace`, `join(" ")`, `trim`, `is_ascii_punctuation`, `len_utf8`, `str::len`. Also the transliteration parameter. |
| `Normalizer` | rust/rsnormalizer.rs | functions |
| `StopWords` | rust/rsstop_words.rs | functions |
| `Counter` | rust/rscounter.rs | a loop method proved against a function |
| `Analyzer` | rust/rsanalyzer.rs | loop methods proved against functions; `_many` as functions |
| `LegacyAnalyzer` | src/rsanalyzer.rs | the same |
| `Vectorizer` | rust/rsvectorizer.rs | functions |
| `Sparse` | rust/rssparse.rs | the class `SparseMatrixBuilder` |
| `FlashText` | rust/rsflashtext.rs | the class `KeywordProcessor` |

How the model stands in for the Rust structures:

- **Keyword trie.** The Rust trie is a nest of `HashMap<char, RSTrieNode>`. The model keeps it as one map from the path of characters leading to a node to that node's `is_end` and `clean_name`. That map is prefix-closed.
- **End of a keyword.** A keyword's end is the child keyed by `'_'`, the first character of the sentinel `"_keyword_"`.
- **Keyword scan.** The scan is the function `FlashText.Scan`, which mirrors the loop's four variables `current_node`, `start_pos`, `end_pos` and `idx`. The methods that hold the loop are proved equal to it.
- **The `unidecode` crate.** It is a parameter `tr: char -> string`, its per-character table. Results that need more say so with the predicates `Text.AsciiOutput(tr)` (the table yields ASCII) and `Text.AsciiIdentity(tr)` (it leaves ASCII as it is).
- **HashMap iteration order.** `_fit` and `_transform` walk each term-frequency map in the map's own order. That order is a parameter `order`, constrained by `Sparse.Enumerates`: it lists every key once.

## Model

| member | source | states |
|---|---|---|
| Text.ToLowerChar | rust/rsnormalizer.rs:18 | Lowercasing leaves no upper-case ASCII letter. It preserves whether a character is ASCII, whitespace or ASCII punctuation. |
| Text.UnidecodeAppend | rust/rsnormalizer.rs:17 | Transliteration works character by character, so it distributes over concatenation. |
| Text.UnidecodeAscii | rust/rsnormalizer.rs:17 | If the table yields ASCII, the transliterated text is ASCII. |
| Text.UnidecodeOfAscii | rust/rsnormalizer.rs:17 | If the table leaves ASCII alone, an ASCII text is transliterated to itself. |
| Text.RemovePunctuation | rust/rsnormalizer.rs:19-21 | The filtered text is no longer than the input and holds no ASCII punctuation. |
| Text.RemovePunctuationAppend | rust/rsnormalizer.rs:19-21 | Filtering distributes over concatenation. |
| Text.RemovePunctuationKeeps | rust/rsnormalizer.rs:19-21 | Every character property the input has, the filtered text keeps. |
| Text.RemovePunctuationNoop | rust/rsnormalizer.rs:19-21 | A text without punctuation is left unchanged. |
| Text.TrimStart | rust/rsnormalizer.rs:22 | The result is a suffix of the input. Exactly the dropped prefix is whitespace, and the result does not start with whitespace. |
| Text.TrimEnd | rust/rsnormalizer.rs:22 | The result is a prefix of the input. Exactly the dropped suffix is whitespace, and the result does not end with whitespace. |
| Text.Trim | rust/rsnormalizer.rs:22 | The trimmed text neither starts nor ends with whitespace. |
| Text.TrimKeeps | rust/rsnormalizer.rs:22 | Trimming keeps every property that all characters of the input have. |
| Text.TrimNoop | rust/rsnormalizer.rs:22 | A text without outer whitespace is left unchanged. |
| Text.TakeWord | rust/rsstop_words.rs:20 | The first word is the longest whitespace-free prefix. It is followed by whitespace or by nothing. |
| Text.WordsAreTokens | rust/rsstop_words.rs:20 | Every piece `split_whitespace` yields is non-empty and free of whitespace. |
| Text.WordsCoverText | src/rsanalyzer.rs:16-18 | Together, the pieces hold every non-whitespace character of the text, in order. |
| Text.WordsKeep | src/rsanalyzer.rs:16-18 | Every property that all characters of a text have, each `split_whitespace` word has in all its characters. |
| Text.WordsOfJoinSpace | rust/rsstop_words.rs:20-23 | Splitting undoes `join(" ")` on tokens. |
| Text.JoinSpaceSingleSpaced | rust/rsstop_words.rs:23 | A joined text has no leading, trailing or repeated whitespace, and its only whitespace is `' '`. |
| Text.WordsOfBlank | rust/rsanalyzer.rs:21 | A text that is blank after its leading whitespace has no words. |
| Text.Utf8Len | rust/rsflashtext.rs:129-138 | A character takes 1 to 4 bytes, and exactly 1 when it is ASCII. |
| Text.ByteLen | rust/rsflashtext.rs:153 | The byte length is at least the character count. |
| Text.ByteLenIsCharCount | rust/rsflashtext.rs:153-155 | The byte length equals the character count if and only if the text is ASCII. |
| Text.ByteLenPrefix | rust/rsflashtext.rs:124-138 | The byte offset of a prefix grows with the prefix. |
| Normalizer.NormalizeShape | rust/rsnormalizer.rs:16-24 | The output has no ASCII punctuation, no upper-case ASCII letter, and no leading or trailing whitespace. |
| Normalizer.NormalizeIsAscii | rust/rsnormalizer.rs:16-24 | If the table yields ASCII, the output is ASCII. |
| Normalizer.NormalizeIdempotent | rust/rsnormalizer.rs:16-24 | Normalizing twice equals normalizing once, when the table yields ASCII and leaves ASCII alone. |
| Normalizer.NormalizeMany | rust/rsnormalizer.rs:36-38 | One normalized text per input, in order. |
| Normalizer.NormalizeDigits | rust/rsnormalizer.rs:53 | Unit test: `"1,2,3,4"` normalizes to `"1234"`. |
| Normalizer.NormalizeGreeting | rust/rsnormalizer.rs:52 | The unit test as evidently intended: `"Hello World! "` followed by the emoji U+1F600 normalizes to `"hello world"`, given a table that maps the emoji to nothing (see Findings). |
| Normalizer.NormalizeGreetingAsWritten | rust/rsnormalizer.rs:52 | The unit test as written. Its literal ends in U+00F0 U+0178 U+02DC U+20AC. With the crate's transliterations `d`, `Y`, `~` and `EUR`, it normalizes to `"hello world dyeur"`, not to the expected `"hello world"` (see Findings). |
| StopWords.KeepTokens | rust/rsstop_words.rs:21 | No kept token is a stop word, and no more tokens come out than went in. |
| StopWords.KeepTokensAppend | rust/rsstop_words.rs:21 | Filtering distributes over concatenation, so the relative order is kept. |
| StopWords.KeepTokensMembers | rust/rsstop_words.rs:21 | A token is kept if and only if it occurs in the input and is not a stop word. |
| StopWords.KeepTokensAreTokens | rust/rsstop_words.rs:20-21 | Filtering keeps tokens non-empty and whitespace-free. |
| StopWords.KeepTokensNoop | rust/rsstop_words.rs:21 | Input without stop words is left unchanged. |
| StopWords.KeepTokensEmpty | rust/rsstop_words.rs:21 | Nothing is kept if and only if every token is a stop word. |
| StopWords.FilterStopWordsTokens | rust/rsstop_words.rs:17-24 | The output's words are the input's words minus the exact, case-sensitive stop words, in their original order. |
| StopWords.FilterStopWordsSingleSpaced | rust/rsstop_words.rs:20-23 | The output has no leading, trailing or repeated whitespace. |
| StopWords.FilterStopWordsEmpty | rust/rsstop_words.rs:17-24 | The output is `""` if and only if every word of the input is a stop word. |
| StopWords.FilterStopWordsIdempotent | rust/rsstop_words.rs:17-24 | Filtering twice equals filtering once. |
| StopWords.FilterStopWordsExample | rust/rsstop_words.rs:17-24 | Matching is exact and case-sensitive: `"Are you are"` with the stop word `"are"` gives `"Are you"`. |
| StopWords.FilterStopWordsMany | rust/rsstop_words.rs:37-50 | One filtered text per input, in order, all against the same stop-word set. |
| Counter.Bump | rust/rscounter.rs:19 | `entry(word).or_insert(0) += 1` adds the word as a key and raises its count by one. Every other entry is left as it is. |
| Counter.Count | rust/rscounter.rs:16-22 | The counting loop computes `Counts` of the words. |
| Counter.CountsIsMultiplicity | rust/rscounter.rs:16-22 | The keys are exactly the distinct words. Each value is the word's number of occurrences. |
| Counter.CountsPositive | rust/rscounter.rs:18-20 | Every value is at least 1. |
| Counter.CountsPermutation | rust/rscounter.rs:18-20 | Two inputs that are permutations of each other have the same counts. |
| Counter.TotalRemove | rust/rscounter.rs:18-20 | The sum of a map's values may remove any entry first. |
| Counter.TotalBump | rust/rscounter.rs:19 | One bump adds one to the sum of the values. |
| Counter.CountsTotal | rust/rscounter.rs:18-20 | The values add up to the number of words. |
| Counter.CountExample | rust/rscounter.rs:48-61 | Unit test: `["hello","world","hello","hello"]` counts to `{hello: 3, world: 1}`. |
| Counter.CountMany | rust/rscounter.rs:34-36 | One count per input, in order. |
| Counter.CountManyExample | rust/rscounter.rs:63-84 | Unit test of `rscount_many`. |
| Analyzer.Windows | rust/rsanalyzer.rs:22 | `slice::windows(n)` gives `max(0, len-n+1)` windows, and window i is `s[i..i+n]`. |
| Analyzer.WordWindows | rust/rsanalyzer.rs:22-24 | Word n-gram i is words `i..i+n` joined by one space. There are `max(0, W-n+1)` of them. |
| Analyzer.SplitWords | rust/rsanalyzer.rs:17-28 | The loop method of `rssplit_words` computes `WordNgrams` of the text's words for the sizes given. |
| Analyzer.PushWordWindows | rust/rsanalyzer.rs:22-24 | The inner loop appends the word windows of one size. |
| Analyzer.PushWindows | rust/rsanalyzer.rs:55-57 | The inner loop appends the character windows of one size. |
| Analyzer.CharNgrams | rust/rsanalyzer.rs:50-61 | The loop method of `rschar_ngrams` computes `CharNgramsOf`. |
| Analyzer.CharWbNgrams | rust/rsanalyzer.rs:74-88 | `rschar_wb_ngrams` computes the same n-grams as `rschar_ngrams`, for every list of positive sizes. |
| Analyzer.WordNgramsAppend | rust/rsanalyzer.rs:20-25 | Word n-grams are grouped by size, in the order of `n_sizes`. |
| Analyzer.WordNgramsCount | rust/rsanalyzer.rs:17-28 | There are `max(0, W-n+1)` word n-grams per size `n`, summed over the sizes. |
| Analyzer.WordWindowsSplit | rust/rsanalyzer.rs:21-23 | A word n-gram splits back into exactly the `n` consecutive words it was built from. |
| Analyzer.WordNgramsOfBlank | rust/rsanalyzer.rs:21-22 | An empty or all-whitespace text gives no word n-grams. |
| Analyzer.WordUnigrams | rust/rsanalyzer.rs:17-28 | For the sizes `[1]`, the n-grams are the words themselves. |
| Analyzer.CharNgramsAppend | rust/rsanalyzer.rs:53-58 | Character n-grams are grouped by size, in the order of `n_sizes`. |
| Analyzer.CharNgramsCount | rust/rsanalyzer.rs:50-61 | There are `max(0, L-n+1)` character n-grams per size, summed over the sizes. |
| Analyzer.CharNgramsOfEmpty | rust/rsanalyzer.rs:50-61 | The empty text has no character n-grams. |
| Analyzer.CharNgramsExample | lenlp/analyzer/analyze.py:33-34 | Doctest: the size-3 windows of `"Hello, world!"`. |
| Analyzer.HelloWorldWords | lenlp/analyzer/analyze.py:30-31 | Doctest: the words of `"Hello, world!"` keep their punctuation. |
| Analyzer.SplitWordsExample | lenlp/counter/count.py:49-50 | Doctests on `"Hello, world!"`: with sizes `[1]` its n-grams are `"Hello,"` and `"world!"`, punctuation kept (lenlp/analyzer/analyze.py:30-31). With sizes `[2]` its one n-gram is the whole text. |
| Analyzer.SplitWordsMany | rust/rsanalyzer.rs:32-37 | One result per text, in order. |
| Analyzer.CharNgramsMany | rust/rsanalyzer.rs:65-70 | One result per text, in order. This also holds for `rschar_wb_ngrams_many` (lines 92-97), whose scalar function gives the same n-grams. |
| LegacyAnalyzer.SplitWords | src/rsanalyzer.rs:16-18 | The result is the `split_whitespace` tokens `Words(text)`: whitespace-free tokens that together hold every non-whitespace character, in order. |
| LegacyAnalyzer.SplitWordsMany | src/rsanalyzer.rs:21-23 | One result per text, in order. |
| LegacyAnalyzer.CharWbNgrams | src/rsanalyzer.rs:76-90 | The loop method computes `WbNgramsOf` the text's words: for each word, for each size, the windows of that word alone. |
| LegacyAnalyzer.PushWordNgrams | src/rsanalyzer.rs:82-86 | The two inner loops append the n-grams of one word, size by size. |
| LegacyAnalyzer.CharWbNgramsMany | src/rsanalyzer.rs:103-105 | One result per text, in order. |
| LegacyAnalyzer.WbNgramsAppend | src/rsanalyzer.rs:80-86 | The output is word-major. |
| LegacyAnalyzer.CharNgramsOfWord | src/rsanalyzer.rs:80-86 | The n-grams of a whitespace-free word hold no whitespace. |
| LegacyAnalyzer.WbNgramsNoWhitespace | src/rsanalyzer.rs:76-90 | No n-gram contains whitespace. |
| LegacyAnalyzer.WbNgramsCount | src/rsanalyzer.rs:76-90 | Each word contributes `max(0, len-n+1)` n-grams per size. A word shorter than `n` contributes nothing. |
| LegacyAnalyzer.SplitWordsExample | src/rsanalyzer.rs:174-186 | Unit test `test_rssplit_words`. |
| LegacyAnalyzer.CharNgramsExample | src/rsanalyzer.rs:121-139 | Unit test `test_rschar_ngrams`: the nine windows of size 3, two of them spanning the space. |
| LegacyAnalyzer.CharWbNgramsExample | src/rsanalyzer.rs:141-158 | Unit test `test_rschar_wb_ngrams`: six windows, none spanning the space. |
| LegacyAnalyzer.GoodbyeWorldWords | src/rsanalyzer.rs:162 | `"goodbye world"` splits into its two words. |
| LegacyAnalyzer.CharWbNgramsManyPair | src/rsanalyzer.rs:103-105 | For two texts, the results are the n-grams of each text's words. |
| LegacyAnalyzer.CharWbNgramsManyExample | src/rsanalyzer.rs:160-172 | The actual results of `rschar_wb_ngrams_many(["hello world", "goodbye world"], [3])`. |
| LegacyAnalyzer.CharWbNgramsManyTestExpectation | src/rsanalyzer.rs:160-172 | The results have 6 and 8 elements, so they cannot match the test's four-element lists (see Findings). |
| Vectorizer.ProcessTexts | rust/rsvectorizer.rs:13-27 | One processed text per input, in order. Element i is normalized (only when `Some(true)`), then filtered (only when stop words are given). |
| Vectorizer.ProcessTextsUnchanged | rust/rsvectorizer.rs:18-26 | With `None` or `Some(false)` and no stop words, the texts pass through unchanged. |
| Vectorizer.ProcessTextWords | rust/rsvectorizer.rs:23-26 | After filtering, a word is present if and only if it was a word of the prepared text and is not a stop word. |
| Vectorizer.ProcessTextNormalizesFirst | rust/rsvectorizer.rs:18-26 | Stop words are matched against the normalized text, which has no upper-case ASCII letter. So stop words that each hold one change nothing: filtering with them equals filtering with none. |
| Vectorizer.UpperStopWordsKeepAll | rust/rsstop_words.rs:17-24 | In a text without upper-case ASCII letters, stop words that each hold one remove no word. |
| Vectorizer.VectorizeSplitWordsMany | rust/rsvectorizer.rs:30-41 | Map i is the count of the word n-grams of processed text i. |
| Vectorizer.VectorizeCharNgramsMany | rust/rsvectorizer.rs:44-55 | Map i is the count of the character n-grams of processed text i. This also holds for the `char_wb` variant (lines 58-69). |
| Vectorizer.VectorizeMany | rust/rsvectorizer.rs:73-86 | The result is a panic with "Invalid analyzer type" if and only if the analyzer is not `word`, `char` or `char_wb`. Otherwise it is the matching `_many` function. |
| Vectorizer.VectorizeSplitWordsCounts | rust/rsvectorizer.rs:36-40 | A map's keys are exactly the n-grams and its values their multiplicities. The values add up to the number of n-grams. |
| Vectorizer.VectorizeCharCounts | rust/rsvectorizer.rs:50-54 | The same, for character n-grams. |
| Vectorizer.VectorizeAllStopWords | lenlp/counter/count.py:55-56 | A text whose every word is a stop word vectorizes to the empty map, whatever the analyzer. |
| Vectorizer.NormalizeHello | antelope/normalizer/normalize.py:13-14 | Doctest: `"Hello, world!"` normalizes to `"hello world"`. |
| Vectorizer.VectorizeStopWordsExample | lenlp/counter/count.py:52-53 | Doctest: with stop words `are`, `you`, the result is `[{hello: 1, world: 1}, {how: 1}]`. |
| Vectorizer.VectorizeWordExample | lenlp/sparse/count_vectorizer.py:40-46 | Doctest input under the default configuration: `{hello: 1, world: 1}` and `{how: 1, are: 1, you: 1}`. |
| Sparse.FitFrom | rust/rssparse.rs:83-92 | Known tokens keep their columns. Every new token of the input gets a column at or above the starting counter, and the counter never decreases. |
| Sparse.FitStepDense | rust/rssparse.rs:86-89 | One inner step keeps the columns dense. |
| Sparse.FitFromDense | rust/rssparse.rs:83-92 | Fitting from a dense state keeps it dense. |
| Sparse.FitDense | rust/rssparse.rs:83-92 | After `_fit` from empty, the keys are exactly the tokens seen and `num_cols == \|vocab\|`. The columns are `0..num_cols-1`, each used once. |
| Sparse.FitFromAppend | rust/rssparse.rs:84-91 | Fitting two token lists in a row is fitting their concatenation. |
| Sparse.FitFirstSeen | rust/rssparse.rs:84-90 | Columns follow first-seen order. |
| Sparse.TokensMembers | rust/rssparse.rs:84-85 | A token is walked if and only if some document holds it. |
| Sparse.FitDocumentOrder | rust/rssparse.rs:84-90 | A token of an earlier document gets a smaller column than a token first seen in a later one. |
| Sparse.DocTriplets | rust/rssparse.rs:130-136 | One document's triplets carry its row and columns of the vocabulary, at most one per entry. |
| Sparse.Triplets | rust/rssparse.rs:129-137 | Every row is below the number of documents, and every column is a vocabulary column. |
| Sparse.TripletsRowsSorted | rust/rssparse.rs:129-137 | Rows never decrease along the triplets. |
| Sparse.TripletsInBounds | rust/rssparse.rs:131-134 | With a dense vocabulary, every column is below `num_cols`. |
| Sparse.DocTripletsCovered | rust/rssparse.rs:130-136 | A document whose tokens are all known gives one triplet per entry, in order, with the entry's count, its row and the token's column. |
| Sparse.DocTripletsUnknown | rust/rssparse.rs:131 | Unknown tokens are dropped. |
| Sparse.DocTripletsAppend | rust/rssparse.rs:130-135 | The triplets keep the entries' order: a document split in two gives the triplets of the first part, then those of the second. |
| Sparse.DocTripletsContent | rust/rssparse.rs:130-135 | For any document, known and unknown tokens mixed: every triplet is `(count, row, column)` of some entry whose token is in the vocabulary, and every such entry has its triplet. |
| Sparse.TripletsContent | rust/rssparse.rs:129-137 | Over all documents: every triplet's row is a document, and the triplet comes from an in-vocabulary entry of that document; every in-vocabulary entry of every document has its triplet. |
| Sparse.FitTransformCovers | rust/rssparse.rs:50-61 | Against the vocabulary learned from the same documents, each entry of each document gives exactly one triplet. |
| Sparse.AsDoc | rust/rssparse.rs:85 | A map walked in its iteration order: the keys are exactly the map's keys, each once, with their counts. |
| Sparse.AsDocs | rust/rssparse.rs:84 | One walked document per map, in order. |
| Sparse.Unzip | rust/rssparse.rs:125-139 | The three vectors have equal length, and entry i of each is triplet i. |
| Sparse.TokensOfMaps | rust/rssparse.rs:84-85 | The tokens walked are exactly the keys of all the maps. |
| Sparse.FitOfMaps | rust/rssparse.rs:82-92 | Fitting learns exactly the keys of the maps, with dense columns. |
| Sparse.FiveColumns | lenlp/sparse/count_vectorizer.py:40-53 | Doctest: the two example texts give a vocabulary of five words and `num_cols == 5`, whatever the iteration order. |
| Sparse.SparseMatrixBuilder.constructor | rust/rssparse.rs:24-38 | The configuration is stored as given, with an empty vocabulary and `num_cols == 0`. |
| Sparse.SparseMatrixBuilder.Documents | rust/rssparse.rs:71-77 | Vectorization panics if and only if the analyzer is unknown. Otherwise there is one walked document per text. |
| Sparse.SparseMatrixBuilder.Fit | rust/rssparse.rs:69-80 | The vocabulary is reset first, so a panic leaves it empty. On success the state is `_fit` of the documents from empty, and it is dense. |
| Sparse.SparseMatrixBuilder.Transform | rust/rssparse.rs:95-119 | It panics if and only if the analyzer is unknown. Otherwise the vectors are the triplets against the current vocabulary, which is not changed. |
| Sparse.SparseMatrixBuilder.FitTransform | rust/rssparse.rs:40-67 | Panics iff the analyzer is unknown, after resetting the vocabulary. Otherwise one vectorization feeds both `_fit` and `_transform`: the state is the dense `_fit` of its documents and the triplets are `_transform` of the same documents. These are the triplets `transform` would give after `fit` if both calls walked the maps in the same order. |
| Sparse.SparseMatrixBuilder.GetVocab | rust/rssparse.rs:142-144 | Once fitted, there are `num_cols` tokens, each with a column below `num_cols`. |
| Sparse.SparseMatrixBuilder.GetNumCols | rust/rssparse.rs:146-148 | Once fitted, this is the vocabulary size, and every column below it is used. |
| Sparse.SparseMatrixBuilder.GetNewArgs | rust/rssparse.rs:159-168 | Returns the constructor's four arguments, in the constructor's order. |
| Sparse.SparseMatrixBuilder.FitDocs | rust/rssparse.rs:82-93 | The loop of `_fit` computes `FitFrom` with `col_index` starting at 0. |
| Sparse.SparseMatrixBuilder.FitDoc | rust/rssparse.rs:85-90 | The inner loop over one document's keys computes `FitFrom`. |
| Sparse.SparseMatrixBuilder.TransformDocs | rust/rssparse.rs:121-140 | The loop of `_transform` computes the unzipped triplets. |
| Sparse.SparseMatrixBuilder.TransformDoc | rust/rssparse.rs:130-136 | The inner loop appends one document's triplets. |
| Sparse.Renew | rust/rssparse.rs:159-168 | A builder constructed from `__getnewargs__` has the same configuration, with nothing learned. |
| FlashText.Walk | rust/rsflashtext.rs:87-93 | The walk keeps every node, creates every prefix of the keyword, and creates nothing else. New nodes are unmarked. |
| FlashText.AddResult | rust/rsflashtext.rs:95-108 | The result is true if and only if the end path was absent. Then the count rises by one and the end node carries the label, and every prefix and old node is kept. Otherwise nothing changes. |
| FlashText.WalkWellFormed | rust/rsflashtext.rs:87-93 | The walk keeps the trie well formed and adds no end node. |
| FlashText.MarkWellFormed | rust/rsflashtext.rs:95-104 | Marking the end keeps the trie well formed and adds one end path. |
| FlashText.AddKeepsWellFormed | rust/rsflashtext.rs:87-108 | Adding keeps the trie well formed, and `terms_in_trie` equal to the number of keywords held. |
| FlashText.AddTwice | rust/rsflashtext.rs:95-108 | The same canonical keyword twice gives true, then false. The count rises once. |
| FlashText.UnderscoreShadows | rust/rsflashtext.rs:95-104 | After `"a_b"`, adding `"a"` returns false and `"a"` is never marked. |
| FlashText.NormalizedHasNoEndMark | rust/rsflashtext.rs:73-80 | A normalized keyword never contains `'_'`. |
| FlashText.Fold | rust/rsflashtext.rs:126-140 | One index-map entry per canonical character. The entries are non-decreasing and below the sentence's byte length. |
| FlashText.FoldIsAscii | rust/rsflashtext.rs:126-140 | With an ASCII table, the canonical sentence is ASCII. |
| FlashText.FoldOffsetsAreStarts | rust/rsflashtext.rs:128-138 | Each entry is the byte start of some original character. |
| FlashText.BuildIndexMap | rust/rsflashtext.rs:123-140 | The building loop computes `Fold`. |
| FlashText.EndCheckSound | rust/rsflashtext.rs:157-167 | A hit from the end test is sound and covers the cursor's span. |
| FlashText.ScanSound | rust/rsflashtext.rs:147-189 | Every hit of a scan that does not panic is sound: its span is a held keyword made of word characters, with the offsets of the span's ends. Hits come left to right without overlap. |
| FlashText.ScanNoPanic | rust/rsflashtext.rs:147-189 | The scan does not panic for an ASCII canonical sentence with a matching index map and no empty keyword. |
| FlashText.ScanWithoutOffsets | rust/rsflashtext.rs:157-161 | Without an index map, a scan that returns reports nothing. |
| FlashText.EmptyKeywordPanics | rust/rsflashtext.rs:157-161 | An empty keyword makes the scan panic on an empty sentence or one that opens with a boundary character. |
| FlashText.ScanPastCharsPanics | rust/rsflashtext.rs:153-155 | Without an index map, a sentence longer in bytes than in characters always panics. |
| FlashText.ScanKeywords | rust/rsflashtext.rs:147-191 | The scan loop computes `Scan`, with the rows reported. |
| FlashText.WalkPath | rust/rsflashtext.rs:87-93 | The walking loop computes `Walk`: it creates the node of every prefix of the keyword that is missing. |
| FlashText.KeywordProcessor.constructor | rust/rsflashtext.rs:38-58 | The flags are stored, the trie is empty and the count is 0. |
| FlashText.KeywordProcessor.AddKeyword | rust/rsflashtext.rs:71-109 | The new trie and count are those of `Add` on the canonical keyword, whose label defaults to the raw keyword. The flag is `Add`'s. The trie stays well formed. |
| FlashText.KeywordProcessor.AddAll | rust/rsflashtext.rs:60-69 | One flag per keyword. The fold keeps the trie well formed. |
| FlashText.KeywordProcessor.AddKeywordsMany | rust/rsflashtext.rs:60-69 | The method computes `AddAll`, calling `add_keyword` in order with the shared label. |
| FlashText.KeywordProcessor.ExtractKeywords | rust/rsflashtext.rs:121-192 | The rows reported are those of `Extraction`, and a panic is a panic. |
| FlashText.KeywordProcessor.ExtractKeywordsMany | rust/rsflashtext.rs:111-119 | The result succeeds if and only if every sentence does. It gives one result per sentence, in order. |
| FlashText.KeywordProcessor.ExtractNoPanic | rust/rsflashtext.rs:126-189 | In normalize mode, with an ASCII table and no empty keyword, extraction never panics. |
| FlashText.KeywordProcessor.ExtractSound | rust/rsflashtext.rs:147-189 | Every hit names a held keyword whose canonical text is the span it covers. Hits are in order. |
| FlashText.KeywordProcessor.ExtractBounds | rust/rsflashtext.rs:160-161 | In normalize mode, every reported `start < end <= byte length` of the sentence. |
| FlashText.KeywordProcessor.ExtractUnnormalizedEmpty | rust/rsflashtext.rs:141-145 | In lowercase and plain mode, an extraction that returns reports nothing. |
| FlashText.KeywordProcessor.ExtractNonAsciiPanics | rust/rsflashtext.rs:141-155 | Without normalization, a scanned text with a non-ASCII character panics. That is the sentence in plain mode and its lowercased form in lowercase mode. |
| FlashText.KeywordProcessor.NonWordKeywordNeverFound | rust/rsflashtext.rs:156-170 | A keyword holding a non-word character, such as a space, is never the span of a hit. |
| FlashText.AddHolds | rust/rsflashtext.rs:86-108 | Adding a new keyword makes the trie hold it: every prefix is a node and the end node carries the name. Every keyword held before is still held under its old name. |
| FlashText.AddTwoHolds | rust/rsflashtext.rs:86-108 | Two distinct lower-case keywords, added in turn to an empty trie with their own names, are both held. |
| FlashText.NormalizeLowerWord | rust/rsflashtext.rs:73-80 | A lower-case ASCII word is its own canonical form in normalize mode. |
| FlashText.FoldAsciiStep | rust/rsflashtext.rs:127-137 | On an ASCII sentence, a punctuation character adds nothing to the canonical sentence. Any other character adds itself lowercased, with its own index as its index-map entry. |
| FlashText.FoldLowerWord | rust/rsflashtext.rs:126-140 | A lower-case word is its own canonical sentence, and its index map is the identity. |
| FlashText.FoldGreeting | rust/rsflashtext.rs:126-140 | "Hello, world!" becomes "hello world". The index map skips the comma's byte, and the exclamation mark leaves no entry. |
| FlashText.ScanRun | rust/rsflashtext.rs:168-173 | A run of word characters, each a child of the node reached, only moves down the trie. It finds nothing and never goes back to the root. |
| FlashText.EndCheckHeld | rust/rsflashtext.rs:157-167 | At the node of a held keyword, the end test reports its name with the index-map offsets of the span's first and last characters. |
| FlashText.ScanLastWord | rust/rsflashtext.rs:153-189 | A held lower-case keyword that reaches the end of the sentence is reported by the test after the loop. Earlier hits are kept. |
| FlashText.ScanFirstWord | rust/rsflashtext.rs:153-179 | A held lower-case keyword at the head of the sentence, followed by a boundary character, is reported at that boundary. The scan then restarts from the root. |
| FlashText.ScanWholeWord | rust/rsflashtext.rs:147-189 | A sentence that is exactly a held lower-case keyword gives one hit over its whole span. |
| FlashText.ScanTwoWords | rust/rsflashtext.rs:147-189 | Two held lower-case keywords around one space give two hits, in order. The space closes the first. |
| FlashText.ScanKeeps | rust/rsflashtext.rs:147-189 | The scan only appends to the hits found so far: they stay, in front, in any scan that returns. |
| FlashText.ScanWholeWordHere | rust/rsflashtext.rs:153-189 | From the root at the head of a whole word that is a held keyword, a scan that returns reports it over exactly its span. |
| FlashText.ScanFindsWholeWord | rust/rsflashtext.rs:147-189 | Completeness of the scan: a held keyword of word characters standing as a whole word at any position (a boundary character or the edge of the text on both sides) is reported over exactly its span by every scan that returns, from any cursor before it. |
| FlashText.KeywordProcessor.ExtractFindsWholeWord | rust/rsflashtext.rs:121-192 | Every held keyword of word characters that is a whole word of the canonical sentence is reported over its span by an extraction that returns. In normalize mode, with an ASCII table and no empty keyword, the extraction returns and so always reports it. |
| FlashText.KeywordProcessor.TwoKeywordsHeld | rust/rsflashtext.rs:60-109 | In normalize mode, `add_keywords_many` with two distinct lower-case keywords and no label holds both, each named by itself. |
| FlashText.KeywordProcessor.ExtractHeldWord | rust/rsflashtext.rs:121-192 | In normalize mode, a sentence that is exactly a held lower-case keyword is reported once, over bytes 0 to its length. |
| FlashText.KeywordProcessor.ExtractGreeting | rust/rsflashtext.rs:121-192 | In normalize mode, with "hello" and "world" held, "Hello, world!" reports `("hello", 0, 5)` then `("world", 7, 12)`. |
| FlashText.KeywordProcessor.GreetingDoctest | python/lenlp/flash/flash_text.py:23-27 | The class's doctest. After adding "hello" and "world" in normalize mode, the three sentences give `[("hello", 0, 5), ("world", 7, 12)]`, `[("world", 0, 5)]` and `[("hello", 0, 5)]`. |

## Left out

- HashMap iteration order: `order` is one function of a map's contents, so equal maps are walked alike within a call and across calls. In Rust the order belongs to the `HashMap` instance, and every `rsvectorize_many` call builds fresh maps (rust/rscounter.rs:17). So `fit` then `transform` may number the columns and order each row's triplets differently from `fit_transform`. Only the set of (count, row, token) entries is the same, and the model does not capture that difference.
- Python bindings are not modelled: `register_functions`, the `#[pyclass]`/`#[pymethods]` glue, rust/lib.rs, src/lib.rs and setup.py.
- The numpy conversion `PyArray1::from_vec_bound` is not modelled. `transform` and `fit_transform` return the three vectors as sequences.
- rayon's `par_iter` is not modelled. Every `_many` function is a sequential map that preserves order, which is what `collect` returns.
- Persistence (`__setstate__`/`__getstate__`, rust/rssparse.rs:150-157) is not modelled. It serializes with bincode, a foreign crate. `Sparse.Renew` models only the `__getnewargs__` half of unpickling.
- The `unidecode` transliteration tables are the parameter `tr`. Their ASCII output and identity on ASCII are stated as the predicates `AsciiOutput` and `AsciiIdentity`, only where a result needs them.
- `to_lowercase` is modelled as ASCII lowercasing:
  - This is exact on `unidecode` output, which is ASCII.
  - In the lowercase-only keyword mode, and in the pipeline without normalization, non-ASCII case folding is not modelled. That includes foldings that change a text's length.
- FlashText.KeywordProcessor.ExtractNonAsciiPanics: in lowercase mode its premise is about the model's ASCII lowercasing. Rust's `to_lowercase` can turn a non-ASCII character into an ASCII one, for example U+212A KELVIN SIGN into `k`. A sentence like that does not panic in the source, and the model does not cover it.
- HashMap iteration order is the parameter `order` of `Sparse`. The `non_word_boundaries` set is the predicate `FlashText.IsWordChar`. The `keyword` field is the module constant `FlashText.Sentinel`, since no method changes it.
- `usize` overflow is not modelled. Counts, column indices and `terms_in_trie` are unbounded naturals.
- `end_pos - 1` with `end_pos == 0` is modelled as a panic. In a release build it wraps, and the index that follows it panics anyway.
- The tf-idf and BM25 weightings, which use floating point, are not modelled.
- The Python wrappers serve only as the source of the examples above. Their `fitted` guard is not modelled.
- src/rsvectorizer.rs is not part of this model. It calls normalizer and counter files that are not part of it either.
- `rschar_ngrams` of src/rsanalyzer.rs is the same code as in rust/rsanalyzer.rs, and `Analyzer.CharNgrams` models both.
- Analyzer.SplitWords: a size of 0 makes `slice::windows` panic. This is a precondition (positive sizes), not a `Panic` result. The same holds for `Analyzer.CharNgrams`, `Analyzer.CharWbNgrams`, `LegacyAnalyzer.CharWbNgrams` and the `_many` functions and vectorizer functions built on them.
- Sparse.FiveColumns takes the vectorized maps of the doctest as its premise. `Vectorizer.VectorizeWordExample` proves that the two doctest texts vectorize to them.
- FlashText.KeywordProcessor.ExtractNoPanic covers normalize mode only. In the other modes a keyword found always panics (`ExtractUnnormalizedEmpty`), and so does a scanned text with a non-ASCII character (`ExtractNonAsciiPanics`).
- A keyword with a space in it, such as `"ab cd"`, is never reported: the space is a boundary character (`NonWordKeywordNeverFound`).

## Findings

| source | as written | input that shows it | evidently intended | confidence | as-written member | corrected member |
|---|---|---|---|---|---|---|
| rust/rsnormalizer.rs:52 | The literal of `test_rsnormalize` ends in the four characters U+00F0 U+0178 U+02DC U+20AC. These are the UTF-8 bytes of the emoji U+1F600, read one by one as Windows-1252. | `"Hello World! ðŸ˜€"` as written: `unidecode` turns the four characters into `dY~EUR`, so `rsnormalize` returns `"hello world dyeur"` and the expected `"hello world"` does not match. The same literal appears at lines 58-60. | The emoji U+1F600, which `unidecode` maps to nothing, so the text normalizes to `"hello world"`. | not executed | Normalizer.NormalizeGreetingAsWritten | Normalizer.NormalizeGreeting |
| src/rsanalyzer.rs:160-172 | `test_rschar_wb_ngrams_many` expects four n-grams per text. | `["hello world", "goodbye world"]`, sizes `[3]`. `rschar_wb_ngrams` returns 6 and 8 n-grams, the windows of every word. | The expected lists are the actual results: `hel ell llo wor orl rld` and `goo ood odb dby bye wor orl rld`. | not executed | LegacyAnalyzer.CharWbNgramsManyTestExpectation | LegacyAnalyzer.CharWbNgramsManyExample |

=== FILE: analyzer.dfy ===
/** rust/rsanalyzer.rs: word n-grams and character n-grams. Every n-gram size
    is a `usize`; `slice::windows(0)` panics, so each scalar analyzer asks for
    positive sizes. */
module Analyzer {
  import opened Text

  predicate Positive(ns: seq<nat>) {
    forall k :: 0 <= k < |ns| ==> ns[k] > 0
  }

  /** How many windows of size `n` a slice of length `len` has. */
  function WindowCount(len: nat, n: nat): nat {
    if n <= len then len - n + 1 else 0
  }

  /** `slice::windows(n)`: the runs of `n` consecutive elements, left to right. */
  function Windows<T>(s: seq<T>, n: nat): (r: seq<seq<T>>)
    requires n > 0
    ensures |r| == WindowCount(|s|, n)
    ensures forall i :: 0 <= i < |r| ==> r[i] == s[i..i + n]
  {
    if n > |s| then []
    else
      var p := s[..|s| - 1];
      var r := Windows(p, n) + [s[|s| - n..]];
      assert forall i :: 0 <= i < |r| - 1 ==> r[i] == p[i..i + n] && p[i..i + n] == s[i..i + n];
      r
  }

  /** The word n-grams of one size: each window of words joined by one space. */
  function WordWindows(words: seq<string>, n: nat): (r: seq<string>)
    requires n > 0
    ensures |r| == WindowCount(|words|, n)
    ensures forall i :: 0 <= i < |r| ==> r[i] == JoinSpace(words[i..i + n])
  {
    var w := Windows(words, n);
    seq(|w|, i requires 0 <= i < |w| => JoinSpace(w[i]))
  }

  /** The output of `rssplit_words` for the words of a text: n-major, one block
      of windows per entry of `ns`, in the order of `ns`. */
  function WordNgrams(words: seq<string>, ns: seq<nat>): seq<string>
    requires Positive(ns)
  {
    if ns == [] then []
    else WordNgrams(words, ns[..|ns| - 1]) + WordWindows(words, ns[|ns| - 1])
  }

  /** `rssplit_words` */
  method SplitWords(text: string, ns: seq<nat>) returns (ngrams: seq<string>)
    requires Positive(ns)
    ensures ngrams == WordNgrams(Words(text), ns)
  {
    ngrams := [];
    for k := 0 to |ns|
      invariant ngrams == WordNgrams(Words(text), ns[..k])
    {
      var n := ns[k];
      var words := Words(text);
      ngrams := PushWordWindows(ngrams, words, n);
      WordNgramsStep(words, ns, k);
    }
    assert ns[..|ns|] == ns;
  }

  /** The inner loop of `rssplit_words`: push each window of `n` words, joined by one space. */
  method PushWordWindows(acc: seq<string>, words: seq<string>, n: nat) returns (ngrams: seq<string>)
    requires n > 0
    ensures ngrams == acc + WordWindows(words, n)
  {
    ngrams := acc;
    var windows := Windows(words, n);
    ghost var expected := WordWindows(words, n);
    for i := 0 to |windows|
      invariant ngrams == acc + expected[..i]
    {
      ngrams := ngrams + [JoinSpace(windows[i])];
      assert expected[..i + 1] == expected[..i] + [JoinSpace(windows[i])];
    }
    assert expected[..|windows|] == expected;
  }

  lemma WordNgramsStep(words: seq<string>, ns: seq<nat>, k: nat)
    requires Positive(ns) && k < |ns|
    ensures WordNgrams(words, ns[..k + 1]) == WordNgrams(words, ns[..k]) + WordWindows(words, ns[k])
  {
    assert ns[..k + 1][..k] == ns[..k];
  }

  /** The character n-grams of `text` for the sizes `ns`, n-major. */
  function CharNgramsOf(text: string, ns: seq<nat>): seq<string>
    requires Positive(ns)
  {
    if ns == [] then []
    else CharNgramsOf(text, ns[..|ns| - 1]) + Windows(text, ns[|ns| - 1])
  }

  /** The inner loop of the character analyzers: push each window of `n` characters. */
  method PushWindows(acc: seq<string>, chars: string, n: nat) returns (ngrams: seq<string>)
    requires n > 0
    ensures ngrams == acc + Windows(chars, n)
  {
    ngrams := acc;
    var windows := Windows(chars, n);
    for i := 0 to |windows|
      invariant ngrams == acc + windows[..i]
    {
      ngrams := ngrams + [windows[i]];
      assert windows[..i + 1] == windows[..i] + [windows[i]];
    }
    assert windows[..|windows|] == windows;
  }

  lemma CharNgramsStep(text: string, ns: seq<nat>, k: nat)
    requires Positive(ns) && k < |ns|
    ensures CharNgramsOf(text, ns[..k + 1]) == CharNgramsOf(text, ns[..k]) + Windows(text, ns[k])
  {
    assert ns[..k + 1][..k] == ns[..k];
  }

  /** `rschar_ngrams` */
  method CharNgrams(text: string, ns: seq<nat>) returns (ngrams: seq<string>)
    requires Positive(ns)
    ensures ngrams == CharNgramsOf(text, ns)
  {
    ngrams := [];
    for k := 0 to |ns|
      invariant ngrams == CharNgramsOf(text, ns[..k])
    {
      var n := ns[k];
      var chars := text;
      ngrams := PushWindows(ngrams, chars, n);
      CharNgramsStep(text, ns, k);
    }
    assert ns[..|ns|] == ns;
  }

  /** `rschar_wb_ngrams`: despite its name it emits exactly what `rschar_ngrams`
      emits; the size guard only skips sizes whose window list is empty anyway. */
  method CharWbNgrams(text: string, ns: seq<nat>) returns (ngrams: seq<string>)
    requires Positive(ns)
    ensures ngrams == CharNgramsOf(text, ns)
  {
    ngrams := [];
    var chars := text;
    for k := 0 to |ns|
      invariant ngrams == CharNgramsOf(text, ns[..k])
    {
      CharNgramsStep(text, ns, k);
      var n := ns[k];
      if n > |chars| {
        assert Windows(chars, n) == [];
        assert ngrams + [] == ngrams;
        continue;
      }
      ngrams := PushWindows(ngrams, chars, n);
    }
    assert ns[..|ns|] == ns;
  }

  /** The number of n-grams over a sequence of length `len`, summed over `ns`. */
  function WindowTotal(len: nat, ns: seq<nat>): nat {
    if ns == [] then 0 else WindowTotal(len, ns[..|ns| - 1]) + WindowCount(len, ns[|ns| - 1])
  }

  /** Output is grouped by size, in the order of `ns`. */
  lemma {:induction false} WordNgramsAppend(words: seq<string>, ns1: seq<nat>, ns2: seq<nat>)
    requires Positive(ns1) && Positive(ns2)
    ensures Positive(ns1 + ns2)
    ensures WordNgrams(words, ns1 + ns2) == WordNgrams(words, ns1) + WordNgrams(words, ns2)
    decreases |ns2|
  {
    var ns := ns1 + ns2;
    if ns2 == [] {
      assert ns == ns1;
    } else {
      var last := |ns2| - 1;
      assert ns[..|ns| - 1] == ns1 + ns2[..last];
      assert ns[|ns| - 1] == ns2[last];
      WordNgramsAppend(words, ns1, ns2[..last]);
      Regroup(WordNgrams(words, ns), WordNgrams(words, ns1 + ns2[..last]), WordNgrams(words, ns1),
        WordNgrams(words, ns2[..last]), WordWindows(words, ns2[last]), WordNgrams(words, ns2));
    }
  }

  /** `max(0, W - n + 1)` word n-grams for each size `n`, `W` the number of words. */
  lemma {:induction false} WordNgramsCount(words: seq<string>, ns: seq<nat>)
    requires Positive(ns)
    ensures |WordNgrams(words, ns)| == WindowTotal(|words|, ns)
  {
    if ns != [] {
      WordNgramsCount(words, ns[..|ns| - 1]);
    }
  }

  /** A word n-gram splits back into exactly the `n` consecutive words it was made of. */
  lemma WordWindowsSplit(words: seq<string>, n: nat, i: nat)
    requires AllTokens(words)
    requires n > 0 && i < WindowCount(|words|, n)
    ensures Words(WordWindows(words, n)[i]) == words[i..i + n]
  {
    var ws := words[i..i + n];
    assert AllTokens(ws) by {
      forall j | 0 <= j < |ws| ensures IsToken(ws[j]) {
        assert ws[j] == words[i + j];
      }
    }
    assert WordWindows(words, n)[i] == JoinSpace(ws);
    WordsOfJoinSpace(ws);
  }

  /** An empty or all-whitespace text has no word n-grams, whatever the sizes. */
  lemma {:induction false} WordNgramsOfBlank(text: string, ns: seq<nat>)
    requires Positive(ns)
    requires forall i :: 0 <= i < |text| ==> IsWhitespace(text[i])
    ensures WordNgrams(Words(text), ns) == []
  {
    if ns != [] {
      WordsOfBlank(text);
      WordNgramsOfBlank(text, ns[..|ns| - 1]);
    }
  }

  /** With the sizes `[1]` the word n-grams are the words themselves. */
  lemma WordUnigrams(words: seq<string>)
    ensures WordNgrams(words, [1]) == words
  {
    assert [1][..0] == [];
    var w := WordWindows(words, 1);
    forall i | 0 <= i < |w| ensures w[i] == words[i] {
      assert words[i..i + 1] == [words[i]];
    }
  }

  /** Character n-grams are grouped by size, in the order of `ns`. */
  lemma {:induction false} CharNgramsAppend(text: string, ns1: seq<nat>, ns2: seq<nat>)
    requires Positive(ns1) && Positive(ns2)
    ensures Positive(ns1 + ns2)
    ensures CharNgramsOf(text, ns1 + ns2) == CharNgramsOf(text, ns1) + CharNgramsOf(text, ns2)
    decreases |ns2|
  {
    var ns := ns1 + ns2;
    if ns2 == [] {
      assert ns == ns1;
    } else {
      var last := |ns2| - 1;
      assert ns[..|ns| - 1] == ns1 + ns2[..last];
      assert ns[|ns| - 1] == ns2[last];
      CharNgramsAppend(text, ns1, ns2[..last]);
      Regroup(CharNgramsOf(text, ns), CharNgramsOf(text, ns1 + ns2[..last]), CharNgramsOf(text, ns1),
        CharNgramsOf(text, ns2[..last]), Windows(text, ns2[last]), CharNgramsOf(text, ns2));
    }
  }

  /** `max(0, L - n + 1)` character n-grams for each size `n`, `L` the number of characters. */
  lemma {:induction false} CharNgramsCount(text: string, ns: seq<nat>)
    requires Positive(ns)
    ensures |CharNgramsOf(text, ns)| == WindowTotal(|text|, ns)
  {
    if ns != [] {
      CharNgramsCount(text, ns[..|ns| - 1]);
    }
  }

  /** The empty text has no character n-grams. */
  lemma {:induction false} CharNgramsOfEmpty(ns: seq<nat>)
    requires Positive(ns)
    ensures CharNgramsOf("", ns) == []
  {
    if ns != [] {
      CharNgramsOfEmpty(ns[..|ns| - 1]);
    }
  }

  /** Doctest of lenlp/analyzer/analyze.py: `char_wb` n-grams of size 3 of
      "Hello, world!" cross the space and keep the punctuation. */
  lemma CharNgramsExample()
    ensures CharNgramsOf("Hello, world!", [3])
      == ["Hel", "ell", "llo", "lo,", "o, ", ", w", " wo", "wor", "orl", "rld", "ld!"]
  {
    var s := "Hello, world!";
    assert [3][..0] == [];
    assert CharNgramsOf(s, [3]) == Windows(s, 3);
    WindowsOfGreeting(s);
  }

  lemma WindowsOfGreeting(s: string)
    requires s == "Hello, world!"
    ensures Windows(s, 3)
      == ["Hel", "ell", "llo", "lo,", "o, ", ", w", " wo", "wor", "orl", "rld", "ld!"]
  {
    var w := Windows(s, 3);
    assert w[0] == s[0..3] == "Hel";
    assert w[1] == s[1..4] == "ell";
    assert w[2] == s[2..5] == "llo";
    assert w[3] == s[3..6] == "lo,";
    assert w[4] == s[4..7] == "o, ";
    assert w[5] == s[5..8] == ", w";
    assert w[6] == s[6..9] == " wo";
    assert w[7] == s[7..10] == "wor";
    assert w[8] == s[8..11] == "orl";
    assert w[9] == s[9..12] == "rld";
    assert w[10] == s[10..13] == "ld!";
  }

  /** The tokens of "Hello, world!" keep their punctuation. */
  lemma HelloWorldWords()
    ensures Words("Hello, world!") == ["Hello,", "world!"]
  {
    assert IsToken("Hello,") && IsToken("world!");
    assert JoinSpace(["Hello,", "world!"]) == "Hello, world!";
    WordsOfJoinSpace(["Hello,", "world!"]);
  }

  /** Doctests of lenlp/analyzer/analyze.py and lenlp/counter/count.py: the
      words of "Hello, world!" are its two tokens, punctuation kept, and its
      one bigram is the whole text. */
  lemma SplitWordsExample(s: string)
    requires s == "Hello, world!"
    ensures WordNgrams(Words(s), [1]) == ["Hello,", "world!"]
    ensures WordNgrams(Words(s), [2]) == [s]
  {
    HelloWorldWords();
    GreetingWordNgrams(Words(s), s);
  }

  lemma GreetingWordNgrams(ws: seq<string>, s: string)
    requires ws == ["Hello,", "world!"] && s == "Hello, world!"
    ensures WordNgrams(ws, [1]) == ws
    ensures WordNgrams(ws, [2]) == [s]
  {
    assert [1][..0] == [] && [2][..0] == [];
    assert WordWindows(ws, 1) == ws by {
      assert ws[0..1] == ["Hello,"] && ws[1..2] == ["world!"];
    }
    assert WordWindows(ws, 2) == [s] by {
      assert ws[0..2] == ws;
      assert JoinSpace(ws) == s;
    }
  }

  /** `rssplit_words_many`: one result per text, in order. */
  function SplitWordsMany(texts: seq<string>, ns: seq<nat>): (r: seq<seq<string>>)
    requires |texts| > 0 ==> Positive(ns)
    ensures |r| == |texts|
    ensures forall i :: 0 <= i < |texts| ==> r[i] == WordNgrams(Words(texts[i]), ns)
  {
    seq(|texts|, i requires 0 <= i < |texts| => WordNgrams(Words(texts[i]), ns))
  }

  /** `rschar_ngrams_many`, and `rschar_wb_ngrams_many`, whose scalar function
      emits the same n-grams: one result per text, in order. */
  function CharNgramsMany(texts: seq<string>, ns: seq<nat>): (r: seq<seq<string>>)
    requires |texts| > 0 ==> Positive(ns)
    ensures |r| == |texts|
    ensures forall i :: 0 <= i < |texts| ==> r[i] == CharNgramsOf(texts[i], ns)
  {
    seq(|texts|, i requires 0 <= i < |texts| => CharNgramsOf(texts[i], ns))
  }
}

=== FILE: base.dfy ===
/** Shared wrappers of the model.
    A Rust `panic!` (an `unwrap` on `None`, an index out of bounds, an
    arithmetic underflow) is modelled as the `Panic` alternative of `Result`. */
module Base {

  datatype Option<+T> = None | Some(value: T) {
    function GetOr(default: T): T {
      match this
      case Some(v) => v
      case None => default
    }
  }

  datatype Result<+T> = Ok(value: T) | Panic(msg: string)
}

=== FILE: counter.dfy ===
/** rust/rscounter.rs: term frequencies. A Rust `HashMap<String, usize>` is a
    Dafny `map<string, nat>`; its iteration order plays no part here. */
module Counter {

  /** `*word_counter.entry(word).or_insert(0) += 1` */
  function Bump(m: map<string, nat>, w: string): (r: map<string, nat>)
    ensures r.Keys == m.Keys + {w}
    ensures r[w] == (if w in m then m[w] else 0) + 1
    ensures forall k :: k in m && k != w ==> r[k] == m[k]
  {
    m[w := (if w in m then m[w] else 0) + 1]
  }

  /** The map the loop of `rscount` has built after reading `text`. */
  function Counts(text: seq<string>): map<string, nat>
  {
    if text == [] then map[] else Bump(Counts(text[..|text| - 1]), text[|text| - 1])
  }

  /** `rscount`: one pass over the words, bumping each word's entry. */
  method Count(text: seq<string>) returns (counts: map<string, nat>)
    ensures counts == Counts(text)
  {
    counts := map[];
    var i := 0;
    while i < |text|
      invariant 0 <= i <= |text|
      invariant counts == Counts(text[..i])
    {
      var word := text[i];
      assert text[..i + 1][..i] == text[..i];
      counts := counts[word := (if word in counts then counts[word] else 0) + 1];
      i := i + 1;
    }
    assert text[..i] == text;
  }

  /** The keys are exactly the distinct words, and each value is the word's
      number of occurrences. */
  lemma {:induction false} CountsIsMultiplicity(text: seq<string>)
    ensures forall w :: w in Counts(text) <==> w in multiset(text)
    ensures forall w :: w in Counts(text) ==> Counts(text)[w] == multiset(text)[w]
  {
    if text != [] {
      var p, w := text[..|text| - 1], text[|text| - 1];
      CountsIsMultiplicity(p);
      assert text == p + [w];
      assert multiset(text) == multiset(p) + multiset{w};
    }
  }

  /** Every value is at least 1. */
  lemma CountsPositive(text: seq<string>)
    ensures forall w :: w in Counts(text) ==> Counts(text)[w] >= 1
  {
    CountsIsMultiplicity(text);
  }

  /** The count does not depend on the order of the words. */
  lemma CountsPermutation(a: seq<string>, b: seq<string>)
    requires multiset(a) == multiset(b)
    ensures Counts(a) == Counts(b)
  {
    CountsIsMultiplicity(a);
    CountsIsMultiplicity(b);
  }

  /** The sum of the values of a map. */
  ghost function Total(m: map<string, nat>): nat
    decreases |m.Keys|
  {
    if m == map[] then 0
    else
      var k :| k in m;
      assert |(m - {k}).Keys| < |m.Keys| by { assert m.Keys == (m - {k}).Keys + {k}; }
      m[k] + Total(m - {k})
  }

  /** `Total` may take its entries in any order. */
  lemma {:induction false} TotalRemove(m: map<string, nat>, k: string)
    requires k in m
    ensures Total(m) == m[k] + Total(m - {k})
    decreases |m.Keys|
  {
    var j :| j in m && Total(m) == m[j] + Total(m - {j});
    if j != k {
      assert m.Keys == (m - {j}).Keys + {j};
      assert m.Keys == (m - {k}).Keys + {k};
      TotalRemove(m - {j}, k);
      TotalRemove(m - {k}, j);
      assert m - {j} - {k} == m - {k} - {j};
    }
  }

  lemma TotalBump(m: map<string, nat>, w: string)
    ensures Total(Bump(m, w)) == Total(m) + 1
  {
    var r := Bump(m, w);
    TotalRemove(r, w);
    if w in m {
      TotalRemove(m, w);
      assert r - {w} == m - {w};
    } else {
      assert r - {w} == m;
    }
  }

  /** The values add up to the number of words. */
  lemma {:induction false} CountsTotal(text: seq<string>)
    ensures Total(Counts(text)) == |text|
  {
    if text != [] {
      CountsTotal(text[..|text| - 1]);
      TotalBump(Counts(text[..|text| - 1]), text[|text| - 1]);
    }
  }

  /** Unit test `test_rscount`. */
  lemma CountExample()
    ensures Counts(["hello", "world", "hello", "hello"]) == map["hello" := 3, "world" := 1]
  {
    var t := ["hello", "world", "hello", "hello"];
    assert t[..3][..2][..1] == ["hello"];
    assert Counts(["hello"]) == map["hello" := 1] by {
      assert ["hello"][..0] == [];
    }
    assert t[..3][..2] == ["hello", "world"];
    assert Counts(["hello", "world"]) == map["hello" := 1, "world" := 1];
    assert t[..3] == ["hello", "world", "hello"];
    assert Counts(t[..3]) == map["hello" := 2, "world" := 1];
    assert Counts(t) == Bump(Counts(t[..3]), "hello");
  }

  /** `rscount_many`: one count per input, in order. */
  function CountMany(texts: seq<seq<string>>): (r: seq<map<string, nat>>)
    ensures |r| == |texts|
    ensures forall i :: 0 <= i < |texts| ==> r[i] == Counts(texts[i])
  {
    if texts == [] then [] else [Counts(texts[0])] + CountMany(texts[1..])
  }

  /** Unit test `test_rscount_many`. */
  lemma CountManyExample()
    ensures CountMany([["hello", "world"], ["hello", "world", "hello"]])
      == [map["hello" := 1, "world" := 1], map["hello" := 2, "world" := 1]]
  {
    var a, b := ["hello", "world"], ["hello", "world", "hello"];
    assert a[..1] == ["hello"];
    assert Counts(["hello"]) == map["hello" := 1] by {
      assert ["hello"][..0] == [];
    }
    assert Counts(a) == map["hello" := 1, "world" := 1];
    assert b[..2] == a;
    assert Counts(b) == map["hello" := 2, "world" := 1];
    var texts := [a, b];
    assert texts[1..] == [b];
    assert CountMany(texts) == [Counts(a), Counts(b)];
  }
}

=== FILE: flashtext.dfy ===
/** rust/rsflashtext.rs: the keyword trie of `RSKeywordProcessor` and its
    greedy keyword scan.

    The Rust trie is a nest of `HashMap<char, RSTrieNode>`. Here a node is
    named by the path of characters that leads to it from the root map, so the
    whole trie is one map from non-empty paths to node records; the root map
    itself is the empty path. The end of a keyword is the child keyed by the
    first character of the sentinel `"_keyword_"`. */
module FlashText {
  import opened Base
  import opened Text
  import Normalizer

  /** The processor's `keyword` field. */
  const Sentinel: string := "_keyword_"

  /** The key of the end-of-keyword child: `self.keyword.chars().next()`. */
  const EndMark: char := Sentinel[0]

  /** `non_word_boundaries`: ASCII digits, ASCII letters and `_`. */
  predicate IsWordChar(c: char) {
    ('0' <= c <= '9') || ('a' <= c <= 'z') || ('A' <= c <= 'Z') || c == '_'
  }

  /** `RSTrieNode` without its children, which the paths stand for. */
  datatype Node = Node(isEnd: bool, cleanName: Option<string>)

  type Trie = map<string, Node>

  /** Every node hangs below its parent, and only end nodes are marked, each
      with a name. */
  ghost predicate WellFormed(t: Trie) {
    && (forall p :: p in t ==> p != [])
    && (forall p, k :: p in t && 0 < k < |p| ==> p[..k] in t)
    && (forall p :: p in t && t[p].isEnd ==> t[p].cleanName.Some? && p[|p| - 1] == EndMark)
  }

  /** The paths of the end nodes: one per keyword held. */
  ghost function EndPaths(t: Trie): set<string> {
    set p | p in t && t[p].isEnd
  }

  /** `p` is a non-empty prefix of `kw`. */
  predicate IsPrefix(p: string, kw: string) {
    0 < |p| <= |kw| && p == kw[..|p|]
  }

  /** The walk of `add_keyword` (`entry(char).or_insert_with(RSTrieNode::new)`):
      a fresh unmarked node for each prefix of `kw` not yet present; existing
      nodes are reused as they are. */
  function Walk(t: Trie, kw: string): (r: Trie)
    ensures forall p :: p in t ==> p in r && r[p] == t[p]
    ensures forall k :: 0 < k <= |kw| ==> kw[..k] in r
    ensures forall p :: p in r && p !in t ==> IsPrefix(p, kw) && r[p] == Node(false, None)
  {
    if kw == [] then t
    else
      var w := Walk(t, kw[..|kw| - 1]);
      assert forall k :: 0 < k < |kw| ==> kw[..|kw| - 1][..k] == kw[..k];
      assert kw[..|kw|] == kw;
      if kw in w then w else w[kw := Node(false, None)]
  }

  /** One more character of the walk. */
  lemma WalkStep(t: Trie, kw: string, i: nat)
    requires i < |kw|
    ensures Walk(t, kw[..i + 1]) ==
      var w := Walk(t, kw[..i]);
      if kw[..i + 1] in w then w else w[kw[..i + 1] := Node(false, None)]
  {
    assert kw[..i + 1][..i] == kw[..i];
  }

  /** What the processor holds: the trie and `terms_in_trie`. */
  datatype Keywords = Keywords(trie: Trie, terms: nat)

  /** `add_keyword` once the keyword is in canonical form: walk, then add an
      end node unless the last node already has a child keyed `'_'`. */
  function Add(s: Keywords, kw: string, name: string): (bool, Keywords)
  {
    var w := Walk(s.trie, kw);
    var end := kw + [EndMark];
    if end !in w then (true, Keywords(w[end := Node(true, Some(name))], s.terms + 1))
    else (false, Keywords(w, s.terms))
  }

  /** `add_keyword` succeeds exactly when the end path is new; it then counts
      one more term and marks the end with the name, keeping every existing
      node; otherwise it changes nothing (the walk only retraces nodes that
      are already there). */
  lemma AddResult(s: Keywords, kw: string, name: string)
    requires WellFormed(s.trie)
    ensures var (added, r) := Add(s, kw, name);
      && (added <==> kw + [EndMark] !in s.trie)
      && (added ==> r.terms == s.terms + 1 && r.trie[kw + [EndMark]] == Node(true, Some(name)))
      && (added ==> forall k :: 0 < k <= |kw| ==> kw[..k] in r.trie)
      && (forall p :: p in s.trie ==> p in r.trie && r.trie[p] == s.trie[p])
      && (!added ==> r == s)
  {
    var end := kw + [EndMark];
    var w := Walk(s.trie, kw);
    assert !IsPrefix(end, kw);
    if end in s.trie {
      forall k | 0 < k <= |kw| ensures kw[..k] in s.trie {
        assert end[..k] == kw[..k];
      }
      forall p | p in w && IsPrefix(p, kw) ensures p in s.trie {
        assert p == kw[..|p|];
      }
      assert w == s.trie;
    }
  }

  /** `add_keyword` keeps the trie well formed and `terms_in_trie` equal to the
      number of keywords held. */
  lemma AddKeepsWellFormed(s: Keywords, kw: string, name: string)
    requires WellFormed(s.trie) && s.terms == |EndPaths(s.trie)|
    ensures var r := Add(s, kw, name).1;
      WellFormed(r.trie) && r.terms == |EndPaths(r.trie)|
  {
    var w := Walk(s.trie, kw);
    var end := kw + [EndMark];
    AddResult(s, kw, name);
    WalkWellFormed(s.trie, kw);
    assert EndPaths(w) == EndPaths(s.trie);
    if end !in w {
      MarkWellFormed(w, kw, name);
    }
  }

  /** Marking the end of a walked keyword keeps the trie well formed and adds
      one end path. */
  lemma MarkWellFormed(w: Trie, kw: string, name: string)
    requires WellFormed(w) && kw + [EndMark] !in w
    requires forall k :: 0 < k <= |kw| ==> kw[..k] in w
    ensures var t := w[kw + [EndMark] := Node(true, Some(name))];
      WellFormed(t) && |EndPaths(t)| == |EndPaths(w)| + 1
  {
    MarkPrefixClosed(w, kw, name);
    MarkCounts(w, kw + [EndMark], name);
  }

  lemma MarkPrefixClosed(w: Trie, kw: string, name: string)
    requires WellFormed(w)
    requires forall k :: 0 < k <= |kw| ==> kw[..k] in w
    ensures WellFormed(w[kw + [EndMark] := Node(true, Some(name))])
  {
    var end := kw + [EndMark];
    var t := w[end := Node(true, Some(name))];
    forall p, k | p in t && 0 < k < |p| ensures p[..k] in t {
      if p == end {
        assert end[..k] == kw[..k];
      }
    }
  }

  lemma MarkCounts(w: Trie, end: string, name: string)
    requires end !in w
    ensures |EndPaths(w[end := Node(true, Some(name))])| == |EndPaths(w)| + 1
  {
    assert EndPaths(w[end := Node(true, Some(name))]) == EndPaths(w) + {end};
  }

  lemma WalkWellFormed(t: Trie, kw: string)
    requires WellFormed(t)
    ensures WellFormed(Walk(t, kw))
  {
    var w := Walk(t, kw);
    forall p, k | p in w && 0 < k < |p| ensures p[..k] in w {
      if p !in t {
        assert p == kw[..|p|] && p[..k] == kw[..k];
      }
    }
  }

  /** Adding the same canonical keyword twice: the first call succeeds, the
      second fails, and the count rises once. */
  lemma AddTwice(s: Keywords, kw: string, n1: string, n2: string)
    requires WellFormed(s.trie) && kw + [EndMark] !in s.trie
    ensures var (a1, r1) := Add(s, kw, n1);
      var (a2, r2) := Add(r1, kw, n2);
      a1 && !a2 && r2 == r1 && r2.terms == s.terms + 1
  {
    AddResult(s, kw, n1);
    var r1 := Add(s, kw, n1).1;
    AddKeepsWellFormed(Keywords(s.trie, |EndPaths(s.trie)|), kw, n1);
    assert WellFormed(r1.trie) by {
      assert Add(Keywords(s.trie, |EndPaths(s.trie)|), kw, n1).1.trie == r1.trie;
    }
    AddResult(r1, kw, n2);
  }

  /** The end mark shares the key space with ordinary characters and only its
      presence is tested: once `"a_b"` is held, adding `"a"` fails, and the
      node at `"a_"` stays an inner node, so `"a"` is never held. */
  lemma UnderscoreShadows(s: Keywords, n1: string, n2: string)
    requires s == Keywords(map[], 0)
    ensures var r1 := Add(s, "a_b", n1).1;
      var (a2, r2) := Add(r1, "a", n2);
      !a2 && r2 == r1 && "a_" in r2.trie && !r2.trie["a_"].isEnd
  {
    var kw := "a_b";
    var r1 := Add(s, kw, n1).1;
    assert kw[..2] == "a_";
    assert "a" + [EndMark] == "a_";
    AddKeepsWellFormed(s, kw, n1);
    AddResult(r1, "a", n2);
  }

  /** A keyword canonicalised by normalization never contains `'_'`, which is
      ASCII punctuation, so its end mark cannot collide with its own text. */
  lemma NormalizedHasNoEndMark(tr: char -> string, kw: string)
    ensures EndMark !in Normalizer.Normalize(tr, kw)
  {
    Normalizer.NormalizeShape(tr, kw);
    assert IsAsciiPunctuation(EndMark);
  }

  /** The canonical sentence of `extract_keywords` in normalize mode, with its
      index map: each character that is not ASCII punctuation contributes its
      lowercased transliteration, and every character it yields records the
      byte offset of its source character. Punctuation contributes nothing
      but still advances the byte offset. The result is not trimmed. */
  datatype Folding = Folding(text: string, offsets: seq<nat>)

  function Fold(tr: char -> string, s: string): (f: Folding)
    ensures |f.offsets| == |f.text|
    ensures forall i :: 0 <= i < |f.offsets| ==> f.offsets[i] < ByteLen(s)
    ensures forall i, j :: 0 <= i <= j < |f.offsets| ==> f.offsets[i] <= f.offsets[j]
  {
    if s == [] then Folding([], [])
    else
      var p := Fold(tr, s[..|s| - 1]);
      var c := s[|s| - 1];
      if IsAsciiPunctuation(c) then p
      else
        var nc := ToLower(tr(c));
        var here := ByteLen(s[..|s| - 1]);
        Folding(p.text + nc, p.offsets + seq(|nc|, _ => here))
  }

  /** Given an ASCII transliteration, the canonical sentence is ASCII. */
  lemma {:induction false} FoldIsAscii(tr: char -> string, s: string)
    requires AsciiOutput(tr)
    ensures IsAscii(Fold(tr, s).text)
  {
    if s != [] {
      FoldIsAscii(tr, s[..|s| - 1]);
      assert IsAscii(tr(s[|s| - 1]));
    }
  }

  /** An offset is the byte position where a source character starts. */
  lemma {:induction false} FoldOffsetsAreStarts(tr: char -> string, s: string, i: nat)
    requires i < |Fold(tr, s).offsets|
    ensures exists j :: 0 <= j < |s| && Fold(tr, s).offsets[i] == ByteLen(s[..j])
  {
    var p := Fold(tr, s[..|s| - 1]);
    if i < |p.offsets| {
      FoldOffsetsAreStarts(tr, s[..|s| - 1], i);
      var j :| 0 <= j < |s| - 1 && p.offsets[i] == ByteLen(s[..|s| - 1][..j]);
      assert s[..|s| - 1][..j] == s[..j];
    } else {
      assert Fold(tr, s).offsets[i] == ByteLen(s[..|s| - 1]);
    }
  }

  /** One keyword occurrence as the scan finds it: the name, the span
      `[from, to)` of the canonical sentence it covers, and its byte offsets
      in the original sentence. Only the name and the offsets are returned. */
  datatype Hit = Hit(name: string, from: nat, to: nat, start: nat, end: nat)

  /** The scan state: the trie node reached (as its path), `start_pos`,
      `end_pos` and `idx`. */
  datatype Cursor = Cursor(node: string, startPos: nat, endPos: nat, idx: nat)

  function Opt(h: Option<Hit>): seq<Hit> {
    if h.Some? then [h.value] else []
  }

  /** The end test at a boundary and after the loop: if the node has a
      `'_'` child marked as an end, report its name with the offsets of the
      span. `clean_name.unwrap()`, `index_map[start_pos]` and
      `index_map[end_pos - 1]` panic when they fail. */
  function EndCheck(t: Trie, offsets: seq<nat>, c: Cursor): Result<Option<Hit>>
  {
    var end := c.node + [EndMark];
    if end in t && t[end].isEnd then
      if t[end].cleanName.None? then Panic("called `Option::unwrap()` on a `None` value")
      else if c.startPos >= |offsets| then Panic("index out of bounds")
      else if c.endPos == 0 then Panic("attempt to subtract with overflow")
      else if c.endPos - 1 >= |offsets| then Panic("index out of bounds")
      else Ok(Some(Hit(t[end].cleanName.value, c.startPos, c.endPos, offsets[c.startPos], offsets[c.endPos - 1] + 1)))
    else Ok(None)
  }

  /** The scan loop from the cursor `c`, with the hits found so far. The
      loop runs while `idx` is below the byte length of the canonical
      sentence and fetches the `idx`-th character, which panics past the
      character count. */
  function Scan(t: Trie, text: string, offsets: seq<nat>, c: Cursor, found: seq<Hit>): Result<seq<Hit>>
    decreases ByteLen(text) - c.idx
  {
    if c.idx < ByteLen(text) then
      if c.idx >= |text| then Panic("called `Option::unwrap()` on a `None` value")
      else
        var ch := text[c.idx];
        if !IsWordChar(ch) then
          match EndCheck(t, offsets, c)
          case Panic(msg) => Panic(msg)
          case Ok(h) => Scan(t, text, offsets, Cursor([], c.idx + 1, c.endPos, c.idx + 1), found + Opt(h))
        else if c.node + [ch] in t then
          Scan(t, text, offsets, Cursor(c.node + [ch], c.startPos, c.idx + 1, c.idx + 1), found)
        else
          Scan(t, text, offsets, Cursor([], c.idx + 1, c.endPos, c.idx + 1), found)
    else
      match EndCheck(t, offsets, c)
      case Panic(msg) => Panic(msg)
      case Ok(h) => Ok(found + Opt(h))
  }

  const Start := Cursor([], 0, 0, 0)

  /** What the cursor knows at the head of the loop: the node reached is the
      run of word characters from `start_pos` up to `idx`, and `end_pos`
      closes it whenever that run is not empty. */
  ghost predicate CursorOk(text: string, c: Cursor) {
    && c.startPos <= c.idx <= |text|
    && (c.node == [] ==> c.startPos == c.idx)
    && (c.node != [] ==> c.endPos == c.idx && c.startPos < c.endPos && c.node == text[c.startPos..c.endPos])
    && (forall k :: 0 <= k < |c.node| ==> IsWordChar(c.node[k]))
  }

  /** A reported hit names a keyword held in the trie whose canonical text is
      the span it covers, a run of word characters, and carries the offsets of
      the first and just past the last character of the span. */
  ghost predicate Sound(t: Trie, text: string, offsets: seq<nat>, h: Hit) {
    && h.from < h.to <= |text| && h.to <= |offsets|
    && var end := text[h.from..h.to] + [EndMark];
    && end in t && t[end].isEnd && t[end].cleanName == Some(h.name)
    && (forall k :: h.from <= k < h.to ==> IsWordChar(text[k]))
    && h.start == offsets[h.from] && h.end == offsets[h.to - 1] + 1
  }

  ghost predicate AllSound(t: Trie, text: string, offsets: seq<nat>, hits: seq<Hit>) {
    forall i :: 0 <= i < |hits| ==> Sound(t, text, offsets, hits[i])
  }

  /** Hits come left to right, their spans apart. */
  ghost predicate InOrder(hits: seq<Hit>) {
    forall i :: 0 <= i < |hits| - 1 ==> hits[i].to < hits[i + 1].from
  }

  /** The end test reports a sound hit, past every earlier one. */
  lemma EndCheckSound(t: Trie, text: string, offsets: seq<nat>, c: Cursor, found: seq<Hit>)
    requires CursorOk(text, c) && [EndMark] !in t
    requires forall i :: 0 <= i < |found| ==> found[i].to < c.startPos
    requires EndCheck(t, offsets, c).Ok?
    ensures forall h :: h in Opt(EndCheck(t, offsets, c).value) ==>
      Sound(t, text, offsets, h) && h.from == c.startPos && h.to == c.endPos
  {
    var end := c.node + [EndMark];
    if c.node == [] {
      assert end == [EndMark];
    } else if end in t && t[end].isEnd {
      assert text[c.startPos..c.endPos] + [EndMark] == end;
      forall k | c.startPos <= k < c.endPos ensures IsWordChar(text[k]) {
        assert text[k] == c.node[k - c.startPos];
      }
    }
  }

  /** A word character with a matching child extends the run. */
  lemma ExtendOk(text: string, c: Cursor)
    requires CursorOk(text, c) && c.idx < |text| && IsWordChar(text[c.idx])
    ensures CursorOk(text, Cursor(c.node + [text[c.idx]], c.startPos, c.idx + 1, c.idx + 1))
  {
    assert text[c.startPos..c.idx + 1] == text[c.startPos..c.idx] + [text[c.idx]];
  }

  /** Under the conditions of `ScanNoPanic` the end test does not panic. */
  lemma EndCheckOk(t: Trie, text: string, offsets: seq<nat>, c: Cursor)
    requires CursorOk(text, c) && [EndMark] !in t && WellFormed(t) && |offsets| == |text|
    ensures EndCheck(t, offsets, c).Ok?
  {
    if c.node == [] {
      assert c.node + [EndMark] == [EndMark];
    }
  }

  /** Every hit of a scan that does not panic is sound, and the hits come in
      order. */
  lemma {:induction false} ScanSound(t: Trie, text: string, offsets: seq<nat>, c: Cursor, found: seq<Hit>)
    requires CursorOk(text, c) && [EndMark] !in t
    requires forall i :: 0 <= i < |found| ==> Sound(t, text, offsets, found[i]) && found[i].to < c.startPos
    requires InOrder(found)
    ensures var r := Scan(t, text, offsets, c, found);
      r.Ok? ==> InOrder(r.value) && forall i :: 0 <= i < |r.value| ==> Sound(t, text, offsets, r.value[i])
    decreases ByteLen(text) - c.idx
  {
    if c.idx < ByteLen(text) && c.idx < |text| {
      var ch := text[c.idx];
      if !IsWordChar(ch) {
        if EndCheck(t, offsets, c).Ok? {
          EndCheckSound(t, text, offsets, c, found);
          var more := found + Opt(EndCheck(t, offsets, c).value);
          ScanSound(t, text, offsets, Cursor([], c.idx + 1, c.endPos, c.idx + 1), more);
        }
      } else if c.node + [ch] in t {
        ExtendOk(text, c);
        ScanSound(t, text, offsets, Cursor(c.node + [ch], c.startPos, c.idx + 1, c.idx + 1), found);
      } else {
        ScanSound(t, text, offsets, Cursor([], c.idx + 1, c.endPos, c.idx + 1), found);
      }
    } else if c.idx >= ByteLen(text) && EndCheck(t, offsets, c).Ok? {
      EndCheckSound(t, text, offsets, c, found);
    }
  }

  /** With an ASCII canonical sentence, an index map as long as it, a trie
      whose end nodes carry names and no empty keyword, the scan never
      panics. */
  lemma {:induction false} ScanNoPanic(t: Trie, text: string, offsets: seq<nat>, c: Cursor, found: seq<Hit>)
    requires CursorOk(text, c) && [EndMark] !in t && WellFormed(t)
    requires ByteLen(text) == |text| && |offsets| == |text|
    ensures Scan(t, text, offsets, c, found).Ok?
    decreases ByteLen(text) - c.idx
  {
    EndCheckOk(t, text, offsets, c);
    if c.idx < ByteLen(text) {
      var ch := text[c.idx];
      if !IsWordChar(ch) {
        var more := found + Opt(EndCheck(t, offsets, c).value);
        ScanNoPanic(t, text, offsets, Cursor([], c.idx + 1, c.endPos, c.idx + 1), more);
      } else if c.node + [ch] in t {
        ExtendOk(text, c);
        ScanNoPanic(t, text, offsets, Cursor(c.node + [ch], c.startPos, c.idx + 1, c.idx + 1), found);
      } else {
        ScanNoPanic(t, text, offsets, Cursor([], c.idx + 1, c.endPos, c.idx + 1), found);
      }
    }
  }

  /** Without an index map (the lowercase and plain modes never fill it) any
      keyword found panics, so such a scan returns no hit at all. */
  lemma {:induction false} ScanWithoutOffsets(t: Trie, text: string, c: Cursor, found: seq<Hit>)
    ensures var r := Scan(t, text, [], c, found);
      r.Ok? ==> r.value == found
    decreases ByteLen(text) - c.idx
  {
    if c.idx < ByteLen(text) && c.idx < |text| {
      var ch := text[c.idx];
      if !IsWordChar(ch) {
        if EndCheck(t, [], c).Ok? {
          assert Opt(EndCheck(t, [], c).value) == [];
          assert found + [] == found;
          ScanWithoutOffsets(t, text, Cursor([], c.idx + 1, c.endPos, c.idx + 1), found);
        }
      } else if c.node + [ch] in t {
        ScanWithoutOffsets(t, text, Cursor(c.node + [ch], c.startPos, c.idx + 1, c.idx + 1), found);
      } else {
        ScanWithoutOffsets(t, text, Cursor([], c.idx + 1, c.endPos, c.idx + 1), found);
      }
    } else if c.idx >= ByteLen(text) && EndCheck(t, [], c).Ok? {
      assert found + [] == found;
    }
  }

  /** An empty canonical keyword puts an end node at the root: a sentence that
      is empty or opens with a boundary character then panics, on the index
      map or on `end_pos - 1`. */
  lemma EmptyKeywordPanics(t: Trie, text: string, offsets: seq<nat>)
    requires [EndMark] in t && t[[EndMark]].isEnd
    requires text == [] || !IsWordChar(text[0])
    ensures Scan(t, text, offsets, Start, []).Panic?
  {
    assert Start.node + [EndMark] == [EndMark];
    assert EndCheck(t, offsets, Start).Panic?;
  }

  /** The loop runs up to the byte length but fetches characters by index.
      Without an index map every scan that gets past the last character
      panics there, unless a keyword found earlier already made it panic. */
  lemma {:induction false} ScanPastCharsPanics(t: Trie, text: string, c: Cursor, found: seq<Hit>)
    requires c.idx <= |text| < ByteLen(text)
    ensures Scan(t, text, [], c, found).Panic?
    decreases |text| - c.idx
  {
    if c.idx < |text| {
      var ch := text[c.idx];
      if !IsWordChar(ch) {
        if EndCheck(t, [], c).Ok? {
          ScanPastCharsPanics(t, text, Cursor([], c.idx + 1, c.endPos, c.idx + 1), found + Opt(EndCheck(t, [], c).value));
        }
      } else if c.node + [ch] in t {
        ScanPastCharsPanics(t, text, Cursor(c.node + [ch], c.startPos, c.idx + 1, c.idx + 1), found);
      } else {
        ScanPastCharsPanics(t, text, Cursor([], c.idx + 1, c.endPos, c.idx + 1), found);
      }
    }
  }

  /** The rows `extract_keywords` returns: `(clean_name, start, end)`. */
  function Report(hits: seq<Hit>): (r: seq<(string, nat, nat)>)
    ensures |r| == |hits|
    ensures forall i :: 0 <= i < |hits| ==> r[i] == (hits[i].name, hits[i].start, hits[i].end)
  {
    seq(|hits|, i requires 0 <= i < |hits| => (hits[i].name, hits[i].start, hits[i].end))
  }

  lemma ReportSnoc(hits: seq<Hit>, h: Hit)
    ensures Report(hits + [h]) == Report(hits) + [(h.name, h.start, h.end)]
  {
  }

  function Reported(r: Result<seq<Hit>>): Result<seq<(string, nat, nat)>> {
    match r
    case Panic(msg) => Panic(msg)
    case Ok(hits) => Ok(Report(hits))
  }

  /** The loop of `extract_keywords` that builds the canonical sentence and
      its index map in normalize mode. */
  method BuildIndexMap(tr: char -> string, sentence: string) returns (normalized: string, indexMap: seq<nat>)
    ensures Folding(normalized, indexMap) == Fold(tr, sentence)
  {
    normalized, indexMap := [], [];
    var originalIdx := 0;
    for i := 0 to |sentence|
      invariant Folding(normalized, indexMap) == Fold(tr, sentence[..i])
      invariant originalIdx == ByteLen(sentence[..i])
    {
      var c := sentence[i];
      assert sentence[..i + 1][..i] == sentence[..i];
      if !IsAsciiPunctuation(c) {
        var normalizedChar := ToLower(tr(c));
        ghost var before, beforeMap := normalized, indexMap;
        for j := 0 to |normalizedChar|
          invariant normalized == before + normalizedChar[..j]
          invariant indexMap == beforeMap + seq(j, _ => originalIdx)
        {
          normalized := normalized + [normalizedChar[j]];
          indexMap := indexMap + [originalIdx];
          assert normalizedChar[..j + 1] == normalizedChar[..j] + [normalizedChar[j]];
        }
        assert normalizedChar[..|normalizedChar|] == normalizedChar;
      }
      originalIdx := originalIdx + Utf8Len(c);
    }
    assert sentence[..|sentence|] == sentence;
  }

  /** The scan loop of `extract_keywords` (lines 147-191) over a canonical
      sentence and its index map. */
  method ScanKeywords(t: Trie, text: string, offsets: seq<nat>) returns (r: Result<seq<(string, nat, nat)>>)
    ensures r == Reported(Scan(t, text, offsets, Start, []))
  {
    ghost var spec := Scan(t, text, offsets, Start, []);
    var extracted: seq<(string, nat, nat)> := [];
    ghost var found: seq<Hit> := [];
    var node: string := [];
    var startPos, endPos := 0, 0;
    var idx := 0;
    var sentenceLen := ByteLen(text);
    while idx < sentenceLen
      invariant Scan(t, text, offsets, Cursor(node, startPos, endPos, idx), found) == spec
      invariant extracted == Report(found)
      decreases sentenceLen - idx
    {
      if idx >= |text| {
        return Panic("called `Option::unwrap()` on a `None` value");
      }
      var ch := text[idx];
      if !IsWordChar(ch) {
        var check := EndCheck(t, offsets, Cursor(node, startPos, endPos, idx));
        if check.Panic? {
          return Panic(check.msg);
        }
        assert spec == Scan(t, text, offsets, Cursor([], idx + 1, endPos, idx + 1), found + Opt(check.value));
        if check.value.Some? {
          var h := check.value.value;
          ReportSnoc(found, h);
          extracted := extracted + [(h.name, h.start, h.end)];
          found := found + [h];
        } else {
          assert found + Opt(check.value) == found;
        }
        node := [];
        startPos := idx + 1;
      } else if node + [ch] in t {
        assert spec == Scan(t, text, offsets, Cursor(node + [ch], startPos, idx + 1, idx + 1), found);
        node := node + [ch];
        endPos := idx + 1;
      } else {
        assert spec == Scan(t, text, offsets, Cursor([], idx + 1, endPos, idx + 1), found);
        node := [];
        startPos := idx + 1;
      }
      idx := idx + 1;
    }
    var check := EndCheck(t, offsets, Cursor(node, startPos, endPos, idx));
    if check.Panic? {
      return Panic(check.msg);
    }
    if check.value.Some? {
      var h := check.value.value;
      ReportSnoc(found, h);
      extracted := extracted + [(h.name, h.start, h.end)];
      found := found + [h];
      assert spec == Ok(found);
    } else {
      assert found + Opt(check.value) == found;
      assert spec == Ok(found);
    }
    return Ok(extracted);
  }

  /** The walk of `add_keyword`: for each character, descend into the child
      keyed by it, creating an empty node where there is none. */
  method WalkPath(t: Trie, kw: string) returns (r: Trie)
    ensures r == Walk(t, kw)
  {
    r := t;
    for i := 0 to |kw|
      invariant r == Walk(t, kw[..i])
    {
      var path := kw[..i + 1];
      WalkStep(t, kw, i);
      if path !in r {
        r := r[path := Node(false, None)];
      }
    }
    assert kw[..|kw|] == kw;
  }

  class KeywordProcessor {
    const lowercase: bool
    const normalize: bool
    var trie: Trie
    var termsInTrie: nat

    /** The trie is well formed and `terms_in_trie` counts its keywords. */
    ghost predicate Valid()
      reads this
    {
      WellFormed(trie) && termsInTrie == |EndPaths(trie)|
    }

    /** `new`: an empty trie. */
    constructor(lowercase: bool, normalize: bool)
      ensures this.lowercase == lowercase && this.normalize == normalize
      ensures trie == map[] && termsInTrie == 0
      ensures Valid()
    {
      this.lowercase := lowercase;
      this.normalize := normalize;
      trie := map[];
      termsInTrie := 0;
      assert EndPaths(map[]) == {};
    }

    /** The canonical form of a keyword: normalized, else lowercased, else as given. */
    function Canonical(tr: char -> string, keyword: string): string
    {
      if normalize then Normalizer.Normalize(tr, keyword)
      else if lowercase then ToLower(keyword)
      else keyword
    }

    /** `add_keyword`: canonicalise, walk or create a node per character, then
        add the end node named by the label, or by the raw keyword. */
    method AddKeyword(tr: char -> string, keyword: string, cleanName: Option<string>) returns (added: bool)
      modifies this
      ensures (added, Keywords(trie, termsInTrie))
        == Add(Keywords(old(trie), old(termsInTrie)), Canonical(tr, keyword), cleanName.GetOr(keyword))
      ensures old(Valid()) ==> Valid()
    {
      var name := cleanName.GetOr(keyword);
      var kw := Canonical(tr, keyword);
      ghost var start := Keywords(trie, termsInTrie);
      trie := WalkPath(trie, kw);
      ghost var w := trie;
      var end := kw + [EndMark];
      if end !in trie {
        termsInTrie := termsInTrie + 1;
        trie := trie[end := Node(true, Some(name))];
        added := true;
        assert Add(start, kw, name) == (true, Keywords(w[end := Node(true, Some(name))], start.terms + 1));
      } else {
        added := false;
        assert Add(start, kw, name) == (false, Keywords(w, start.terms));
      }
      if old(Valid()) {
        AddKeepsWellFormed(start, kw, name);
      }
    }

    /** `add_keywords_many` as the fold of `add_keyword` over the keywords,
        with the shared label. */
    function AddAll(tr: char -> string, s: Keywords, keywords: seq<string>, cleanName: Option<string>)
      : (r: (seq<bool>, Keywords))
      ensures |r.0| == |keywords|
      ensures WellFormed(s.trie) && s.terms == |EndPaths(s.trie)| ==>
        WellFormed(r.1.trie) && r.1.terms == |EndPaths(r.1.trie)|
    {
      if keywords == [] then ([], s)
      else
        var n := |keywords| - 1;
        var (flags, s1) := AddAll(tr, s, keywords[..n], cleanName);
        var (added, s2) := Add(s1, Canonical(tr, keywords[n]), cleanName.GetOr(keywords[n]));
        AddKeepsWellFormedIf(s1, Canonical(tr, keywords[n]), cleanName.GetOr(keywords[n]));
        (flags + [added], s2)
    }

    lemma AddAllStep(tr: char -> string, s: Keywords, keywords: seq<string>, i: nat, cleanName: Option<string>)
      requires i < |keywords|
      ensures AddAll(tr, s, keywords[..i + 1], cleanName) ==
        var (flags, s1) := AddAll(tr, s, keywords[..i], cleanName);
        var (added, s2) := Add(s1, Canonical(tr, keywords[i]), cleanName.GetOr(keywords[i]));
        (flags + [added], s2)
    {
      assert keywords[..i + 1][..i] == keywords[..i];
    }

    /** `add_keywords_many`: one flag per keyword, in order. */
    method AddKeywordsMany(tr: char -> string, keywords: seq<string>, cleanName: Option<string>)
      returns (flags: seq<bool>)
      modifies this
      ensures (flags, Keywords(trie, termsInTrie)) == AddAll(tr, Keywords(old(trie), old(termsInTrie)), keywords, cleanName)
    {
      ghost var start := Keywords(trie, termsInTrie);
      flags := [];
      for i := 0 to |keywords|
        invariant (flags, Keywords(trie, termsInTrie)) == AddAll(tr, start, keywords[..i], cleanName)
      {
        AddAllStep(tr, start, keywords, i, cleanName);
        var added := AddKeyword(tr, keywords[i], cleanName);
        flags := flags + [added];
      }
      assert keywords[..|keywords|] == keywords;
    }

    /** The canonical sentence `extract_keywords` scans. */
    function ScannedText(tr: char -> string, sentence: string): string {
      if normalize then Fold(tr, sentence).text
      else if lowercase then ToLower(sentence)
      else sentence
    }

    /** The index map of `extract_keywords`: filled only in normalize mode. */
    function IndexMap(tr: char -> string, sentence: string): seq<nat> {
      if normalize then Fold(tr, sentence).offsets else []
    }

    /** What `extract_keywords` finds: the scan of the canonical sentence. */
    function Extraction(tr: char -> string, sentence: string): Result<seq<Hit>>
      reads this
    {
      if normalize then
        var f := Fold(tr, sentence);
        Scan(trie, f.text, f.offsets, Start, [])
      else if lowercase then Scan(trie, ToLower(sentence), [], Start, [])
      else Scan(trie, sentence, [], Start, [])
    }

    /** `extract_keywords`: the canonical sentence and its index map, then the scan. */
    method ExtractKeywords(tr: char -> string, sentence: string) returns (r: Result<seq<(string, nat, nat)>>)
      ensures r == Reported(Extraction(tr, sentence))
    {
      var text: string, offsets: seq<nat>;
      if normalize {
        text, offsets := BuildIndexMap(tr, sentence);
      } else if lowercase {
        text, offsets := ToLower(sentence), [];
      } else {
        text, offsets := sentence, [];
      }
      r := ScanKeywords(trie, text, offsets);
    }

    /** `extract_keywords_many`: one result per sentence, in order; a panic in
        any sentence is a panic of the whole call. */
    method ExtractKeywordsMany(tr: char -> string, sentences: seq<string>)
      returns (r: Result<seq<seq<(string, nat, nat)>>>)
      ensures r.Ok? <==> forall i :: 0 <= i < |sentences| ==> Extraction(tr, sentences[i]).Ok?
      ensures r.Ok? ==> |r.value| == |sentences|
      ensures r.Ok? ==> forall i :: 0 <= i < |sentences| ==> Ok(r.value[i]) == Reported(Extraction(tr, sentences[i]))
    {
      var results: seq<seq<(string, nat, nat)>> := [];
      for i := 0 to |sentences|
        invariant |results| == i
        invariant forall k :: 0 <= k < i ==> Ok(results[k]) == Reported(Extraction(tr, sentences[k]))
      {
        var one := ExtractKeywords(tr, sentences[i]);
        if one.Panic? {
          assert Extraction(tr, sentences[i]).Panic?;
          return Panic(one.msg);
        }
        results := results + [one.value];
      }
      AllReported(tr, sentences, results);
      return Ok(results);
    }

    lemma AllReported(tr: char -> string, sentences: seq<string>, results: seq<seq<(string, nat, nat)>>)
      requires |results| == |sentences|
      requires forall k :: 0 <= k < |sentences| ==> Ok(results[k]) == Reported(Extraction(tr, sentences[k]))
      ensures forall k :: 0 <= k < |sentences| ==> Extraction(tr, sentences[k]).Ok?
    {
    }

    /** In normalize mode, with an ASCII transliteration and no keyword that
        normalizes to the empty string, `extract_keywords` never panics. */
    lemma ExtractNoPanic(tr: char -> string, sentence: string)
      requires normalize && Valid() && [EndMark] !in trie && AsciiOutput(tr)
      ensures Extraction(tr, sentence).Ok?
    {
      var f := Fold(tr, sentence);
      FoldIsAscii(tr, sentence);
      ByteLenIsCharCount(f.text);
      ScanNoPanic(trie, f.text, f.offsets, Start, []);
    }

    /** Every hit of an extraction that does not panic names a keyword held in
        the trie whose canonical text is exactly the span it covers, a run of
        word characters, and the hits come left to right without overlap. */
    lemma ExtractSound(tr: char -> string, sentence: string)
      requires [EndMark] !in trie
      ensures var r := Extraction(tr, sentence);
        r.Ok? ==> InOrder(r.value) && AllSound(trie, ScannedText(tr, sentence), IndexMap(tr, sentence), r.value)
    {
      ScanSound(trie, ScannedText(tr, sentence), IndexMap(tr, sentence), Start, []);
    }

    /** Every held keyword of word characters that stands as a whole word in
        the canonical sentence is reported over exactly its span by an
        extraction that does not panic; in normalize mode, under the
        conditions of `ExtractNoPanic`, the extraction returns and so always
        reports it. */
    lemma ExtractFindsWholeWord(tr: char -> string, sentence: string, kw: string, name: string, i: nat)
      requires Holds(trie, kw, name) && (forall k :: 0 <= k < |kw| ==> IsWordChar(kw[k]))
      requires WholeWordAt(ScannedText(tr, sentence), kw, i)
      ensures var r := Extraction(tr, sentence);
        r.Ok? ==> exists h :: h in r.value && h.name == name && h.from == i && h.to == i + |kw|
      ensures normalize && Valid() && [EndMark] !in trie && AsciiOutput(tr) ==>
        var r := Extraction(tr, sentence);
        r.Ok? && exists h :: h in r.value && h.name == name && h.from == i && h.to == i + |kw|
    {
      ScanFindsWholeWord(trie, ScannedText(tr, sentence), IndexMap(tr, sentence), Start, [], kw, name, i);
      if normalize && Valid() && [EndMark] !in trie && AsciiOutput(tr) {
        ExtractNoPanic(tr, sentence);
      }
    }

    /** In normalize mode every reported span is a non-empty byte range of the
        original sentence. */
    lemma ExtractBounds(tr: char -> string, sentence: string)
      requires normalize && [EndMark] !in trie
      ensures var r := Extraction(tr, sentence);
        r.Ok? ==> forall i :: 0 <= i < |r.value| ==> r.value[i].start < r.value[i].end <= ByteLen(sentence)
    {
      ExtractSound(tr, sentence);
    }

    /** In lowercase and plain mode the index map is empty, so a keyword that
        is found makes the call panic and a call that returns reports nothing. */
    lemma ExtractUnnormalizedEmpty(tr: char -> string, sentence: string)
      requires !normalize
      ensures var r := Extraction(tr, sentence);
        r.Ok? ==> r.value == []
    {
      ScanWithoutOffsets(trie, ScannedText(tr, sentence), Start, []);
    }

    /** Without normalization, a scanned text holding a non-ASCII character
        makes `extract_keywords` panic, whatever keywords are held. The
        scanned text is the sentence itself in plain mode and its lowercased
        form in lowercase mode. */
    lemma ExtractNonAsciiPanics(tr: char -> string, sentence: string)
      requires !normalize && !IsAscii(ScannedText(tr, sentence))
      ensures Extraction(tr, sentence).Panic?
    {
      var text := ScannedText(tr, sentence);
      ByteLenIsCharCount(text);
      ScanPastCharsPanics(trie, text, Start, []);
    }

    /** A keyword whose canonical form holds a character outside the word
        characters (a space, say) is never reported: every span is a run of
        word characters. */
    lemma NonWordKeywordNeverFound(tr: char -> string, sentence: string, kw: string, j: nat)
      requires [EndMark] !in trie && j < |kw| && !IsWordChar(kw[j])
      ensures var r := Extraction(tr, sentence);
        var text := ScannedText(tr, sentence);
        r.Ok? ==> forall h :: h in r.value ==> h.from <= h.to <= |text| && text[h.from..h.to] != kw
    {
      ExtractSound(tr, sentence);
      var text := ScannedText(tr, sentence);
      var r := Extraction(tr, sentence);
      if r.Ok? {
        forall h | h in r.value ensures h.from <= h.to <= |text| && text[h.from..h.to] != kw {
          if h.to - h.from > j {
            assert text[h.from..h.to][j] == text[h.from + j];
          }
        }
      }
    }
    /** Two keywords that are their own canonical form, added with no label,
        are added as they are, each named by itself. */
    lemma AddAllTwo(tr: char -> string, s: Keywords, keywords: seq<string>)
      requires |keywords| == 2
      requires Canonical(tr, keywords[0]) == keywords[0] && Canonical(tr, keywords[1]) == keywords[1]
      ensures AddAll(tr, s, keywords, None).1
        == Add(Add(s, keywords[0], keywords[0]).1, keywords[1], keywords[1]).1
    {
      AddAllStep(tr, s, keywords, 0, None);
      AddAllStep(tr, s, keywords, 1, None);
      assert keywords[..0] == [] && keywords[..2] == keywords;
    }

    /** In normalize mode, `add_keywords_many` with two distinct lower-case
        keywords and no label holds both, each named by itself. */
    lemma TwoKeywordsHeld(tr: char -> string, keywords: seq<string>)
      requires normalize && AsciiIdentity(tr)
      requires |keywords| == 2 && IsLowerWord(keywords[0]) && IsLowerWord(keywords[1])
      requires keywords[0] != keywords[1]
      ensures var t := AddAll(tr, Keywords(map[], 0), keywords, None).1.trie;
        Holds(t, keywords[0], keywords[0]) && Holds(t, keywords[1], keywords[1])
    {
      NormalizeLowerWord(tr, keywords[0]);
      NormalizeLowerWord(tr, keywords[1]);
      AddAllTwo(tr, Keywords(map[], 0), keywords);
      AddTwoHolds(keywords[0], keywords[1]);
    }

    /** In normalize mode, a sentence that is exactly a held lower-case
        keyword is reported once, over its whole byte span. */
    lemma ExtractHeldWord(tr: char -> string, kw: string, name: string)
      requires normalize && AsciiIdentity(tr) && IsLowerWord(kw) && Holds(trie, kw, name)
      ensures Reported(Extraction(tr, kw)) == Ok([(name, 0, |kw|)])
    {
      FoldLowerWord(tr, kw);
      ReportWholeWord(trie, kw, name, seq(|kw|, i => i));
    }

    /** The first sentence of the doctest: the comma and the exclamation
        mark are folded away and both keywords are reported with their byte
        offsets in the original sentence. */
    lemma ExtractGreeting(tr: char -> string, hello: string, world: string, sentence: string)
      requires normalize && AsciiIdentity(tr) && hello == "hello" && world == "world"
      requires Holds(trie, hello, hello) && Holds(trie, world, world)
      requires sentence == "Hello, world!"
      ensures Reported(Extraction(tr, sentence)) == Ok([(hello, 0, 5), (world, 7, 12)])
    {
      FoldGreeting(tr, sentence);
      ReportGreeting(trie, hello, world, "hello world", [0, 1, 2, 3, 4, 6, 7, 8, 9, 10, 11]);
    }

    /** The doctest of python/lenlp/flash/flash_text.py: a normalizing
        processor holding "hello" and "world" finds both in "Hello, world!"
        with byte offsets 0-5 and 7-12, and finds each word alone over 0-5. */
    lemma GreetingDoctest(tr: char -> string, keywords: seq<string>, s1: string, s2: string, s3: string)
      requires normalize && AsciiIdentity(tr) && keywords == ["hello", "world"]
      requires trie == AddAll(tr, Keywords(map[], 0), keywords, None).1.trie
      requires s1 == "Hello, world!" && s2 == "world" && s3 == "hello"
      ensures Reported(Extraction(tr, s1)) == Ok([("hello", 0, 5), ("world", 7, 12)])
      ensures Reported(Extraction(tr, s2)) == Ok([("world", 0, 5)])
      ensures Reported(Extraction(tr, s3)) == Ok([("hello", 0, 5)])
    {
      GreetingWords(keywords[0], keywords[1]);
      TwoKeywordsHeld(tr, keywords);
      ExtractGreeting(tr, keywords[0], keywords[1], s1);
      ExtractHeldWord(tr, s2, s2);
      ExtractHeldWord(tr, s3, s3);
    }
  }

  lemma AddKeepsWellFormedIf(s: Keywords, kw: string, name: string)
    ensures WellFormed(s.trie) && s.terms == |EndPaths(s.trie)| ==>
      var r := Add(s, kw, name).1;
      WellFormed(r.trie) && r.terms == |EndPaths(r.trie)|
  {
    if WellFormed(s.trie) && s.terms == |EndPaths(s.trie)| {
      AddKeepsWellFormed(s, kw, name);
    }
  }

  /** A keyword of lower-case ASCII letters only: its own canonical form. */
  predicate IsLowerWord(w: string) {
    w != [] && forall i :: 0 <= i < |w| ==> 'a' <= w[i] <= 'z'
  }

  /** The trie holds `kw` under `name`: a node for every prefix, and the end
      node marked with the name. */
  ghost predicate Holds(t: Trie, kw: string, name: string) {
    && (forall k :: 0 < k <= |kw| ==> kw[..k] in t)
    && kw + [EndMark] in t && t[kw + [EndMark]] == Node(true, Some(name))
  }

  /** Adding a new keyword makes the trie hold it, and every keyword held
      before is still held under its old name. */
  lemma AddHolds(s: Keywords, kw: string, name: string)
    requires WellFormed(s.trie) && kw + [EndMark] !in s.trie
    ensures var r := Add(s, kw, name).1;
      && Holds(r.trie, kw, name)
      && forall w, n :: Holds(s.trie, w, n) ==> Holds(r.trie, w, n)
  {
    AddResult(s, kw, name);
    var w := Walk(s.trie, kw);
    assert Add(s, kw, name).1.trie == w[kw + [EndMark] := Node(true, Some(name))];
  }

  /** A lower-case ASCII word is left as it is by normalization. */
  lemma NormalizeLowerWord(tr: char -> string, w: string)
    requires AsciiIdentity(tr) && IsLowerWord(w)
    ensures Normalizer.Normalize(tr, w) == w
  {
    UnidecodeOfAscii(tr, w);
    Normalizer.ToLowerNoop(w);
    RemovePunctuationNoop(w);
    TrimNoop(w);
  }

  /** One more character of an ASCII sentence: punctuation adds nothing, any
      other character adds itself lowercased, at its own index. */
  lemma FoldAsciiStep(tr: char -> string, s: string, k: nat)
    requires AsciiIdentity(tr) && IsAscii(s) && k < |s|
    ensures var p := Fold(tr, s[..k]);
      Fold(tr, s[..k + 1]) ==
        if IsAsciiPunctuation(s[k]) then p
        else Folding(p.text + [ToLowerChar(s[k])], p.offsets + [k])
  {
    var q := s[..k + 1];
    assert q[..|q| - 1] == s[..k] && q[|q| - 1] == s[k];
    assert IsAsciiChar(s[k]);
    assert tr(s[k]) == [s[k]];
    assert ToLower([s[k]]) == [ToLowerChar(s[k])];
    assert IsAscii(s[..k]) by {
      forall i | 0 <= i < k ensures IsAsciiChar(s[..k][i]) {
        assert s[..k][i] == s[i];
      }
    }
    ByteLenIsCharCount(s[..k]);
    assert seq(1, _ => k) == [k];
  }

  /** A lower-case word folds to itself, each character at its own index. */
  lemma {:induction false} FoldLowerWord(tr: char -> string, w: string)
    requires AsciiIdentity(tr) && (forall i :: 0 <= i < |w| ==> 'a' <= w[i] <= 'z')
    ensures Fold(tr, w) == Folding(w, seq(|w|, i => i))
  {
    if w != [] {
      var n := |w| - 1;
      FoldLowerWord(tr, w[..n]);
      assert IsAscii(w);
      FoldAsciiStep(tr, w, n);
      assert w[..n + 1] == w;
      assert w[..n] + [ToLowerChar(w[n])] == w;
      assert seq(n, i => i) + [n] == seq(|w|, i => i);
    }
  }

  /** `FoldAsciiStep` from a known fold of the prefix to the expected fold
      one character further. */
  lemma FoldAsciiNext(tr: char -> string, s: string, k: nat, text: string, offsets: seq<nat>,
                      text': string, offsets': seq<nat>)
    requires AsciiIdentity(tr) && IsAscii(s) && k < |s|
    requires Fold(tr, s[..k]) == Folding(text, offsets)
    requires if IsAsciiPunctuation(s[k]) then text' == text && offsets' == offsets
      else text' == text + [ToLowerChar(s[k])] && offsets' == offsets + [k]
    ensures Fold(tr, s[..k + 1]) == Folding(text', offsets')
  {
    FoldAsciiStep(tr, s, k);
  }

  /** The characters of the greeting of the `FlashText` doctest. */
  predicate IsGreeting(s: string) {
    && |s| == 13 && IsAscii(s)
    && s[0] == 'H' && s[1] == 'e' && s[2] == 'l' && s[3] == 'l' && s[4] == 'o'
    && s[5] == ',' && s[6] == ' '
    && s[7] == 'w' && s[8] == 'o' && s[9] == 'r' && s[10] == 'l' && s[11] == 'd' && s[12] == '!'
  }

  /** The first word of the greeting, with the comma after it. */
  lemma FoldGreetingHead(tr: char -> string, s: string)
    requires AsciiIdentity(tr) && IsGreeting(s)
    ensures Fold(tr, s[..6]) == Folding("hello", [0, 1, 2, 3, 4])
  {
    assert s[..0] == [];
    FoldAsciiNext(tr, s, 0, [], [], "h", [0]);
    FoldAsciiNext(tr, s, 1, "h", [0], "he", [0, 1]);
    FoldAsciiNext(tr, s, 2, "he", [0, 1], "hel", [0, 1, 2]);
    FoldAsciiNext(tr, s, 3, "hel", [0, 1, 2], "hell", [0, 1, 2, 3]);
    FoldAsciiNext(tr, s, 4, "hell", [0, 1, 2, 3], "hello", [0, 1, 2, 3, 4]);
    FoldAsciiNext(tr, s, 5, "hello", [0, 1, 2, 3, 4], "hello", [0, 1, 2, 3, 4]);
  }

  /** The greeting up to the second letter of its second word. */
  lemma FoldGreetingMiddle(tr: char -> string, s: string)
    requires AsciiIdentity(tr) && IsGreeting(s)
    ensures Fold(tr, s[..9]) == Folding("hello wo", [0, 1, 2, 3, 4, 6, 7, 8])
  {
    FoldGreetingHead(tr, s);
    FoldAsciiNext(tr, s, 6, "hello", [0, 1, 2, 3, 4], "hello ", [0, 1, 2, 3, 4, 6]);
    FoldAsciiNext(tr, s, 7, "hello ", [0, 1, 2, 3, 4, 6], "hello w", [0, 1, 2, 3, 4, 6, 7]);
    FoldAsciiNext(tr, s, 8, "hello w", [0, 1, 2, 3, 4, 6, 7], "hello wo", [0, 1, 2, 3, 4, 6, 7, 8]);
  }

  /** The whole greeting: the comma and the exclamation mark vanish, and the
      offsets skip the comma. */
  lemma FoldGreetingChars(tr: char -> string, s: string)
    requires AsciiIdentity(tr) && IsGreeting(s)
    ensures Fold(tr, s) == Folding("hello world", [0, 1, 2, 3, 4, 6, 7, 8, 9, 10, 11])
  {
    FoldGreetingMiddle(tr, s);
    FoldAsciiNext(tr, s, 9, "hello wo", [0, 1, 2, 3, 4, 6, 7, 8], "hello wor", [0, 1, 2, 3, 4, 6, 7, 8, 9]);
    FoldAsciiNext(tr, s, 10, "hello wor", [0, 1, 2, 3, 4, 6, 7, 8, 9], "hello worl", [0, 1, 2, 3, 4, 6, 7, 8, 9, 10]);
    FoldAsciiNext(tr, s, 11, "hello worl", [0, 1, 2, 3, 4, 6, 7, 8, 9, 10],
      "hello world", [0, 1, 2, 3, 4, 6, 7, 8, 9, 10, 11]);
    FoldAsciiNext(tr, s, 12, "hello world", [0, 1, 2, 3, 4, 6, 7, 8, 9, 10, 11],
      "hello world", [0, 1, 2, 3, 4, 6, 7, 8, 9, 10, 11]);
    assert s[..13] == s;
  }

  /** The greeting of the `FlashText` doctest folds to "hello world"; the
      comma and the exclamation mark vanish and the offsets skip the comma. */
  lemma FoldGreeting(tr: char -> string, s: string)
    requires AsciiIdentity(tr) && s == "Hello, world!"
    ensures Fold(tr, s) == Folding("hello world", [0, 1, 2, 3, 4, 6, 7, 8, 9, 10, 11])
  {
    assert IsGreeting(s);
    FoldGreetingChars(tr, s);
  }

  /** A run of word characters whose every step is a child in the trie only
      moves the cursor down the trie: no hit, no reset. */
  lemma {:induction false} ScanRun(t: Trie, text: string, offsets: seq<nat>, c: Cursor, found: seq<Hit>, run: string)
    requires run != [] && c.idx + |run| <= |text| && text[c.idx..c.idx + |run|] == run
    requires forall i :: 0 <= i < |run| ==> IsWordChar(run[i])
    requires forall k :: 0 < k <= |run| ==> c.node + run[..k] in t
    ensures Scan(t, text, offsets, c, found)
      == Scan(t, text, offsets, Cursor(c.node + run, c.startPos, c.idx + |run|, c.idx + |run|), found)
    decreases |run|
  {
    assert text[c.idx] == run[0];
    assert run[..1] == [run[0]];
    var c1 := Cursor(c.node + [run[0]], c.startPos, c.idx + 1, c.idx + 1);
    assert Scan(t, text, offsets, c, found) == Scan(t, text, offsets, c1, found);
    if |run| > 1 {
      var rest := run[1..];
      assert text[c1.idx..c1.idx + |rest|] == rest;
      forall k | 0 < k <= |rest| ensures c1.node + rest[..k] in t {
        assert c1.node + rest[..k] == c.node + run[..k + 1];
      }
      ScanRun(t, text, offsets, c1, found, rest);
      assert c1.node + rest == c.node + run;
    } else {
      assert run == [run[0]];
    }
  }

  /** At a boundary character the scan closes the current run with its end
      check and restarts from the root after the boundary. */
  lemma ScanBoundary(t: Trie, text: string, offsets: seq<nat>, c: Cursor, found: seq<Hit>, h: Option<Hit>)
    requires c.idx < |text| && !IsWordChar(text[c.idx]) && EndCheck(t, offsets, c) == Ok(h)
    ensures Scan(t, text, offsets, c, found)
      == Scan(t, text, offsets, Cursor([], c.idx + 1, c.endPos, c.idx + 1), found + Opt(h))
  {
  }

  /** The end check on the node of a held keyword reports it with the
      offsets of the span. */
  lemma EndCheckHeld(t: Trie, offsets: seq<nat>, kw: string, name: string, c: Cursor)
    requires Holds(t, kw, name) && c.node == kw && c.startPos < c.endPos <= |offsets|
    ensures EndCheck(t, offsets, c)
      == Ok(Some(Hit(name, c.startPos, c.endPos, offsets[c.startPos], offsets[c.endPos - 1] + 1)))
  {
  }

  /** At the end of the text the scan returns what it found plus the last
      end check. */
  lemma ScanFinish(t: Trie, text: string, offsets: seq<nat>, c: Cursor, found: seq<Hit>, h: Option<Hit>)
    requires c.idx == ByteLen(text) && EndCheck(t, offsets, c) == Ok(h)
    ensures Scan(t, text, offsets, c, found) == Ok(found + Opt(h))
  {
  }

  /** The scan only ever appends: what was found before stays, in front. */
  lemma {:induction false} ScanKeeps(t: Trie, text: string, offsets: seq<nat>, c: Cursor, found: seq<Hit>)
    ensures var r := Scan(t, text, offsets, c, found);
      r.Ok? ==> found <= r.value
    decreases ByteLen(text) - c.idx
  {
    if c.idx < ByteLen(text) && c.idx < |text| {
      var ch := text[c.idx];
      if !IsWordChar(ch) {
        if EndCheck(t, offsets, c).Ok? {
          var more := found + Opt(EndCheck(t, offsets, c).value);
          ScanKeeps(t, text, offsets, Cursor([], c.idx + 1, c.endPos, c.idx + 1), more);
          assert found <= more;
        }
      } else if c.node + [ch] in t {
        ScanKeeps(t, text, offsets, Cursor(c.node + [ch], c.startPos, c.idx + 1, c.idx + 1), found);
      } else {
        ScanKeeps(t, text, offsets, Cursor([], c.idx + 1, c.endPos, c.idx + 1), found);
      }
    }
  }

  /** `kw` stands in `text` at `i` as a whole word: a boundary character or
      the edge of the text on either side. */
  predicate WholeWordAt(text: string, kw: string, i: nat) {
    && kw != [] && i + |kw| <= |text| && text[i..i + |kw|] == kw
    && (i == 0 || !IsWordChar(text[i - 1]))
    && (i + |kw| == |text| || !IsWordChar(text[i + |kw|]))
  }

  /** A held keyword of word characters standing as a whole word at `i` is
      found over exactly its span by every scan that does not panic, started
      anywhere up to `i` (at `i` itself only from the root). */
  lemma {:induction false} ScanFindsWholeWord(t: Trie, text: string, offsets: seq<nat>, c: Cursor, found: seq<Hit>,
                                              kw: string, name: string, i: nat)
    requires Holds(t, kw, name) && (forall k :: 0 <= k < |kw| ==> IsWordChar(kw[k]))
    requires WholeWordAt(text, kw, i) && c.idx <= i
    requires c.idx == i ==> c.node == [] && c.startPos == i
    ensures var r := Scan(t, text, offsets, c, found);
      r.Ok? ==> exists h :: h in r.value && h.name == name && h.from == i && h.to == i + |kw|
    decreases ByteLen(text) - c.idx
  {
    if c.idx < i {
      var ch := text[c.idx];
      if !IsWordChar(ch) {
        if EndCheck(t, offsets, c).Ok? {
          var more := found + Opt(EndCheck(t, offsets, c).value);
          ScanFindsWholeWord(t, text, offsets, Cursor([], c.idx + 1, c.endPos, c.idx + 1), more, kw, name, i);
        }
      } else if c.node + [ch] in t {
        ScanFindsWholeWord(t, text, offsets, Cursor(c.node + [ch], c.startPos, c.idx + 1, c.idx + 1), found, kw, name, i);
      } else {
        ScanFindsWholeWord(t, text, offsets, Cursor([], c.idx + 1, c.endPos, c.idx + 1), found, kw, name, i);
      }
    } else {
      ScanWholeWordHere(t, text, offsets, c, found, kw, name, i);
    }
  }

  /** The scan at the root, at the head of a whole word that is a held
      keyword, reports it. */
  lemma ScanWholeWordHere(t: Trie, text: string, offsets: seq<nat>, c: Cursor, found: seq<Hit>,
                          kw: string, name: string, i: nat)
    requires Holds(t, kw, name) && (forall k :: 0 <= k < |kw| ==> IsWordChar(kw[k]))
    requires WholeWordAt(text, kw, i) && c.idx == i && c.node == [] && c.startPos == i
    ensures var r := Scan(t, text, offsets, c, found);
      r.Ok? ==> exists h :: h in r.value && h.name == name && h.from == i && h.to == i + |kw|
  {
    forall k | 0 < k <= |kw| ensures c.node + kw[..k] in t {
      assert c.node + kw[..k] == kw[..k];
    }
    ScanRun(t, text, offsets, c, found, kw);
    assert c.node + kw == kw;
    var e := Cursor(kw, i, i + |kw|, i + |kw|);
    if EndCheck(t, offsets, e).Ok? {
      var h := EndCheck(t, offsets, e).value.value;
      assert h.name == name && h.from == i && h.to == i + |kw|;
      var r := Scan(t, text, offsets, e, found);
      if e.idx < |text| {
        ScanBoundary(t, text, offsets, e, found, Some(h));
        ScanKeeps(t, text, offsets, Cursor([], e.idx + 1, e.endPos, e.idx + 1), found + [h]);
        if r.Ok? {
          assert r.value[|found|] == (found + [h])[|found|] == h;
        }
      } else if e.idx == ByteLen(text) {
        ScanFinish(t, text, offsets, e, found, Some(h));
        assert r.value[|found|] == h;
      } else {
        assert r.Panic?;
      }
    }
  }

  /** Two lower-case words around a space are ASCII, so their byte length is
      their length. */
  lemma TwoWordsByteLen(a: string, b: string)
    requires IsLowerWord(a) && IsLowerWord(b)
    ensures ByteLen(a + [' '] + b) == |a| + 1 + |b|
  {
    var text := a + [' '] + b;
    forall i | 0 <= i < |text| ensures IsAsciiChar(text[i]) {
      if i < |a| {
        assert text[i] == a[i] && 'a' <= a[i] <= 'z';
      } else if i == |a| {
        assert text[i] == ' ';
      } else {
        assert text[i] == b[i - |a| - 1] && 'a' <= b[i - |a| - 1] <= 'z';
      }
    }
    ByteLenIsCharCount(text);
  }

  /** The run of word characters of a held keyword from the cursor `c`,
      which is at the root. */
  lemma ScanKeywordRun(t: Trie, text: string, offsets: seq<nat>, c: Cursor, found: seq<Hit>, kw: string, name: string)
    requires Holds(t, kw, name) && IsLowerWord(kw) && c.node == []
    requires c.idx + |kw| <= |text| && text[c.idx..c.idx + |kw|] == kw
    ensures Scan(t, text, offsets, c, found)
      == Scan(t, text, offsets, Cursor(kw, c.startPos, c.idx + |kw|, c.idx + |kw|), found)
  {
    forall k | 0 < k <= |kw| ensures c.node + kw[..k] in t {
      assert c.node + kw[..k] == kw[..k];
    }
    ScanRun(t, text, offsets, c, found, kw);
    assert c.node + kw == kw;
  }

  /** A held lower-case keyword that runs from the cursor, at the root, to
      the end of the text is found, after whatever was found before. */
  lemma ScanLastWord(t: Trie, text: string, offsets: seq<nat>, c: Cursor, found: seq<Hit>, kw: string, name: string)
    requires Holds(t, kw, name) && IsLowerWord(kw) && c.node == [] && c.startPos == c.idx
    requires c.idx + |kw| == |text| == ByteLen(text) == |offsets| && text[c.idx..] == kw
    ensures Scan(t, text, offsets, c, found)
      == Ok(found + [Hit(name, c.idx, |text|, offsets[c.idx], offsets[|text| - 1] + 1)])
  {
    assert text[c.idx..c.idx + |kw|] == kw;
    ScanKeywordRun(t, text, offsets, c, found, kw, name);
    var h := Hit(name, c.idx, |text|, offsets[c.idx], offsets[|text| - 1] + 1);
    var e := Cursor(kw, c.startPos, |text|, |text|);
    EndCheckHeld(t, offsets, kw, name, e);
    ScanFinish(t, text, offsets, e, found, Some(h));
  }

  /** A sentence that is exactly a held lower-case keyword is found once,
      over its whole span. */
  lemma ScanWholeWord(t: Trie, kw: string, name: string, offsets: seq<nat>)
    requires Holds(t, kw, name) && IsLowerWord(kw) && |offsets| == |kw|
    ensures Scan(t, kw, offsets, Start, [])
      == Ok([Hit(name, 0, |kw|, offsets[0], offsets[|kw| - 1] + 1)])
  {
    assert IsAscii(kw);
    ByteLenIsCharCount(kw);
    assert kw[0..] == kw;
    ScanLastWord(t, kw, offsets, Start, [], kw, name);
    assert [] + [Hit(name, 0, |kw|, offsets[0], offsets[|kw| - 1] + 1)] == [Hit(name, 0, |kw|, offsets[0], offsets[|kw| - 1] + 1)];
  }

  /** A held lower-case keyword at the head of the text, closed by a
      boundary character, is found, and the scan restarts after the boundary. */
  lemma ScanFirstWord(t: Trie, text: string, offsets: seq<nat>, kw: string, name: string)
    requires Holds(t, kw, name) && IsLowerWord(kw)
    requires |kw| < |text| && text[..|kw|] == kw && !IsWordChar(text[|kw|]) && |kw| <= |offsets|
    ensures Scan(t, text, offsets, Start, [])
      == Scan(t, text, offsets, Cursor([], |kw| + 1, |kw|, |kw| + 1), [Hit(name, 0, |kw|, offsets[0], offsets[|kw| - 1] + 1)])
  {
    assert text[0..|kw|] == kw;
    ScanKeywordRun(t, text, offsets, Start, [], kw, name);
    var h := Hit(name, 0, |kw|, offsets[0], offsets[|kw| - 1] + 1);
    var c := Cursor(kw, 0, |kw|, |kw|);
    EndCheckHeld(t, offsets, kw, name, c);
    ScanBoundary(t, text, offsets, c, [], Some(h));
    assert [] + Opt(Some(h)) == [h];
  }

  /** Two held lower-case keywords separated by one space are both found,
      in order; the space is the boundary that closes the first. */
  lemma ScanTwoWords(t: Trie, a: string, na: string, b: string, nb: string, text: string, offsets: seq<nat>)
    requires Holds(t, a, na) && Holds(t, b, nb) && IsLowerWord(a) && IsLowerWord(b)
    requires text == a + [' '] + b && |offsets| == |text|
    ensures Scan(t, text, offsets, Start, []) == Ok([
      Hit(na, 0, |a|, offsets[0], offsets[|a| - 1] + 1),
      Hit(nb, |a| + 1, |text|, offsets[|a| + 1], offsets[|text| - 1] + 1)])
  {
    TwoWordsByteLen(a, b);
    assert text[..|a|] == a && text[|a| + 1..] == b && text[|a|] == ' ';
    ScanFirstWord(t, text, offsets, a, na);
    var h1 := Hit(na, 0, |a|, offsets[0], offsets[|a| - 1] + 1);
    ScanLastWord(t, text, offsets, Cursor([], |a| + 1, |a|, |a| + 1), [h1], b, nb);
    var h2 := Hit(nb, |a| + 1, |text|, offsets[|a| + 1], offsets[|text| - 1] + 1);
    assert [h1] + [h2] == [h1, h2];
  }

  /** Adding two distinct lower-case keywords, each named by itself, to an
      empty processor holds both. */
  lemma AddTwoHolds(a: string, b: string)
    requires IsLowerWord(a) && IsLowerWord(b) && a != b
    ensures var s2 := Add(Add(Keywords(map[], 0), a, a).1, b, b).1;
      Holds(s2.trie, a, a) && Holds(s2.trie, b, b)
  {
    var s0 := Keywords(map[], 0);
    assert EndPaths(map[]) == {};
    AddHolds(s0, a, a);
    AddKeepsWellFormed(s0, a, a);
    var s1 := Add(s0, a, a).1;
    var w := Walk(map[], a);
    assert s1.trie == w[a + [EndMark] := Node(true, Some(a))];
    assert !IsPrefix(b + [EndMark], a) by {
      if |b| + 1 <= |a| {
        assert a[..|b| + 1][|b|] == a[|b|] != EndMark;
      }
    }
    assert (a + [EndMark])[..|a|] == a && (b + [EndMark])[..|b|] == b;
    assert b + [EndMark] !in s1.trie;
    AddHolds(s1, b, b);
  }

  /** What `extract_keywords` reports for a sentence that is exactly a held
      lower-case keyword, given the identity index map. */
  lemma ReportWholeWord(t: Trie, kw: string, name: string, offsets: seq<nat>)
    requires Holds(t, kw, name) && IsLowerWord(kw) && offsets == seq(|kw|, i => i)
    ensures Reported(Scan(t, kw, offsets, Start, [])) == Ok([(name, 0, |kw|)])
  {
    ScanWholeWord(t, kw, name, offsets);
    var h := Hit(name, 0, |kw|, offsets[0], offsets[|kw| - 1] + 1);
    assert h == Hit(name, 0, |kw|, 0, |kw|);
    assert Report([h]) == [(name, 0, |kw|)];
  }

  /** What `extract_keywords` reports for the folded greeting of the
      `FlashText` doctest, with its index map. */
  lemma ReportGreeting(t: Trie, hello: string, world: string, text: string, offsets: seq<nat>)
    requires hello == "hello" && world == "world"
    requires Holds(t, hello, hello) && Holds(t, world, world)
    requires text == "hello world" && offsets == [0, 1, 2, 3, 4, 6, 7, 8, 9, 10, 11]
    ensures Reported(Scan(t, text, offsets, Start, [])) == Ok([(hello, 0, 5), (world, 7, 12)])
  {
    assert IsLowerWord(hello) && IsLowerWord(world);
    assert text == hello + [' '] + world;
    ScanTwoWords(t, hello, hello, world, world, text, offsets);
    var hits := [Hit(hello, 0, 5, 0, 5), Hit(world, 6, 11, 7, 12)];
    assert Report(hits) == [(hello, 0, 5), (world, 7, 12)];
  }

  /** The keywords of the `FlashText` doctest are distinct lower-case words. */
  lemma GreetingWords(hello: string, world: string)
    requires hello == "hello" && world == "world"
    ensures IsLowerWord(hello) && IsLowerWord(world) && hello != world
  {
    assert hello[0] != world[0];
  }
}

=== FILE: legacy_analyzer.dfy ===
/** src/rsanalyzer.rs, the older analyzer tree: `rssplit_words` without
    n-grams, the same `rschar_ngrams` as rust/rsanalyzer.rs (modelled by
    `Analyzer.CharNgrams`), and a word-level `rschar_wb_ngrams` that takes the
    character windows of each whitespace-separated word separately. */
module LegacyAnalyzer {
  import opened Text
  import opened Analyzer

  /** `rssplit_words`: the whitespace-separated tokens, in order; together they
      hold every non-whitespace character of the text. */
  function SplitWords(text: string): (r: seq<string>)
    ensures r == Words(text)
    ensures AllTokens(r)
    ensures Concat(r) == NonWhitespace(text)
  {
    WordsAreTokens(text);
    WordsCoverText(text);
    Words(text)
  }

  /** `rssplit_words_many` */
  function SplitWordsMany(texts: seq<string>): (r: seq<seq<string>>)
    ensures |r| == |texts|
    ensures forall i :: 0 <= i < |texts| ==> r[i] == SplitWords(texts[i])
  {
    seq(|texts|, i requires 0 <= i < |texts| => SplitWords(texts[i]))
  }

  /** The output of `rschar_wb_ngrams` for a list of words: word-major, and for
      each word the character n-grams of that word alone, size by size. */
  function WbNgramsOf(words: seq<string>, ns: seq<nat>): seq<string>
    requires words != [] ==> Positive(ns)
  {
    if words == [] then []
    else WbNgramsOf(words[..|words| - 1], ns) + CharNgramsOf(words[|words| - 1], ns)
  }

  lemma WbNgramsStep(words: seq<string>, ns: seq<nat>, w: nat)
    requires Positive(ns) && w < |words|
    ensures WbNgramsOf(words[..w + 1], ns) == WbNgramsOf(words[..w], ns) + CharNgramsOf(words[w], ns)
  {
    assert words[..w + 1][..w] == words[..w];
  }

  /** `rschar_wb_ngrams`. A size 0 makes `windows` panic, but only once a word is
      reached: a text without words needs no condition on the sizes. */
  method CharWbNgrams(text: string, ns: seq<nat>) returns (ngrams: seq<string>)
    requires Words(text) != [] ==> Positive(ns)
    ensures ngrams == WbNgramsOf(Words(text), ns)
  {
    var words := Words(text);
    ngrams := [];
    for w := 0 to |words|
      invariant ngrams == WbNgramsOf(words[..w], ns)
    {
      ngrams := PushWordNgrams(ngrams, words[w], ns);
      WbNgramsStep(words, ns, w);
    }
    assert words[..|words|] == words;
  }

  /** The two inner loops of `rschar_wb_ngrams`: for each size, push the windows of one word. */
  method PushWordNgrams(acc: seq<string>, chars: string, ns: seq<nat>) returns (ngrams: seq<string>)
    requires Positive(ns)
    ensures ngrams == acc + CharNgramsOf(chars, ns)
  {
    ngrams := acc;
    for k := 0 to |ns|
      invariant ngrams == acc + CharNgramsOf(chars, ns[..k])
    {
      var n := ns[k];
      CharNgramsStep(chars, ns, k);
      ngrams := PushWindows(ngrams, chars, n);
    }
    assert ns[..|ns|] == ns;
  }

  /** `rschar_wb_ngrams_many`: one result per text, in order. */
  function CharWbNgramsMany(texts: seq<string>, ns: seq<nat>): (r: seq<seq<string>>)
    requires forall i :: 0 <= i < |texts| && Words(texts[i]) != [] ==> Positive(ns)
    ensures |r| == |texts|
    ensures forall i :: 0 <= i < |texts| ==> r[i] == WbNgramsOf(Words(texts[i]), ns)
  {
    seq(|texts|, i requires 0 <= i < |texts| => WbNgramsOf(Words(texts[i]), ns))
  }

  /** Output is word-major: the n-grams of the first words come before those of the later ones. */
  lemma {:induction false} WbNgramsAppend(words1: seq<string>, words2: seq<string>, ns: seq<nat>)
    requires Positive(ns)
    ensures WbNgramsOf(words1 + words2, ns) == WbNgramsOf(words1, ns) + WbNgramsOf(words2, ns)
    decreases |words2|
  {
    var words := words1 + words2;
    if words2 == [] {
      assert words == words1;
    } else {
      var last := |words2| - 1;
      assert words[..|words| - 1] == words1 + words2[..last];
      assert words[|words| - 1] == words2[last];
      WbNgramsAppend(words1, words2[..last], ns);
      Regroup(WbNgramsOf(words, ns), WbNgramsOf(words1 + words2[..last], ns), WbNgramsOf(words1, ns),
        WbNgramsOf(words2[..last], ns), CharNgramsOf(words2[last], ns), WbNgramsOf(words2, ns));
    }
  }

  /** The character n-grams of a word hold no whitespace. */
  lemma {:induction false} CharNgramsOfWord(word: string, ns: seq<nat>)
    requires Positive(ns) && NoWhitespace(word)
    ensures forall j :: 0 <= j < |CharNgramsOf(word, ns)| ==> NoWhitespace(CharNgramsOf(word, ns)[j])
  {
    if ns != [] {
      CharNgramsOfWord(word, ns[..|ns| - 1]);
      var n := ns[|ns| - 1];
      var w := Windows(word, n);
      forall j | 0 <= j < |w| ensures NoWhitespace(w[j]) {
        assert forall t :: 0 <= t < n ==> w[j][t] == word[j + t];
      }
    }
  }

  /** No n-gram contains whitespace: every one lies inside a single word. */
  lemma {:induction false} WbNgramsNoWhitespace(words: seq<string>, ns: seq<nat>)
    requires Positive(ns) && AllTokens(words)
    ensures forall j :: 0 <= j < |WbNgramsOf(words, ns)| ==> NoWhitespace(WbNgramsOf(words, ns)[j])
  {
    if words != [] {
      var p := words[..|words| - 1];
      assert AllTokens(p) by {
        forall i | 0 <= i < |p| ensures IsToken(p[i]) { assert p[i] == words[i]; }
      }
      WbNgramsNoWhitespace(p, ns);
      assert IsToken(words[|words| - 1]);
      CharNgramsOfWord(words[|words| - 1], ns);
    }
  }

  /** The number of n-grams: each word contributes `max(0, |word| - n + 1)` per
      size, so a word shorter than `n` contributes nothing for that size. */
  function WbTotal(words: seq<string>, ns: seq<nat>): nat {
    if words == [] then 0 else WbTotal(words[..|words| - 1], ns) + WindowTotal(|words[|words| - 1]|, ns)
  }

  lemma {:induction false} WbNgramsCount(words: seq<string>, ns: seq<nat>)
    requires Positive(ns)
    ensures |WbNgramsOf(words, ns)| == WbTotal(words, ns)
  {
    if words != [] {
      WbNgramsCount(words[..|words| - 1], ns);
      CharNgramsCount(words[|words| - 1], ns);
    }
  }

  /** Unit test `test_rssplit_words`. */
  lemma SplitWordsExample()
    ensures SplitWords("hello world") == ["hello", "world"]
  {
    assert IsToken("hello") && IsToken("world");
    assert JoinSpace(["hello", "world"]) == "hello world";
    WordsOfJoinSpace(["hello", "world"]);
  }

  /** The three windows of size 3 of a five-character word. */
  lemma FiveCharWindows(s: string, a: string, b: string, c: string)
    requires |s| == 5 && a == s[0..3] && b == s[1..4] && c == s[2..5]
    ensures Windows(s, 3) == [a, b, c]
  {
  }

  /** Unit test `test_rschar_wb_ngrams`: the windows of "hello" then those of
      "world"; none spans the space. */
  lemma CharWbNgramsExample()
    ensures WbNgramsOf(["hello", "world"], [3]) == ["hel", "ell", "llo", "wor", "orl", "rld"]
  {
    assert [3][..0] == [];
    FiveCharWindows("hello", "hel", "ell", "llo");
    FiveCharWindows("world", "wor", "orl", "rld");
    assert CharNgramsOf("hello", [3]) == ["hel", "ell", "llo"];
    assert CharNgramsOf("world", [3]) == ["wor", "orl", "rld"];
    var ws := ["hello", "world"];
    assert ws[..1] == ["hello"] && ws[..1][..0] == [];
  }

  lemma HelloWorldCharWindows(s: string)
    requires s == "hello world"
    ensures Windows(s, 3) == ["hel", "ell", "llo", "lo ", "o w", " wo", "wor", "orl", "rld"]
  {
    var w := Windows(s, 3);
    assert w[0] == s[0..3] == "hel";
    assert w[1] == s[1..4] == "ell";
    assert w[2] == s[2..5] == "llo";
    assert w[3] == s[3..6] == "lo ";
    assert w[4] == s[4..7] == "o w";
    assert w[5] == s[5..8] == " wo";
    assert w[6] == s[6..9] == "wor";
    assert w[7] == s[7..10] == "orl";
    assert w[8] == s[8..11] == "rld";
  }

  /** Unit test `test_rschar_ngrams`: the nine windows of size 3 of
      "hello world", two of them spanning the space. */
  lemma CharNgramsExample()
    ensures CharNgramsOf("hello world", [3])
      == ["hel", "ell", "llo", "lo ", "o w", " wo", "wor", "orl", "rld"]
  {
    assert [3][..0] == [];
    HelloWorldCharWindows("hello world");
  }

  lemma GoodbyeWindows(s: string)
    requires s == "goodbye"
    ensures Windows(s, 3) == ["goo", "ood", "odb", "dby", "bye"]
  {
    var w := Windows(s, 3);
    assert w[0] == s[0..3] == "goo";
    assert w[1] == s[1..4] == "ood";
    assert w[2] == s[2..5] == "odb";
    assert w[3] == s[3..6] == "dby";
    assert w[4] == s[4..7] == "bye";
  }

  /** "goodbye world" splits into two words. */
  lemma GoodbyeWorldWords(t: string)
    requires t == "goodbye world"
    ensures Words(t) == ["goodbye", "world"]
  {
    assert IsToken("goodbye") && IsToken("world");
    assert JoinSpace(["goodbye", "world"]) == t;
    WordsOfJoinSpace(["goodbye", "world"]);
  }

  lemma GoodbyeWorldWindows()
    ensures WbNgramsOf(["goodbye", "world"], [3]) == ["goo", "ood", "odb", "dby", "bye", "wor", "orl", "rld"]
  {
    assert [3][..0] == [];
    GoodbyeWindows("goodbye");
    FiveCharWindows("world", "wor", "orl", "rld");
    assert CharNgramsOf("goodbye", [3]) == ["goo", "ood", "odb", "dby", "bye"];
    assert CharNgramsOf("world", [3]) == ["wor", "orl", "rld"];
    var ws := ["goodbye", "world"];
    assert ws[..1] == ["goodbye"] && ws[..1][..0] == [];
  }

  /** `rschar_wb_ngrams_many(["hello world", "goodbye world"], [3])`, for
      any two texts that split into those words (`SplitWordsExample` and
      `GoodbyeWorldWords` show that the two literals do): for each text, the
      windows of its words in word order. */
  lemma CharWbNgramsManyExample(a: string, b: string, ns: seq<nat>)
    requires Words(a) == ["hello", "world"] && Words(b) == ["goodbye", "world"]
    requires ns == [3]
    ensures Positive(ns)
    ensures |CharWbNgramsMany([a, b], ns)| == 2
    ensures CharWbNgramsMany([a, b], ns)[0] == ["hel", "ell", "llo", "wor", "orl", "rld"]
    ensures CharWbNgramsMany([a, b], ns)[1] == ["goo", "ood", "odb", "dby", "bye", "wor", "orl", "rld"]
  {
    assert Positive(ns);
    CharWbNgramsManyPair(a, b, ns);
    CharWbNgramsExample();
    GoodbyeWorldWindows();
  }

  lemma WbTotalPair(ws: seq<string>, ns: seq<nat>)
    requires |ws| == 2
    ensures WbTotal(ws, ns) == WindowTotal(|ws[0]|, ns) + WindowTotal(|ws[1]|, ns)
  {
    assert ws[..1][..0] == [] && ws[..2] == ws;
    assert WbTotal(ws[..1], ns) == WindowTotal(|ws[0]|, ns);
  }

  lemma CharWbNgramsManyPair(a: string, b: string, ns: seq<nat>)
    requires Positive(ns)
    ensures |CharWbNgramsMany([a, b], ns)| == 2
    ensures CharWbNgramsMany([a, b], ns)[0] == WbNgramsOf(Words(a), ns)
    ensures CharWbNgramsMany([a, b], ns)[1] == WbNgramsOf(Words(b), ns)
  {
    var ts := [a, b];
    assert ts[0] == a && ts[1] == b;
  }

  lemma WindowTotalOne(len: nat, ns: seq<nat>)
    requires |ns| == 1
    ensures WindowTotal(len, ns) == WindowCount(len, ns[0])
  {
    assert ns[..0] == [];
  }

  /** Two words, the second of five characters, have this many 3-grams. */
  lemma WbNgramsTwoWordsCount(ws: seq<string>, first: nat, ns: seq<nat>)
    requires |ws| == 2 && |ws[0]| == first && |ws[1]| == 5 && first >= 3
    requires ns == [3]
    ensures Positive(ns)
    ensures |WbNgramsOf(ws, ns)| == first - 2 + 3
  {
    assert Positive(ns);
    WbNgramsCount(ws, ns);
    WbTotalPair(ws, ns);
    WindowTotalOne(first, ns);
    WindowTotalOne(5, ns);
  }

  /** Unit test `test_rschar_wb_ngrams_many` compares the set of results for
      "hello world" and "goodbye world" with a set of two four-element lists.
      Any two texts whose words have the lengths of those (5 and 5, 7 and 5)
      give six and eight n-grams, so neither result can be one of the
      expected four-element lists and that comparison cannot succeed. */
  lemma CharWbNgramsManyTestExpectation(a: string, b: string, ns: seq<nat>)
    requires |Words(a)| == 2 && |Words(a)[0]| == 5 && |Words(a)[1]| == 5
    requires |Words(b)| == 2 && |Words(b)[0]| == 7 && |Words(b)[1]| == 5
    requires ns == [3]
    ensures Positive(ns)
    ensures var r := CharWbNgramsMany([a, b], ns);
      |r[0]| == 6 && |r[1]| == 8
  {
    assert Positive(ns);
    CharWbNgramsManyPair(a, b, ns);
    WbNgramsTwoWordsCount(Words(a), 5, ns);
    WbNgramsTwoWordsCount(Words(b), 7, ns);
  }
}

=== FILE: normalizer.dfy ===
/** rust/rsnormalizer.rs: transliterate to ASCII, lowercase, drop ASCII
    punctuation, trim. The transliteration table of the `unidecode` crate is
    the parameter `tr`. */
module Normalizer {
  import opened Text

  /** `rsnormalize` */
  function Normalize(tr: char -> string, text: string): string
  {
    Trim(RemovePunctuation(ToLower(Unidecode(tr, text))))
  }

  /** The normalized text holds no ASCII punctuation and no upper-case ASCII
      letter, and neither starts nor ends with whitespace. */
  lemma NormalizeShape(tr: char -> string, text: string)
    ensures var r := Normalize(tr, text);
      && (forall i :: 0 <= i < |r| ==> !IsAsciiPunctuation(r[i]))
      && (forall i :: 0 <= i < |r| ==> !IsAsciiUpper(r[i]))
      && (r != [] ==> !IsWhitespace(r[0]) && !IsWhitespace(r[|r| - 1]))
  {
    var l := ToLower(Unidecode(tr, text));
    var p := RemovePunctuation(l);
    RemovePunctuationKeeps(l, c => !IsAsciiUpper(c));
    TrimKeeps(p, c => !IsAsciiUpper(c));
    TrimKeeps(p, c => !IsAsciiPunctuation(c));
  }

  /** `rsnormalize_many`: one normalized text per input, in order. */
  function NormalizeMany(tr: char -> string, texts: seq<string>): (r: seq<string>)
    ensures |r| == |texts|
    ensures forall i :: 0 <= i < |texts| ==> r[i] == Normalize(tr, texts[i])
  {
    if texts == [] then [] else [Normalize(tr, texts[0])] + NormalizeMany(tr, texts[1..])
  }

  /** Given ASCII transliteration, the normalized text is ASCII. */
  lemma NormalizeIsAscii(tr: char -> string, text: string)
    requires AsciiOutput(tr)
    ensures IsAscii(Normalize(tr, text))
  {
    UnidecodeAscii(tr, text);
    var l := ToLower(Unidecode(tr, text));
    RemovePunctuationKeeps(l, IsAsciiChar);
    TrimKeeps(RemovePunctuation(l), IsAsciiChar);
  }

  lemma ToLowerNoop(s: string)
    requires forall i :: 0 <= i < |s| ==> !IsAsciiUpper(s[i])
    ensures ToLower(s) == s
  {
  }

  /** Normalizing twice is normalizing once, given that the transliteration
      produces ASCII and leaves ASCII alone. */
  lemma NormalizeIdempotent(tr: char -> string, text: string)
    requires AsciiOutput(tr) && AsciiIdentity(tr)
    ensures Normalize(tr, Normalize(tr, text)) == Normalize(tr, text)
  {
    var y := Normalize(tr, text);
    NormalizeIsAscii(tr, text);
    NormalizeShape(tr, text);
    UnidecodeOfAscii(tr, y);
    ToLowerNoop(y);
    RemovePunctuationNoop(y);
    TrimNoop(y);
  }

  /** Unit test of rust/rsnormalizer.rs: separators that are punctuation vanish. */
  lemma NormalizeDigits(tr: char -> string)
    requires AsciiIdentity(tr)
    ensures Normalize(tr, "1,2,3,4") == "1234"
  {
    DigitsTransliterated(tr);
    ToLowerNoop("1,2,3,4");
    DigitsFiltered();
    TrimNoop("1234");
  }

  lemma DigitsTransliterated(tr: char -> string)
    requires AsciiIdentity(tr)
    ensures Unidecode(tr, "1,2,3,4") == "1,2,3,4"
  {
    UnidecodeOfAscii(tr, "1,2,3,4");
  }

  lemma DigitsFiltered()
    ensures RemovePunctuation("1,2,3,4") == "1234"
  {
    assert RemovePunctuation("1,2,3,4") == "1234";
  }

  /** A character the table maps to nothing disappears after an ASCII prefix. */
  lemma UnidecodeDropsLast(tr: char -> string, a: string, c: char)
    requires AsciiIdentity(tr) && IsAscii(a) && tr(c) == ""
    ensures Unidecode(tr, a + [c]) == a
  {
    UnidecodeAppend(tr, a, [c]);
    UnidecodeOfAscii(tr, a);
    assert Unidecode(tr, [c]) == tr(c) + Unidecode(tr, []);
  }

  lemma GreetingTransliterated(tr: char -> string)
    requires AsciiIdentity(tr) && tr('\U{1F600}') == ""
    ensures Unidecode(tr, "Hello World! \U{1F600}") == "Hello World! "
  {
    assert IsAscii("Hello World! ");
    assert "Hello World! \U{1F600}" == "Hello World! " + ['\U{1F600}'];
    UnidecodeDropsLast(tr, "Hello World! ", '\U{1F600}');
  }

  lemma GreetingLowered()
    ensures ToLower("Hello World! ") == "hello world" + "! "
  {
    var s := "Hello World! ";
    assert ToLowerChar(s[0]) == 'h' && ToLowerChar(s[6]) == 'w';
    forall i | 0 <= i < |s| && i != 0 && i != 6
      ensures ToLowerChar(s[i]) == s[i]
    {
    }
  }

  lemma GreetingWordsKept()
    ensures RemovePunctuation("hello world") == "hello world"
  {
    RemovePunctuationNoop("hello world");
  }

  lemma GreetingMarkDropped()
    ensures RemovePunctuation("! ") == " "
  {
  }

  lemma GreetingFiltered()
    ensures RemovePunctuation(ToLower("Hello World! ")) == "hello world "
  {
    GreetingLowered();
    RemovePunctuationAppend("hello world", "! ");
    GreetingWordsKept();
    GreetingMarkDropped();
  }

  lemma GreetingTrimmed()
    ensures Trim("hello world ") == "hello world"
  {
    assert TrimStart("hello world ") == "hello world ";
    assert "hello world "[..11] == "hello world";
  }

  /** The unit test of rust/rsnormalizer.rs as evidently intended, on the
      emoji U+1F600: case folds, `!` goes, the emoji (which the crate
      transliterates to nothing) and the trailing space go. */
  lemma NormalizeGreeting(tr: char -> string)
    requires AsciiIdentity(tr) && tr('\U{1F600}') == ""
    ensures Normalize(tr, "Hello World! \U{1F600}") == "hello world"
  {
    GreetingTransliterated(tr);
    GreetingFiltered();
    GreetingTrimmed();
  }

  /** The four characters the test's literal holds after `! `: the UTF-8
      bytes of U+1F600 read one by one as Windows-1252 (`ð`, `Ÿ`, `˜`, `€`). */
  lemma MojibakeTransliterated(tr: char -> string, m: string)
    requires tr('\U{F0}') == "d" && tr('\U{178}') == "Y" && tr('\U{2DC}') == "~" && tr('\U{20AC}') == "EUR"
    requires m == "\U{F0}\U{178}\U{2DC}\U{20AC}"
    ensures Unidecode(tr, m) == "dY~EUR"
  {
    assert m == [m[0]] + ([m[1]] + ([m[2]] + [m[3]]));
    UnidecodeAppend(tr, [m[0]], [m[1]] + ([m[2]] + [m[3]]));
    UnidecodeAppend(tr, [m[1]], [m[2]] + [m[3]]);
    UnidecodeAppend(tr, [m[2]], [m[3]]);
    UnidecodeChar(tr, m[0]);
    UnidecodeChar(tr, m[1]);
    UnidecodeChar(tr, m[2]);
    UnidecodeChar(tr, m[3]);
  }

  lemma UnidecodeChar(tr: char -> string, c: char)
    ensures Unidecode(tr, [c]) == tr(c)
  {
    assert [c][1..] == [];
  }

  lemma MojibakeLowered(s: string)
    requires s == "dY~EUR"
    ensures ToLower(s) == "dy" + ['~'] + "eur"
  {
    assert ToLowerChar(s[1]) == 'y' && ToLowerChar(s[3]) == 'e';
    assert ToLowerChar(s[4]) == 'u' && ToLowerChar(s[5]) == 'r';
  }

  lemma MojibakeFiltered(s: string)
    requires s == "dY~EUR"
    ensures RemovePunctuation(ToLower(s)) == "dyeur"
  {
    MojibakeLowered(s);
    RemovePunctuationDrops("dy", '~', "eur");
    RemovePunctuationNoop("eur");
  }

  lemma GreetingAsWrittenTransliterated(tr: char -> string, s: string, a: string, m: string)
    requires AsciiIdentity(tr)
    requires tr('\U{F0}') == "d" && tr('\U{178}') == "Y" && tr('\U{2DC}') == "~" && tr('\U{20AC}') == "EUR"
    requires a == "Hello World! " && m == "\U{F0}\U{178}\U{2DC}\U{20AC}" && s == a + m
    ensures Unidecode(tr, s) == a + "dY~EUR"
  {
    UnidecodeAppend(tr, a, m);
    assert IsAscii(a);
    UnidecodeOfAscii(tr, a);
    MojibakeTransliterated(tr, m);
  }

  lemma GreetingAsWrittenFiltered(a: string, b: string)
    requires a == "Hello World! " && b == "dY~EUR"
    ensures RemovePunctuation(ToLower(a + b)) == "hello world " + "dyeur"
  {
    assert ToLower(a + b) == ToLower(a) + ToLower(b);
    RemovePunctuationAppend(ToLower(a), ToLower(b));
    GreetingFiltered();
    MojibakeFiltered(b);
  }

  lemma GreetingAsWrittenTrimmed(x: string, y: string)
    requires x == "hello world " && y == "dyeur"
    ensures Trim(x + y) == "hello world dyeur"
  {
    assert x + y == "hello world dyeur";
    TrimNoop(x + y);
  }

  /** The unit test of rust/rsnormalizer.rs as written: its literal is not
      the emoji but four Latin characters, which the crate transliterates to
      `d`, `Y`, `~` and `EUR`. The text then normalizes to
      `"hello world dyeur"`, not to the expected `"hello world"`. */
  lemma NormalizeGreetingAsWritten(tr: char -> string, s: string)
    requires AsciiIdentity(tr)
    requires tr('\U{F0}') == "d" && tr('\U{178}') == "Y" && tr('\U{2DC}') == "~" && tr('\U{20AC}') == "EUR"
    requires s == "Hello World! \U{F0}\U{178}\U{2DC}\U{20AC}"
    ensures Normalize(tr, s) == "hello world dyeur"
  {
    var a, m := "Hello World! ", "\U{F0}\U{178}\U{2DC}\U{20AC}";
    GreetingAsWrittenTransliterated(tr, s, a, m);
    GreetingAsWrittenFiltered(a, "dY~EUR");
    GreetingAsWrittenTrimmed("hello world ", "dyeur");
  }
}

=== FILE: sparse.dfy ===
/** rust/rssparse.rs: the vocabulary and coordinate-triplet builder behind the
    count vectorizer. A document reaches `_fit` and `_transform` as the
    `HashMap<String, usize>` the vectorizer made of it; both walk it in the
    map's own iteration order, modelled here as a list of (token, count)
    entries with distinct tokens. */
module Sparse {
  import opened Base
  import Analyzer
  import Text
  import Vectorizer

  /** A term-frequency map in its iteration order. */
  type Doc = seq<(string, nat)>

  /** The tokens of a document, in iteration order. */
  function Keys(doc: Doc): (ks: seq<string>)
    ensures |ks| == |doc|
    ensures forall i :: 0 <= i < |doc| ==> ks[i] == doc[i].0
  {
    seq(|doc|, i requires 0 <= i < |doc| => doc[i].0)
  }

  /** Every token of every document, documents in input order. */
  function Tokens(docs: seq<Doc>): seq<string>
  {
    if docs == [] then [] else Tokens(docs[..|docs| - 1]) + Keys(docs[|docs| - 1])
  }

  /** The state `_fit` carries: the vocabulary and the next column index. */
  datatype Fitted = Fitted(vocab: map<string, nat>, numCols: nat)

  /** One iteration of the inner loop of `_fit`: an unseen token takes the next column. */
  function FitStep(f: Fitted, token: string): Fitted
  {
    if token in f.vocab then f else Fitted(f.vocab[token := f.numCols], f.numCols + 1)
  }

  /** `_fit`'s loops over the tokens `ts`, from the state `f`. Known tokens keep
      their columns; every other token of `ts` gets a column at or above the
      starting counter. */
  function FitFrom(f: Fitted, ts: seq<string>): (r: Fitted)
    ensures f.numCols <= r.numCols
    ensures forall k :: k in r.vocab <==> k in f.vocab || k in ts
    ensures forall k :: k in f.vocab ==> r.vocab[k] == f.vocab[k]
    ensures forall k :: k in r.vocab && k !in f.vocab ==> f.numCols <= r.vocab[k] < r.numCols
  {
    if ts == [] then f else FitStep(FitFrom(f, ts[..|ts| - 1]), ts[|ts| - 1])
  }

  /** Column indices form the dense range `[0, n)`: one per token, each index
      used by exactly one token. */
  ghost predicate Dense(vocab: map<string, nat>, n: nat) {
    && |vocab| == n
    && (forall k :: k in vocab ==> vocab[k] < n)
    && (forall c :: 0 <= c < n ==> c in vocab.Values)
    && (forall a, b :: a in vocab && b in vocab && vocab[a] == vocab[b] ==> a == b)
  }

  /** The vocabulary learned from nothing. */
  const Empty := Fitted(map[], 0)

  /** Fitting from a dense state keeps it dense. */
  lemma {:induction false} FitFromDense(f: Fitted, ts: seq<string>)
    requires Dense(f.vocab, f.numCols)
    ensures Dense(FitFrom(f, ts).vocab, FitFrom(f, ts).numCols)
  {
    if ts != [] {
      FitFromDense(f, ts[..|ts| - 1]);
      FitStepDense(FitFrom(f, ts[..|ts| - 1]), ts[|ts| - 1]);
    }
  }

  lemma FitStepDense(p: Fitted, t: string)
    requires Dense(p.vocab, p.numCols)
    ensures Dense(FitStep(p, t).vocab, FitStep(p, t).numCols)
  {
    if t !in p.vocab {
      var v := p.vocab[t := p.numCols];
      assert v.Keys == p.vocab.Keys + {t};
      forall c | 0 <= c < p.numCols + 1 ensures c in v.Values {
        if c < p.numCols {
          assert c in p.vocab.Values;
          var k :| k in p.vocab && p.vocab[k] == c;
          assert v[k] == c;
        } else {
          assert v[t] == c;
        }
      }
    }
  }

  /** `_fit` after the reset: the vocabulary holds exactly the tokens seen,
      `num_cols` is its size, and the columns are `0..num_cols-1`, each once. */
  lemma FitDense(ts: seq<string>)
    ensures var r := FitFrom(Empty, ts);
      Dense(r.vocab, r.numCols) && (forall k :: k in r.vocab <==> k in ts)
  {
    FitFromDense(Empty, ts);
  }

  /** Fitting `a + b` is fitting `a`, then `b` from where `a` left off. */
  lemma {:induction false} FitFromAppend(f: Fitted, a: seq<string>, b: seq<string>)
    ensures FitFrom(f, a + b) == FitFrom(FitFrom(f, a), b)
  {
    if b == [] {
      assert a + b == a;
    } else {
      assert (a + b)[..|a + b| - 1] == a + b[..|b| - 1];
      FitFromAppend(f, a, b[..|b| - 1]);
    }
  }

  /** First-seen order: a token already seen among the first `k` tokens has a
      smaller column than any token first seen after them. */
  lemma FitFirstSeen(ts: seq<string>, k: nat, a: string, b: string)
    requires k <= |ts| && a in ts[..k] && b in ts && b !in ts[..k]
    ensures var v := FitFrom(Empty, ts).vocab; a in v && b in v && v[a] < v[b]
  {
    assert ts == ts[..k] + ts[k..];
    FitFromAppend(Empty, ts[..k], ts[k..]);
    var m := FitFrom(Empty, ts[..k]);
    assert a in m.vocab && m.vocab[a] < m.numCols;
  }

  lemma {:induction false} TokensAppend(a: seq<Doc>, b: seq<Doc>)
    ensures Tokens(a + b) == Tokens(a) + Tokens(b)
  {
    if b == [] {
      assert a + b == a;
    } else {
      var n := |b| - 1;
      assert (a + b)[..|a + b| - 1] == a + b[..n];
      assert (a + b)[|a + b| - 1] == b[n];
      assert Tokens(a + b) == Tokens(a + b[..n]) + Keys(b[n]);
      TokensAppend(a, b[..n]);
      assert Tokens(b) == Tokens(b[..n]) + Keys(b[n]);
    }
  }

  /** A token of one of the documents is among their tokens. */
  lemma {:induction false} TokensHas(docs: seq<Doc>, d: nat, t: string)
    requires d < |docs| && t in Keys(docs[d])
    ensures t in Tokens(docs)
  {
    var n := |docs| - 1;
    if d < n {
      assert docs[..n][d] == docs[d];
      TokensHas(docs[..n], d, t);
    }
  }

  /** Every token comes from one of the documents. */
  lemma {:induction false} TokensSource(docs: seq<Doc>, t: string) returns (d: nat)
    requires t in Tokens(docs)
    ensures d < |docs| && t in Keys(docs[d])
  {
    var n := |docs| - 1;
    if t in Keys(docs[n]) {
      d := n;
    } else {
      d := TokensSource(docs[..n], t);
      assert docs[..n][d] == docs[d];
    }
  }

  lemma TokensMembers(docs: seq<Doc>)
    ensures forall t :: t in Tokens(docs) <==> exists d :: 0 <= d < |docs| && t in Keys(docs[d])
  {
    forall d, t | 0 <= d < |docs| && t in Keys(docs[d]) ensures t in Tokens(docs) {
      TokensHas(docs, d, t);
    }
    forall t | t in Tokens(docs) ensures exists d :: 0 <= d < |docs| && t in Keys(docs[d]) {
      var d := TokensSource(docs, t);
    }
  }

  /** Across documents: a token of an earlier document has a smaller column
      than any token that no document before `later` contains. */
  lemma FitDocumentOrder(docs: seq<Doc>, earlier: nat, later: nat, a: string, b: string)
    requires earlier < later < |docs|
    requires a in Keys(docs[earlier]) && b in Keys(docs[later])
    requires forall d :: 0 <= d < later ==> b !in Keys(docs[d])
    ensures var v := FitFrom(Empty, Tokens(docs)).vocab; a in v && b in v && v[a] < v[b]
  {
    var pre := docs[..later];
    assert docs == pre + docs[later..];
    TokensAppend(pre, docs[later..]);
    TokensMembers(pre);
    TokensMembers(docs);
    assert pre[earlier] == docs[earlier];
    forall d | 0 <= d < |pre| ensures b !in Keys(pre[d]) {
      assert pre[d] == docs[d];
    }
    FitFirstSeen(Tokens(docs), |Tokens(pre)|, a, b);
    assert Tokens(docs)[..|Tokens(pre)|] == Tokens(pre);
  }

  /** One coordinate entry: the count of a token in the row of its document,
      in the column of the token. */
  datatype Triplet = Triplet(value: nat, row: nat, col: nat)

  /** The inner loop of `_transform` over one document: a triplet for each
      entry whose token has a column, in the document's order. */
  function DocTriplets(vocab: map<string, nat>, doc: Doc, row: nat): (t: seq<Triplet>)
    ensures |t| <= |doc|
    ensures forall i :: 0 <= i < |t| ==> t[i].row == row && t[i].col in vocab.Values
  {
    if doc == [] then []
    else
      var p := DocTriplets(vocab, doc[..|doc| - 1], row);
      var (token, count) := doc[|doc| - 1];
      if token in vocab then p + [Triplet(count, row, vocab[token])] else p
  }

  /** `_transform`: the triplets of every document, row by row. */
  function Triplets(vocab: map<string, nat>, docs: seq<Doc>): (t: seq<Triplet>)
    ensures forall i :: 0 <= i < |t| ==> t[i].row < |docs| && t[i].col in vocab.Values
  {
    if docs == [] then []
    else Triplets(vocab, docs[..|docs| - 1]) + DocTriplets(vocab, docs[|docs| - 1], |docs| - 1)
  }

  /** Rows never decrease along the triplets. */
  lemma {:induction false} TripletsRowsSorted(vocab: map<string, nat>, docs: seq<Doc>)
    ensures forall i, j :: 0 <= i <= j < |Triplets(vocab, docs)| ==>
      Triplets(vocab, docs)[i].row <= Triplets(vocab, docs)[j].row
  {
    if docs != [] {
      var n := |docs| - 1;
      TripletsRowsSorted(vocab, docs[..n]);
      var a, b := Triplets(vocab, docs[..n]), DocTriplets(vocab, docs[n], n);
      assert forall i :: 0 <= i < |a| ==> a[i].row < n;
      assert forall i :: 0 <= i < |b| ==> b[i].row == n;
      var t := Triplets(vocab, docs);
      assert t == a + b;
      forall i, j | 0 <= i <= j < |t| ensures t[i].row <= t[j].row {
        if j < |a| {
          assert t[i] == a[i] && t[j] == a[j];
        } else if i < |a| {
          assert t[i] == a[i] && t[j] == b[j - |a|];
        } else {
          assert t[i] == b[i - |a|] && t[j] == b[j - |a|];
        }
      }
    }
  }

  /** With a dense vocabulary every column is below `num_cols`. */
  lemma TripletsInBounds(vocab: map<string, nat>, n: nat, docs: seq<Doc>)
    requires Dense(vocab, n)
    ensures forall i :: 0 <= i < |Triplets(vocab, docs)| ==> Triplets(vocab, docs)[i].col < n
  {
  }

  /** A document whose every token has a column yields one triplet per entry,
      in order, carrying the entry's count. */
  lemma {:induction false} DocTripletsCovered(vocab: map<string, nat>, doc: Doc, row: nat)
    requires forall i :: 0 <= i < |doc| ==> doc[i].0 in vocab
    ensures var t := DocTriplets(vocab, doc, row);
      |t| == |doc| &&
      forall i :: 0 <= i < |doc| ==> t[i] == Triplet(doc[i].1, row, vocab[doc[i].0])
  {
    if doc != [] {
      DocTripletsCovered(vocab, doc[..|doc| - 1], row);
    }
  }

  /** Out-of-vocabulary entries are dropped: a document none of whose tokens
      has a column yields no triplet. */
  lemma {:induction false} DocTripletsUnknown(vocab: map<string, nat>, doc: Doc, row: nat)
    requires forall i :: 0 <= i < |doc| ==> doc[i].0 !in vocab
    ensures DocTriplets(vocab, doc, row) == []
  {
    if doc != [] {
      DocTripletsUnknown(vocab, doc[..|doc| - 1], row);
    }
  }

  /** The triplets keep the order of the entries: those of an earlier part of
      a document come before those of a later part. */
  lemma {:induction false} DocTripletsAppend(vocab: map<string, nat>, a: Doc, b: Doc, row: nat)
    ensures DocTriplets(vocab, a + b, row) == DocTriplets(vocab, a, row) + DocTriplets(vocab, b, row)
    decreases |b|
  {
    if b == [] {
      assert a + b == a;
    } else {
      var n := |b| - 1;
      assert (a + b)[..|a + b| - 1] == a + b[..n];
      assert (a + b)[|a + b| - 1] == b[n];
      DocTripletsAppend(vocab, a, b[..n], row);
    }
  }

  /** The triplets of one document are exactly those of its in-vocabulary
      entries: each triplet carries the count, the row and the column of some
      entry whose token has a column, and each such entry has its triplet.
      Out-of-vocabulary entries leave nothing behind. */
  lemma {:induction false} DocTripletsContent(vocab: map<string, nat>, doc: Doc, row: nat)
    ensures forall k :: 0 <= k < |DocTriplets(vocab, doc, row)| ==>
      var tk := DocTriplets(vocab, doc, row)[k];
      tk.row == row &&
      exists i :: 0 <= i < |doc| && doc[i].0 in vocab && tk == Triplet(doc[i].1, row, vocab[doc[i].0])
    ensures forall i :: 0 <= i < |doc| && doc[i].0 in vocab ==>
      Triplet(doc[i].1, row, vocab[doc[i].0]) in DocTriplets(vocab, doc, row)
  {
    if doc != [] {
      var n := |doc| - 1;
      var pre := doc[..n];
      DocTripletsContent(vocab, pre, row);
      var p := DocTriplets(vocab, pre, row);
      var t := DocTriplets(vocab, doc, row);
      assert t == if doc[n].0 in vocab then p + [Triplet(doc[n].1, row, vocab[doc[n].0])] else p;
      forall k | 0 <= k < |DocTriplets(vocab, doc, row)|
        ensures var tk := DocTriplets(vocab, doc, row)[k];
          tk.row == row &&
          exists i :: 0 <= i < |doc| && doc[i].0 in vocab && tk == Triplet(doc[i].1, row, vocab[doc[i].0])
      {
        if k < |p| {
          assert t[k] == p[k];
          var i :| 0 <= i < |pre| && pre[i].0 in vocab && p[k] == Triplet(pre[i].1, row, vocab[pre[i].0]);
          assert pre[i] == doc[i] && t[k] == p[k];
        } else {
          assert t[k] == Triplet(doc[n].1, row, vocab[doc[n].0]);
        }
      }
      forall i | 0 <= i < |doc| && doc[i].0 in vocab
        ensures Triplet(doc[i].1, row, vocab[doc[i].0]) in DocTriplets(vocab, doc, row)
      {
        if i < n {
          assert pre[i] == doc[i];
          assert Triplet(pre[i].1, row, vocab[pre[i].0]) in p;
        } else {
          assert t[|t| - 1] == Triplet(doc[n].1, row, vocab[doc[n].0]);
        }
      }
    }
  }

  /** `_transform` over all documents: every triplet comes from an
      in-vocabulary entry of the document of its row, and every such entry of
      every document has its triplet. */
  lemma {:induction false} TripletsContent(vocab: map<string, nat>, docs: seq<Doc>)
    ensures forall k :: 0 <= k < |Triplets(vocab, docs)| ==>
      var tk := Triplets(vocab, docs)[k];
      tk.row < |docs| &&
      exists i :: 0 <= i < |docs[tk.row]| && docs[tk.row][i].0 in vocab &&
        tk == Triplet(docs[tk.row][i].1, tk.row, vocab[docs[tk.row][i].0])
    ensures forall r, i :: 0 <= r < |docs| && 0 <= i < |docs[r]| && docs[r][i].0 in vocab ==>
      Triplet(docs[r][i].1, r, vocab[docs[r][i].0]) in Triplets(vocab, docs)
  {
    if docs != [] {
      var n := |docs| - 1;
      var pre := docs[..n];
      TripletsContent(vocab, pre);
      DocTripletsContent(vocab, docs[n], n);
      var a := Triplets(vocab, pre);
      var b := DocTriplets(vocab, docs[n], n);
      var t := Triplets(vocab, docs);
      assert t == a + b;
      forall k | 0 <= k < |Triplets(vocab, docs)|
        ensures var tk := Triplets(vocab, docs)[k];
          tk.row < |docs| &&
          exists i :: 0 <= i < |docs[tk.row]| && docs[tk.row][i].0 in vocab &&
            tk == Triplet(docs[tk.row][i].1, tk.row, vocab[docs[tk.row][i].0])
      {
        if k < |a| {
          assert t[k] == a[k];
          var i :| 0 <= i < |pre[a[k].row]| && pre[a[k].row][i].0 in vocab &&
            a[k] == Triplet(pre[a[k].row][i].1, a[k].row, vocab[pre[a[k].row][i].0]);
          assert pre[a[k].row] == docs[a[k].row];
        } else {
          assert t[k] == b[k - |a|];
          var i :| 0 <= i < |docs[n]| && docs[n][i].0 in vocab && b[k - |a|] == Triplet(docs[n][i].1, n, vocab[docs[n][i].0]);
        }
      }
      forall r, i | 0 <= r < |docs| && 0 <= i < |docs[r]| && docs[r][i].0 in vocab
        ensures Triplet(docs[r][i].1, r, vocab[docs[r][i].0]) in Triplets(vocab, docs)
      {
        if r < n {
          assert pre[r] == docs[r];
          assert Triplet(pre[r][i].1, r, vocab[pre[r][i].0]) in a;
        } else {
          assert Triplet(docs[n][i].1, n, vocab[docs[n][i].0]) in b;
        }
      }
    }
  }

  /** The entries of all documents, counted. */
  function EntryCount(docs: seq<Doc>): nat
  {
    if docs == [] then 0 else EntryCount(docs[..|docs| - 1]) + |docs[|docs| - 1]|
  }

  /** `fit_transform`: the vocabulary learned from the documents covers them,
      so every (token, count) entry of every document yields exactly one
      triplet. */
  lemma {:induction false} FitTransformCovers(docs: seq<Doc>, prefix: nat)
    requires prefix <= |docs|
    ensures var v := FitFrom(Empty, Tokens(docs)).vocab;
      |Triplets(v, docs[..prefix])| == EntryCount(docs[..prefix])
  {
    if prefix > 0 {
      var v := FitFrom(Empty, Tokens(docs)).vocab;
      var d := prefix - 1;
      FitTransformCovers(docs, d);
      assert docs[..prefix][..d] == docs[..d];
      TokensMembers(docs);
      forall i | 0 <= i < |docs[d]| ensures docs[d][i].0 in v {
        assert docs[d][i].0 == Keys(docs[d])[i];
      }
      DocTripletsCovered(v, docs[d], d);
    }
  }

  /** A `HashMap` and one iteration order of its keys. */
  ghost predicate Enumerates(order: map<string, nat> -> seq<string>) {
    forall m: map<string, nat> ::
      (forall k :: k in order(m) <==> k in m) &&
      (forall i, j :: 0 <= i < j < |order(m)| ==> order(m)[i] != order(m)[j])
  }

  /** A term-frequency map as the entries `_fit` and `_transform` walk. */
  function AsDoc(m: map<string, nat>, order: map<string, nat> -> seq<string>): (d: Doc)
    requires Enumerates(order)
    ensures |d| == |order(m)|
    ensures forall k :: k in m <==> k in Keys(d)
    ensures forall i :: 0 <= i < |d| ==> d[i].0 in m && d[i].1 == m[d[i].0]
    ensures forall i, j :: 0 <= i < j < |d| ==> d[i].0 != d[j].0
  {
    var ks := order(m);
    var d := seq(|ks|, i requires 0 <= i < |ks| => (ks[i], m[ks[i]]));
    assert Keys(d) == ks;
    d
  }

  function AsDocs(maps: seq<map<string, nat>>, order: map<string, nat> -> seq<string>): (ds: seq<Doc>)
    requires Enumerates(order)
    ensures |ds| == |maps|
    ensures forall i :: 0 <= i < |maps| ==> ds[i] == AsDoc(maps[i], order)
  {
    seq(|maps|, i requires 0 <= i < |maps| => AsDoc(maps[i], order))
  }

  /** The three vectors handed to numpy. */
  datatype Coo = Coo(values: seq<nat>, rows: seq<nat>, cols: seq<nat>)

  function Unzip(t: seq<Triplet>): (c: Coo)
    ensures |c.values| == |c.rows| == |c.cols| == |t|
    ensures forall i :: 0 <= i < |t| ==> t[i] == Triplet(c.values[i], c.rows[i], c.cols[i])
  {
    Coo(seq(|t|, i requires 0 <= i < |t| => t[i].value),
        seq(|t|, i requires 0 <= i < |t| => t[i].row),
        seq(|t|, i requires 0 <= i < |t| => t[i].col))
  }

  lemma UnzipSnoc(t: seq<Triplet>, x: Triplet)
    ensures Unzip(t + [x]) == Coo(Unzip(t).values + [x.value], Unzip(t).rows + [x.row], Unzip(t).cols + [x.col])
  {
  }

  /** The keys of all the maps. */
  function AllKeys(maps: seq<map<string, nat>>): set<string>
  {
    if maps == [] then {} else AllKeys(maps[..|maps| - 1]) + maps[|maps| - 1].Keys
  }

  lemma {:induction false} TokensOfMaps(maps: seq<map<string, nat>>, order: map<string, nat> -> seq<string>)
    requires Enumerates(order)
    ensures forall k :: k in Tokens(AsDocs(maps, order)) <==> k in AllKeys(maps)
  {
    if maps != [] {
      var n := |maps| - 1;
      TokensOfMaps(maps[..n], order);
      assert AsDocs(maps, order)[..n] == AsDocs(maps[..n], order);
    }
  }

  /** Fitting the documents learns exactly the keys of their maps. */
  lemma FitOfMaps(maps: seq<map<string, nat>>, order: map<string, nat> -> seq<string>)
    requires Enumerates(order)
    ensures var f := FitFrom(Empty, Tokens(AsDocs(maps, order)));
      Dense(f.vocab, f.numCols) && f.vocab.Keys == AllKeys(maps)
  {
    FitDense(Tokens(AsDocs(maps, order)));
    TokensOfMaps(maps, order);
  }

  lemma FitOfPair(maps: seq<map<string, nat>>, order: map<string, nat> -> seq<string>)
    requires Enumerates(order) && |maps| == 2
    requires maps[0] == map["hello" := 1, "world" := 1]
    requires maps[1] == map["how" := 1, "are" := 1, "you" := 1]
    ensures var f := FitFrom(Empty, Tokens(AsDocs(maps, order)));
      f.vocab.Keys == {"hello", "world", "how", "are", "you"} && f.numCols == 5
  {
    FitOfMaps(maps, order);
    AllKeysOfPair(maps);
    TwoPlusThreeKeys(maps[0], maps[1], "hello", "world", "how", "are", "you");
  }

  lemma AllKeysOfPair(maps: seq<map<string, nat>>)
    requires |maps| == 2
    ensures AllKeys(maps) == maps[0].Keys + maps[1].Keys
  {
    assert maps[..1][..0] == [] && maps[..1][0] == maps[0];
    assert AllKeys(maps[..1]) == {} + maps[0].Keys;
    assert maps[..|maps| - 1] == maps[..1];
  }

  /** A map of two keys and a map of three other keys together hold five. */
  lemma TwoPlusThreeKeys(m: map<string, nat>, p: map<string, nat>, a: string, b: string, x: string, y: string, z: string)
    requires m == map[a := 1, b := 1] && p == map[x := 1, y := 1, z := 1]
    requires a != b && x != y && y != z && x != z && a !in {x, y, z} && b !in {x, y, z}
    ensures m.Keys + p.Keys == {a, b, x, y, z} && |m.Keys + p.Keys| == 5
  {
    assert m.Keys == {a, b} && p.Keys == {x, y, z};
    assert |{a, b, x, y}| == 4;
    assert {a, b, x, y, z} == {a, b, x, y} + {z};
  }

  /** count_vectorizer.py's example: "Hello, world!" and "How are you?"
      vectorize, under the default configuration (unigrams, normalized, no
      stop words), to these two maps (`Vectorizer.VectorizeWordExample`), from
      which `_fit` learns five columns whatever the iteration order. */
  lemma FiveColumns(tr: char -> string, order: map<string, nat> -> seq<string>, texts: seq<string>)
    requires Enumerates(order)
    requires var r := Vectorizer.VectorizeMany(tr, texts, [1], "word", None, Some(true));
      r.Ok? && |r.value| == 2 &&
      r.value[0] == map["hello" := 1, "world" := 1] &&
      r.value[1] == map["how" := 1, "are" := 1, "you" := 1]
    ensures var f := FitFrom(Empty, Tokens(AsDocs(Vectorizer.VectorizeMany(tr, texts, [1], "word", None, Some(true)).value, order)));
      f.vocab.Keys == {"hello", "world", "how", "are", "you"} && f.numCols == 5
  {
    FitOfPair(Vectorizer.VectorizeMany(tr, texts, [1], "word", None, Some(true)).value, order);
  }

  class SparseMatrixBuilder {
    const analyzer: string
    const nSizes: seq<nat>
    const stopWords: Option<seq<string>>
    const normalize: Option<bool>
    var vocab: map<string, nat>
    var numCols: nat

    /** The invariant `fit` establishes: columns are `0..num_cols-1`, one per token. */
    ghost predicate Valid()
      reads this
    {
      Dense(vocab, numCols)
    }

    /** `new`: the configuration as given, nothing learned yet. */
    constructor(nSizes: seq<nat>, analyzer: string, stopWords: Option<seq<string>>, normalize: Option<bool>)
      ensures this.nSizes == nSizes && this.analyzer == analyzer
      ensures this.stopWords == stopWords && this.normalize == normalize
      ensures vocab == map[] && numCols == 0
      ensures Valid()
    {
      this.nSizes := nSizes;
      this.analyzer := analyzer;
      this.stopWords := stopWords;
      this.normalize := normalize;
      vocab := map[];
      numCols := 0;
    }

    /** The documents `rsvectorize_many` makes of `texts` under this
        configuration, each walked in the order `order` gives its keys. */
    function Documents(tr: char -> string, order: map<string, nat> -> seq<string>, texts: seq<string>)
      : (r: Result<seq<Doc>>)
      requires Enumerates(order)
      requires Vectorizer.KnownAnalyzer(analyzer) && |texts| > 0 ==> Analyzer.Positive(nSizes)
      ensures r.Panic? <==> !Vectorizer.KnownAnalyzer(analyzer)
      ensures r.Ok? ==> |r.value| == |texts|
      ensures r.Ok? ==> forall i :: 0 <= i < |texts| ==>
        r.value[i] == AsDoc(Vectorizer.VectorizeMany(tr, texts, nSizes, analyzer, stopWords, normalize).value[i], order)
    {
      match Vectorizer.VectorizeMany(tr, texts, nSizes, analyzer, stopWords, normalize)
      case Panic(msg) => Panic(msg)
      case Ok(maps) => Ok(AsDocs(maps, order))
    }

    /** `fit`: forget the old vocabulary, vectorize, learn the new one. An
        unknown analyzer panics after the reset. */
    method Fit(tr: char -> string, order: map<string, nat> -> seq<string>, texts: seq<string>)
      returns (outcome: Result<()>)
      requires Enumerates(order)
      requires Vectorizer.KnownAnalyzer(analyzer) && |texts| > 0 ==> Analyzer.Positive(nSizes)
      modifies this
      ensures outcome.Panic? <==> !Vectorizer.KnownAnalyzer(analyzer)
      ensures outcome.Panic? ==> vocab == map[] && numCols == old(numCols)
      ensures outcome.Ok? ==> Fitted(vocab, numCols) == FitFrom(Empty, Tokens(Documents(tr, order, texts).value))
      ensures outcome.Ok? ==> Valid()
    {
      vocab := map[];
      var docs := Documents(tr, order, texts);
      if docs.Panic? {
        return Panic(docs.msg);
      }
      FitDocs(docs.value);
      FitDense(Tokens(docs.value));
      return Ok(());
    }

    /** `transform`: vectorize and emit the triplets of the tokens the fitted
        vocabulary knows; the vocabulary is left as it is. */
    method Transform(tr: char -> string, order: map<string, nat> -> seq<string>, texts: seq<string>)
      returns (r: Result<Coo>)
      requires Enumerates(order)
      requires Vectorizer.KnownAnalyzer(analyzer) && |texts| > 0 ==> Analyzer.Positive(nSizes)
      ensures r.Panic? <==> !Vectorizer.KnownAnalyzer(analyzer)
      ensures r.Ok? ==> r.value == Unzip(Triplets(vocab, Documents(tr, order, texts).value))
    {
      var docs := Documents(tr, order, texts);
      if docs.Panic? {
        return Panic(docs.msg);
      }
      var values, rows, cols := TransformDocs(docs.value);
      return Ok(Coo(values, rows, cols));
    }

    /** `fit_transform`: one vectorization serves both `_fit` and
        `_transform`. The triplets are those `transform` would give after
        `fit` on the same texts if both calls walked the maps in the same
        order; in the program each call builds fresh maps, whose iteration
        orders may differ. */
    method FitTransform(tr: char -> string, order: map<string, nat> -> seq<string>, texts: seq<string>)
      returns (r: Result<Coo>)
      requires Enumerates(order)
      requires Vectorizer.KnownAnalyzer(analyzer) && |texts| > 0 ==> Analyzer.Positive(nSizes)
      modifies this
      ensures r.Panic? <==> !Vectorizer.KnownAnalyzer(analyzer)
      ensures r.Panic? ==> vocab == map[] && numCols == old(numCols)
      ensures r.Ok? ==> Fitted(vocab, numCols) == FitFrom(Empty, Tokens(Documents(tr, order, texts).value))
      ensures r.Ok? ==> Valid()
      ensures r.Ok? ==> r.value == Unzip(Triplets(vocab, Documents(tr, order, texts).value))
    {
      vocab := map[];
      var docs := Documents(tr, order, texts);
      if docs.Panic? {
        return Panic(docs.msg);
      }
      FitDocs(docs.value);
      FitDense(Tokens(docs.value));
      var values, rows, cols := TransformDocs(docs.value);
      return Ok(Coo(values, rows, cols));
    }

    /** `get_vocab`: once fitted, a column below `num_cols` for every token. */
    function GetVocab(): (v: map<string, nat>)
      reads this
      ensures Valid() ==> |v| == numCols && forall k :: k in v ==> v[k] < numCols
    {
      vocab
    }

    /** `get_num_cols`: once fitted, the size of the vocabulary. */
    function GetNumCols(): (n: nat)
      reads this
      ensures Valid() ==> n == |vocab| && forall c :: 0 <= c < n ==> c in vocab.Values
    {
      numCols
    }

    /** `__getnewargs__`: the constructor's arguments, in the constructor's order. */
    function GetNewArgs(): (args: (seq<nat>, string, Option<seq<string>>, Option<bool>))
      ensures args.0 == nSizes && args.1 == analyzer && args.2 == stopWords && args.3 == normalize
    {
      (nSizes, analyzer, stopWords, normalize)
    }

    /** `_fit`: walk the documents' tokens, giving each unseen token the next
        column; `col_index` starts at 0 whatever `vocab` holds. */
    method FitDocs(docs: seq<Doc>)
      modifies this
      ensures Fitted(vocab, numCols) == FitFrom(Fitted(old(vocab), 0), Tokens(docs))
    {
      ghost var start := Fitted(vocab, 0);
      var colIndex := 0;
      for d := 0 to |docs|
        invariant Fitted(vocab, colIndex) == FitFrom(start, Tokens(docs[..d]))
      {
        ghost var before := Tokens(docs[..d]);
        colIndex := FitDoc(docs[d], colIndex);
        assert docs[..d + 1][..d] == docs[..d];
        FitFromAppend(start, before, Keys(docs[d]));
      }
      assert docs[..|docs|] == docs;
      numCols := colIndex;
    }

    /** The inner loop of `_fit`, over the keys of one document. */
    method FitDoc(doc: Doc, colIndex0: nat) returns (colIndex: nat)
      modifies this
      ensures Fitted(vocab, colIndex) == FitFrom(Fitted(old(vocab), colIndex0), Keys(doc))
    {
      ghost var start := Fitted(vocab, colIndex0);
      colIndex := colIndex0;
      for e := 0 to |doc|
        invariant Fitted(vocab, colIndex) == FitFrom(start, Keys(doc)[..e])
      {
        var token := doc[e].0;
        ghost var before := Fitted(vocab, colIndex);
        assert Keys(doc)[..e + 1][..e] == Keys(doc)[..e] && Keys(doc)[..e + 1][e] == token;
        assert FitFrom(start, Keys(doc)[..e + 1]) == FitStep(before, token);
        if token !in vocab {
          vocab := vocab[token := colIndex];
          colIndex := colIndex + 1;
        }
        assert Fitted(vocab, colIndex) == FitStep(before, token);
      }
      assert Keys(doc)[..|doc|] == Keys(doc);
    }

    /** `_transform`: reads `vocab` only. */
    method TransformDocs(docs: seq<Doc>) returns (values: seq<nat>, rows: seq<nat>, cols: seq<nat>)
      ensures Coo(values, rows, cols) == Unzip(Triplets(vocab, docs))
    {
      values, rows, cols := [], [], [];
      for d := 0 to |docs|
        invariant Coo(values, rows, cols) == Unzip(Triplets(vocab, docs[..d]))
      {
        values, rows, cols := TransformDoc(docs[d], d, values, rows, cols);
        assert docs[..d + 1][..d] == docs[..d];
      }
      assert docs[..|docs|] == docs;
    }

    /** The inner loop of `_transform`, over the entries of one document. */
    method TransformDoc(doc: Doc, row: nat, values0: seq<nat>, rows0: seq<nat>, cols0: seq<nat>)
      returns (values: seq<nat>, rows: seq<nat>, cols: seq<nat>)
      requires |values0| == |rows0| == |cols0|
      ensures Coo(values, rows, cols) == Coo(values0 + Unzip(DocTriplets(vocab, doc, row)).values,
                                             rows0 + Unzip(DocTriplets(vocab, doc, row)).rows,
                                             cols0 + Unzip(DocTriplets(vocab, doc, row)).cols)
    {
      values, rows, cols := values0, rows0, cols0;
      for e := 0 to |doc|
        invariant Coo(values, rows, cols) == Coo(values0 + Unzip(DocTriplets(vocab, doc[..e], row)).values,
                                                 rows0 + Unzip(DocTriplets(vocab, doc[..e], row)).rows,
                                                 cols0 + Unzip(DocTriplets(vocab, doc[..e], row)).cols)
      {
        var (token, count) := doc[e];
        assert doc[..e + 1][..e] == doc[..e];
        if token in vocab {
          var colIdx := vocab[token];
          UnzipSnoc(DocTriplets(vocab, doc[..e], row), Triplet(count, row, colIdx));
          values := values + [count];
          rows := rows + [row];
          cols := cols + [colIdx];
        }
      }
      assert doc[..|doc|] == doc;
    }
  }

  /** Unpickling first calls `new` with `__getnewargs__`: the configuration
      comes back, the learned vocabulary does not. */
  method Renew(b: SparseMatrixBuilder) returns (c: SparseMatrixBuilder)
    ensures c.GetNewArgs() == b.GetNewArgs()
    ensures c.vocab == map[] && c.numCols == 0
  {
    var (nSizes, analyzer, stopWords, normalize) := b.GetNewArgs();
    c := new SparseMatrixBuilder(nSizes, analyzer, stopWords, normalize);
  }
}

=== FILE: stop_words.dfy ===
/** rust/rsstop_words.rs: split on whitespace, drop every token that is
    exactly (case-sensitively) a stop word, join the rest with single spaces. */
module StopWords {
  import opened Text

  /** The `HashSet` the source builds once from the stop-word list. */
  function StopSet(stopWords: seq<string>): set<string>
  {
    set w | w in stopWords
  }

  /** `.filter(|word| !stop_words_set.contains(word))`: the tokens that are not
      stop words, in their original order. */
  function KeepTokens(ts: seq<string>, stop: set<string>): (r: seq<string>)
    ensures |r| <= |ts|
    ensures forall i :: 0 <= i < |r| ==> r[i] !in stop
  {
    if ts == [] then []
    else (if ts[0] in stop then [] else [ts[0]]) + KeepTokens(ts[1..], stop)
  }

  lemma {:induction false} KeepTokensAppend(a: seq<string>, b: seq<string>, stop: set<string>)
    ensures KeepTokens(a + b, stop) == KeepTokens(a, stop) + KeepTokens(b, stop)
  {
    if a != [] {
      assert (a + b)[1..] == a[1..] + b;
      KeepTokensAppend(a[1..], b, stop);
    } else {
      assert a + b == b;
    }
  }

  /** A token is kept exactly when it occurs in the input and is not a stop word. */
  lemma {:induction false} KeepTokensMembers(ts: seq<string>, stop: set<string>)
    ensures forall w :: w in KeepTokens(ts, stop) <==> w in ts && w !in stop
  {
    if ts != [] {
      KeepTokensMembers(ts[1..], stop);
      assert ts == [ts[0]] + ts[1..];
    }
  }

  /** Filtering keeps tokens tokens: non-empty and free of whitespace. */
  lemma {:induction false} KeepTokensAreTokens(ts: seq<string>, stop: set<string>)
    requires AllTokens(ts)
    ensures AllTokens(KeepTokens(ts, stop))
  {
    if ts != [] {
      KeepTokensAreTokens(ts[1..], stop);
      assert IsToken(ts[0]);
    }
  }

  /** Filtering tokens none of which is a stop word changes nothing. */
  lemma {:induction false} KeepTokensNoop(ts: seq<string>, stop: set<string>)
    requires forall i :: 0 <= i < |ts| ==> ts[i] !in stop
    ensures KeepTokens(ts, stop) == ts
  {
    if ts != [] {
      KeepTokensNoop(ts[1..], stop);
      assert ts == [ts[0]] + ts[1..];
    }
  }

  /** `rsfilter_stop_words` */
  function FilterStopWords(text: string, stopWords: seq<string>): string
  {
    JoinSpace(KeepTokens(Words(text), StopSet(stopWords)))
  }

  /** The output's tokens are exactly the input's tokens minus the stop words,
      in their original relative order. */
  lemma FilterStopWordsTokens(text: string, stopWords: seq<string>)
    ensures Words(FilterStopWords(text, stopWords)) == KeepTokens(Words(text), StopSet(stopWords))
    ensures forall w ::
      w in Words(FilterStopWords(text, stopWords)) <==> w in Words(text) && w !in stopWords
  {
    var kept := KeepTokens(Words(text), StopSet(stopWords));
    WordsAreTokens(text);
    KeepTokensAreTokens(Words(text), StopSet(stopWords));
    WordsOfJoinSpace(kept);
    KeepTokensMembers(Words(text), StopSet(stopWords));
  }

  /** The output is joined by single spaces: no leading, trailing or repeated whitespace. */
  lemma FilterStopWordsSingleSpaced(text: string, stopWords: seq<string>)
    ensures SingleSpaced(FilterStopWords(text, stopWords))
  {
    WordsAreTokens(text);
    KeepTokensAreTokens(Words(text), StopSet(stopWords));
    JoinSpaceSingleSpaced(KeepTokens(Words(text), StopSet(stopWords)));
  }

  /** Nothing is kept exactly when every token is a stop word. */
  lemma {:induction false} KeepTokensEmpty(ts: seq<string>, stop: set<string>)
    ensures KeepTokens(ts, stop) == [] <==> forall i :: 0 <= i < |ts| ==> ts[i] in stop
  {
    if ts != [] {
      KeepTokensEmpty(ts[1..], stop);
      if ts[0] in stop {
        assert KeepTokens(ts, stop) == KeepTokens(ts[1..], stop);
        assert (forall i :: 0 <= i < |ts| ==> ts[i] in stop)
          <==> (forall i :: 0 <= i < |ts[1..]| ==> ts[1..][i] in stop);
      }
    }
  }

  /** The output is empty exactly when every token of the input is a stop word. */
  lemma FilterStopWordsEmpty(text: string, stopWords: seq<string>)
    ensures FilterStopWords(text, stopWords) == ""
      <==> forall i :: 0 <= i < |Words(text)| ==> Words(text)[i] in stopWords
  {
    var ws := Words(text);
    var kept := KeepTokens(ws, StopSet(stopWords));
    KeepTokensEmpty(ws, StopSet(stopWords));
    if kept != [] {
      WordsAreTokens(text);
      KeepTokensAreTokens(ws, StopSet(stopWords));
      JoinSpaceStart(kept);
    }
  }

  /** No output token is a stop word, so filtering twice is filtering once. */
  lemma FilterStopWordsIdempotent(text: string, stopWords: seq<string>)
    ensures FilterStopWords(FilterStopWords(text, stopWords), stopWords)
      == FilterStopWords(text, stopWords)
  {
    var once := FilterStopWords(text, stopWords);
    FilterStopWordsTokens(text, stopWords);
    KeepTokensNoop(Words(once), StopSet(stopWords));
    WordsAreTokens(once);
    WordsOfJoinSpace(Words(once));
    assert JoinSpace(Words(once)) == once by {
      var kept := KeepTokens(Words(text), StopSet(stopWords));
      assert once == JoinSpace(kept);
      assert Words(once) == kept;
    }
  }

  lemma ExampleTokens()
    ensures AllTokens(["Are", "you", "are"])
  {
    assert IsToken("Are") && IsToken("you") && IsToken("are");
  }

  lemma ExampleJoined()
    ensures JoinSpace(["Are", "you", "are"]) == "Are you are"
    ensures JoinSpace(["Are", "you"]) == "Are you"
  {
  }

  lemma ExampleKept()
    ensures KeepTokens(["Are", "you", "are"], StopSet(["are"])) == ["Are", "you"]
  {
    assert StopSet(["are"]) == {"are"};
  }

  /** `rsfilter_stop_words` matches stop words exactly: with the stop word
      `"are"`, the text `"Are you are"` keeps `"Are"` and becomes `"Are you"`. */
  lemma FilterStopWordsExample()
    ensures FilterStopWords("Are you are", ["are"]) == "Are you"
  {
    var ts := ["Are", "you", "are"];
    ExampleTokens();
    ExampleJoined();
    WordsOfJoinSpace(ts);
    ExampleKept();
  }

  /** `rsfilter_stop_words_many`: one filtered text per input, in order, the
      stop-word set shared by all of them. */
  function FilterStopWordsMany(texts: seq<string>, stopWords: seq<string>): (r: seq<string>)
    ensures |r| == |texts|
    ensures forall i :: 0 <= i < |texts| ==> r[i] == FilterStopWords(texts[i], stopWords)
  {
    seq(|texts|, i requires 0 <= i < |texts| => FilterStopWords(texts[i], stopWords))
  }
}

=== FILE: text.dfy ===
/** Character classes and string helpers shared by every component: the
    Rust standard-library behaviour the core relies on (`char::is_whitespace`,
    `is_ascii_punctuation`, `split_whitespace`, `join(" ")`, `trim`,
    `len_utf8`) written out over `seq<char>`, plus the transliteration
    parameter that stands for the `unidecode` crate. */
module Text {

  /** `char::is_whitespace`: the Unicode White_Space property. */
  predicate IsWhitespace(c: char) {
    ('\t' <= c <= '\r') || c == ' ' || c == '\U{85}' || c == '\U{A0}' || c == '\U{1680}'
    || ('\U{2000}' <= c <= '\U{200A}') || c == '\U{2028}' || c == '\U{2029}'
    || c == '\U{202F}' || c == '\U{205F}' || c == '\U{3000}'
  }

  /** `char::is_ascii_punctuation`: the four punctuation ranges of ASCII; `_` is one of them. */
  predicate IsAsciiPunctuation(c: char) {
    ('!' <= c <= '/') || (':' <= c <= '@') || ('[' <= c <= '`') || ('{' <= c <= '~')
  }

  predicate IsAsciiChar(c: char) {
    (c as int) < 128
  }

  predicate IsAscii(s: string) {
    forall i :: 0 <= i < |s| ==> IsAsciiChar(s[i])
  }

  predicate IsAsciiUpper(c: char) {
    'A' <= c <= 'Z'
  }

  /** `to_lowercase` restricted to ASCII: the letters `A`..`Z` map to `a`..`z`, every other
      character is left as it is. */
  function ToLowerChar(c: char): (d: char)
    ensures !IsAsciiUpper(d)
    ensures IsAsciiChar(c) <==> IsAsciiChar(d)
    ensures IsWhitespace(c) <==> IsWhitespace(d)
    ensures IsAsciiPunctuation(c) <==> IsAsciiPunctuation(d)
  {
    if 'A' <= c <= 'Z' then (c as int + 32) as char else c
  }

  function ToLower(s: string): (r: string)
    ensures |r| == |s|
    ensures forall i :: 0 <= i < |s| ==> r[i] == ToLowerChar(s[i])
  {
    seq(|s|, i requires 0 <= i < |s| => ToLowerChar(s[i]))
  }

  /** The `unidecode` crate transliterates a string character by character;
      `tr` is its per-character table (`unidecode_char`). */
  function Unidecode(tr: char -> string, s: string): string
  {
    if s == [] then [] else tr(s[0]) + Unidecode(tr, s[1..])
  }

  lemma {:induction false} UnidecodeAppend(tr: char -> string, a: string, b: string)
    ensures Unidecode(tr, a + b) == Unidecode(tr, a) + Unidecode(tr, b)
  {
    if a != [] {
      assert (a + b)[1..] == a[1..] + b;
      UnidecodeAppend(tr, a[1..], b);
    } else {
      assert a + b == b;
    }
  }

  /** The crate's tables produce ASCII only. */
  ghost predicate AsciiOutput(tr: char -> string) {
    forall c :: IsAscii(tr(c))
  }

  /** The crate leaves ASCII characters as they are. */
  ghost predicate AsciiIdentity(tr: char -> string) {
    forall c :: IsAsciiChar(c) ==> tr(c) == [c]
  }

  lemma {:induction false} UnidecodeAscii(tr: char -> string, s: string)
    requires AsciiOutput(tr)
    ensures IsAscii(Unidecode(tr, s))
  {
    if s != [] {
      UnidecodeAscii(tr, s[1..]);
      assert IsAscii(tr(s[0]));
    }
  }

  lemma {:induction false} UnidecodeOfAscii(tr: char -> string, s: string)
    requires AsciiIdentity(tr) && IsAscii(s)
    ensures Unidecode(tr, s) == s
  {
    if s != [] {
      assert IsAsciiChar(s[0]);
      UnidecodeOfAscii(tr, s[1..]);
      assert s == [s[0]] + s[1..];
    }
  }

  /** `.chars().filter(|c| !c.is_ascii_punctuation()).collect()` */
  function RemovePunctuation(s: string): (r: string)
    ensures |r| <= |s|
    ensures forall i :: 0 <= i < |r| ==> !IsAsciiPunctuation(r[i])
  {
    if s == [] then []
    else (if IsAsciiPunctuation(s[0]) then [] else [s[0]]) + RemovePunctuation(s[1..])
  }

  lemma {:induction false} RemovePunctuationAppend(a: string, b: string)
    ensures RemovePunctuation(a + b) == RemovePunctuation(a) + RemovePunctuation(b)
  {
    if a != [] {
      assert (a + b)[1..] == a[1..] + b;
      RemovePunctuationAppend(a[1..], b);
    } else {
      assert a + b == b;
    }
  }

  /** Filtering keeps any property that every character of the input has. */
  lemma {:induction false} RemovePunctuationKeeps(s: string, p: char -> bool)
    requires forall i :: 0 <= i < |s| ==> p(s[i])
    ensures forall i :: 0 <= i < |RemovePunctuation(s)| ==> p(RemovePunctuation(s)[i])
  {
    if s != [] {
      RemovePunctuationKeeps(s[1..], p);
    }
  }

  lemma {:induction false} RemovePunctuationNoop(s: string)
    requires forall i :: 0 <= i < |s| ==> !IsAsciiPunctuation(s[i])
    ensures RemovePunctuation(s) == s
  {
    if s != [] {
      RemovePunctuationNoop(s[1..]);
      assert s == [s[0]] + s[1..];
    }
  }

  /** A punctuation mark after punctuation-free text is dropped. */
  lemma RemovePunctuationDrops(a: string, c: char, b: string)
    requires forall i :: 0 <= i < |a| ==> !IsAsciiPunctuation(a[i])
    requires IsAsciiPunctuation(c)
    ensures RemovePunctuation(a + [c] + b) == a + RemovePunctuation(b)
  {
    var x := a + [c];
    RemovePunctuationAppend(a, [c]);
    RemovePunctuationNoop(a);
    RemovePunctuationMark(c);
    assert a + [] == a;
    assert RemovePunctuation(x) == a;
    RemovePunctuationAppend(x, b);
  }

  lemma RemovePunctuationMark(c: char)
    requires IsAsciiPunctuation(c)
    ensures RemovePunctuation([c]) == []
  {
    assert [c][1..] == [];
  }

  /** `trim_start`: drop the leading whitespace. */
  function TrimStart(s: string): (r: string)
    ensures |r| <= |s| && r == s[|s| - |r|..]
    ensures forall i :: 0 <= i < |s| - |r| ==> IsWhitespace(s[i])
    ensures r != [] ==> !IsWhitespace(r[0])
  {
    if s != [] && IsWhitespace(s[0]) then
      var r := TrimStart(s[1..]);
      assert r == s[|s| - |r|..] by {
        assert s[1..][|s| - 1 - |r|..] == s[|s| - |r|..];
      }
      assert forall i :: 0 <= i < |s| - |r| ==> IsWhitespace(s[i]) by {
        forall i | 0 < i < |s| - |r|
          ensures IsWhitespace(s[i])
        {
          assert s[i] == s[1..][i - 1];
        }
      }
      r
    else s
  }

  /** `trim_end`: drop the trailing whitespace. */
  function TrimEnd(s: string): (r: string)
    ensures |r| <= |s| && r == s[..|r|]
    ensures forall i :: |r| <= i < |s| ==> IsWhitespace(s[i])
    ensures r != [] ==> !IsWhitespace(r[|r| - 1])
  {
    if s != [] && IsWhitespace(s[|s| - 1]) then TrimEnd(s[..|s| - 1]) else s
  }

  /** `trim`: drop leading and trailing whitespace. */
  function Trim(s: string): (r: string)
    ensures r != [] ==> !IsWhitespace(r[0]) && !IsWhitespace(r[|r| - 1])
  {
    TrimEnd(TrimStart(s))
  }

  /** Trimming keeps any property that every character of the input has. */
  lemma TrimKeeps(s: string, p: char -> bool)
    requires forall i :: 0 <= i < |s| ==> p(s[i])
    ensures forall i :: 0 <= i < |Trim(s)| ==> p(Trim(s)[i])
  {
    var t := TrimStart(s);
    var r := TrimEnd(t);
    forall i | 0 <= i < |r| ensures p(r[i]) {
      assert r[i] == t[i] == s[|s| - |t| + i];
    }
  }

  lemma TrimNoop(s: string)
    requires s != [] ==> !IsWhitespace(s[0]) && !IsWhitespace(s[|s| - 1])
    ensures Trim(s) == s
  {
  }

  predicate NoWhitespace(w: string) {
    forall i :: 0 <= i < |w| ==> !IsWhitespace(w[i])
  }

  /** A token of `split_whitespace`: non-empty and free of whitespace. */
  predicate IsToken(w: string) {
    w != [] && NoWhitespace(w)
  }

  predicate AllTokens(ts: seq<string>) {
    forall i :: 0 <= i < |ts| ==> IsToken(ts[i])
  }

  /** The longest prefix of `s` that holds no whitespace. */
  function TakeWord(s: string): (w: string)
    ensures |w| <= |s| && w == s[..|w|]
    ensures NoWhitespace(w)
    ensures |w| < |s| ==> IsWhitespace(s[|w|])
    ensures s != [] && !IsWhitespace(s[0]) ==> w != []
  {
    if s == [] || IsWhitespace(s[0]) then [] else [s[0]] + TakeWord(s[1..])
  }

  /** `split_whitespace().collect()`: the maximal whitespace-free runs of `s`, in order. */
  function Words(s: string): seq<string>
    decreases |s|
  {
    var t := TrimStart(s);
    if t == [] then []
    else
      var w := TakeWord(t);
      [w] + Words(t[|w|..])
  }

  /** Every word is non-empty and holds no whitespace. */
  lemma {:induction false} WordsAreTokens(s: string)
    ensures AllTokens(Words(s))
    decreases |s|
  {
    if TrimStart(s) == [] {
      WordsOfBlank(s);
    } else {
      var w, rest := WordsStep(s);
      WordsAreTokens(rest);
      AllTokensCons(w, Words(rest));
    }
  }

  lemma AllTokensCons(w: string, ts: seq<string>)
    requires IsToken(w) && AllTokens(ts)
    ensures AllTokens([w] + ts)
  {
  }

  /** `join(" ")` */
  function JoinSpace(ts: seq<string>): string
  {
    if |ts| == 0 then ""
    else if |ts| == 1 then ts[0]
    else ts[0] + " " + JoinSpace(ts[1..])
  }

  lemma {:induction false} TakeWordOfPrefix(w: string, rest: string)
    requires NoWhitespace(w)
    requires rest == [] || IsWhitespace(rest[0])
    ensures TakeWord(w + rest) == w
  {
    if w != [] {
      assert (w + rest)[1..] == w[1..] + rest;
      TakeWordOfPrefix(w[1..], rest);
    } else {
      assert w + rest == rest;
    }
  }

  lemma WordsAfterWhitespace(c: char, s: string)
    requires IsWhitespace(c)
    ensures Words([c] + s) == Words(s)
  {
    var cs := [c] + s;
    assert TrimStart(cs) == TrimStart(s) by {
      assert cs[1..] == s;
    }
    WordsOfSameTrim(cs, s);
  }

  /** The words depend only on the text after its leading whitespace. */
  lemma WordsOfSameTrim(a: string, b: string)
    requires TrimStart(a) == TrimStart(b)
    ensures Words(a) == Words(b)
  {
  }

  lemma {:induction false} JoinSpaceStart(ts: seq<string>)
    requires |ts| > 0 && AllTokens(ts)
    ensures JoinSpace(ts) != [] && JoinSpace(ts)[0] == ts[0][0]
  {
  }

  /** A token followed by whitespace (or nothing) is the first word. */
  lemma WordsOfTokenThen(t: string, rest: string)
    requires IsToken(t)
    requires rest == [] || IsWhitespace(rest[0])
    ensures Words(t + rest) == [t] + Words(rest)
  {
    var j := t + rest;
    assert j[0] == t[0];
    assert TrimStart(j) == j;
    TakeWordOfPrefix(t, rest);
    assert j[|t|..] == rest;
  }

  /** One joint: if `rest` splits into `tail`, then a token, one space and
      `rest` split into the token followed by `tail`. */
  lemma WordsOfTokenSpace(t: string, rest: string, tail: seq<string>)
    requires IsToken(t) && Words(rest) == tail
    ensures Words(t + ([' '] + rest)) == [t] + tail
  {
    WordsOfTokenThen(t, [' '] + rest);
    WordsAfterWhitespace(' ', rest);
  }

  lemma JoinSpaceCons(ts: seq<string>)
    requires |ts| > 1
    ensures JoinSpace(ts) == ts[0] + ([' '] + JoinSpace(ts[1..]))
  {
    assert ts[0] + " " + JoinSpace(ts[1..]) == ts[0] + ([' '] + JoinSpace(ts[1..]));
  }

  /** The inductive step of `WordsOfJoinSpace`: a token, one space, then a
      joined rest that splits back into its tokens. */
  lemma WordsOfJoinSpaceStep(ts: seq<string>)
    requires |ts| > 1 && IsToken(ts[0]) && Words(JoinSpace(ts[1..])) == ts[1..]
    ensures Words(JoinSpace(ts)) == ts
  {
    var t, rest := ts[0], JoinSpace(ts[1..]);
    JoinSpaceCons(ts);
    WordsOfTokenSpace(t, rest, ts[1..]);
    assert ts == [t] + ts[1..];
  }

  /** Splitting undoes joining: `split_whitespace` recovers the tokens that `join(" ")` glued. */
  lemma {:induction false} WordsOfJoinSpace(ts: seq<string>)
    requires AllTokens(ts)
    ensures Words(JoinSpace(ts)) == ts
  {
    if |ts| == 1 {
      WordsOfTokenThen(ts[0], []);
      assert ts[0] + [] == ts[0];
    } else if |ts| > 1 {
      var tail := ts[1..];
      assert AllTokens(tail) by {
        forall j | 0 <= j < |tail| ensures IsToken(tail[j]) {
          assert tail[j] == ts[j + 1];
        }
      }
      WordsOfJoinSpace(tail);
      WordsOfJoinSpaceStep(ts);
    }
  }

  /** Joining leaves no leading, trailing or doubled whitespace, and its only whitespace is `' '`. */
  predicate SingleSpaced(s: string) {
    && (s != [] ==> !IsWhitespace(s[0]) && !IsWhitespace(s[|s| - 1]))
    && (forall i :: 0 <= i < |s| && IsWhitespace(s[i]) ==> s[i] == ' ')
    && (forall i :: 0 <= i < |s| - 1 && IsWhitespace(s[i]) ==> !IsWhitespace(s[i + 1]))
  }

  lemma {:induction false} JoinSpaceSingleSpaced(ts: seq<string>)
    requires AllTokens(ts)
    ensures SingleSpaced(JoinSpace(ts))
  {
    if |ts| > 1 {
      var t, rest := ts[0], JoinSpace(ts[1..]);
      JoinSpaceSingleSpaced(ts[1..]);
      JoinSpaceStart(ts[1..]);
      var j := t + " " + rest;
      assert JoinSpace(ts) == j;
      forall i | 0 <= i < |j| && IsWhitespace(j[i])
        ensures j[i] == ' '
      {
        if i > |t| { assert j[i] == rest[i - |t| - 1]; }
      }
      forall i | 0 <= i < |j| - 1 && IsWhitespace(j[i])
        ensures !IsWhitespace(j[i + 1])
      {
        if i > |t| { assert j[i] == rest[i - |t| - 1]; assert j[i + 1] == rest[i - |t|]; }
      }
    }
  }

  /** Every character that is not whitespace, in order. */
  function NonWhitespace(s: string): (r: string)
    ensures NoWhitespace(r)
  {
    if s == [] then [] else (if IsWhitespace(s[0]) then [] else [s[0]]) + NonWhitespace(s[1..])
  }

  /** Regrouping `(a + b) + c` as `a + (b + c)`, for the append lemmas of the
      analyzers; kept apart so that their own proofs only rewrite. */
  lemma Regroup<T>(whole: seq<T>, front: seq<T>, a: seq<T>, b: seq<T>, c: seq<T>, back: seq<T>)
    requires whole == front + c && front == a + b && back == b + c
    ensures whole == a + back
  {
  }

  function Concat(ts: seq<string>): string
  {
    if ts == [] then [] else ts[0] + Concat(ts[1..])
  }

  lemma {:induction false} NonWhitespaceAppend(a: string, b: string)
    ensures NonWhitespace(a + b) == NonWhitespace(a) + NonWhitespace(b)
  {
    if a != [] {
      assert (a + b)[1..] == a[1..] + b;
      NonWhitespaceAppend(a[1..], b);
    } else {
      assert a + b == b;
    }
  }

  lemma {:induction false} NonWhitespaceOfWord(w: string)
    requires NoWhitespace(w)
    ensures NonWhitespace(w) == w
  {
    if w != [] {
      NonWhitespaceOfWord(w[1..]);
      assert w == [w[0]] + w[1..];
    }
  }

  lemma {:induction false} NonWhitespaceOfBlank(s: string)
    requires forall i :: 0 <= i < |s| ==> IsWhitespace(s[i])
    ensures NonWhitespace(s) == []
  {
    if s != [] {
      NonWhitespaceOfBlank(s[1..]);
    }
  }

  /** One step of `split_whitespace`: the first word, and the text after it. */
  lemma WordsStep(s: string) returns (w: string, rest: string)
    requires TrimStart(s) != []
    ensures IsToken(w) && |rest| < |s|
    ensures Words(s) == [w] + Words(rest)
    ensures NonWhitespace(s) == w + NonWhitespace(rest)
  {
    var t := TrimStart(s);
    w := TakeWord(t);
    rest := t[|w|..];
    NonWhitespaceOfTrimStart(s);
    assert t == w + rest;
    NonWhitespaceAppend(w, rest);
    NonWhitespaceOfWord(w);
  }

  lemma NonWhitespaceOfTrimStart(s: string)
    ensures NonWhitespace(s) == NonWhitespace(TrimStart(s))
  {
    var t := TrimStart(s);
    var k := |s| - |t|;
    assert s == s[..k] + t;
    NonWhitespaceAppend(s[..k], t);
    NonWhitespaceOfBlank(s[..k]);
  }

  /** Every character of `s` has the property `p`. */
  predicate EveryChar(s: string, p: char -> bool) {
    forall i :: 0 <= i < |s| ==> p(s[i])
  }

  lemma {:induction false} NonWhitespaceKeeps(s: string, p: char -> bool)
    requires EveryChar(s, p)
    ensures EveryChar(NonWhitespace(s), p)
  {
    if s != [] {
      assert EveryChar(s[1..], p) by {
        assert forall i :: 0 <= i < |s| - 1 ==> s[1..][i] == s[i + 1];
      }
      NonWhitespaceKeeps(s[1..], p);
    }
  }

  lemma {:induction false} ConcatKeeps(ts: seq<string>, p: char -> bool)
    requires EveryChar(Concat(ts), p)
    ensures forall k :: 0 <= k < |ts| ==> EveryChar(ts[k], p)
  {
    if ts != [] {
      var c := Concat(ts[1..]);
      assert Concat(ts) == ts[0] + c;
      assert EveryChar(ts[0], p) && EveryChar(c, p) by {
        assert forall i :: 0 <= i < |ts[0]| ==> ts[0][i] == Concat(ts)[i];
        assert forall i :: 0 <= i < |c| ==> c[i] == Concat(ts)[|ts[0]| + i];
      }
      ConcatKeeps(ts[1..], p);
      forall k | 0 <= k < |ts|
        ensures EveryChar(ts[k], p)
      {
        if k > 0 {
          assert ts[k] == ts[1..][k - 1];
        }
      }
    }
  }

  /** Every property that all characters of a text have, each of its words
      has in all its characters. */
  lemma WordsKeep(s: string, p: char -> bool)
    requires EveryChar(s, p)
    ensures forall k :: 0 <= k < |Words(s)| ==> EveryChar(Words(s)[k], p)
  {
    WordsCoverText(s);
    NonWhitespaceKeeps(s, p);
    ConcatKeeps(Words(s), p);
  }

  lemma WordsOfBlank(s: string)
    requires TrimStart(s) == []
    ensures Words(s) == [] && NonWhitespace(s) == []
  {
    NonWhitespaceOfBlank(s);
  }

  /** The tokens of `split_whitespace` hold every non-whitespace character of the text, in order. */
  lemma {:induction false} WordsCoverText(s: string)
    ensures Concat(Words(s)) == NonWhitespace(s)
    decreases |s|
  {
    if TrimStart(s) == [] {
      WordsOfBlank(s);
    } else {
      var w, rest := WordsStep(s);
      WordsCoverText(rest);
      assert Concat([w] + Words(rest)) == w + Concat(Words(rest));
    }
  }

  /** Number of bytes of `c` in UTF-8 (`char::len_utf8`). */
  function Utf8Len(c: char): (n: nat)
    ensures 1 <= n <= 4
    ensures n == 1 <==> IsAsciiChar(c)
  {
    if (c as int) < 0x80 then 1
    else if (c as int) < 0x800 then 2
    else if (c as int) < 0x10000 then 3
    else 4
  }

  /** Length in bytes of the UTF-8 encoding of `s` (`str::len`). */
  function ByteLen(s: string): (n: nat)
    ensures n >= |s|
  {
    if s == [] then 0 else ByteLen(s[..|s| - 1]) + Utf8Len(s[|s| - 1])
  }

  /** `str::len` counts characters exactly when the text is ASCII. */
  lemma {:induction false} ByteLenIsCharCount(s: string)
    ensures ByteLen(s) == |s| <==> IsAscii(s)
  {
    if s != [] {
      var p := s[..|s| - 1];
      ByteLenIsCharCount(p);
      if IsAscii(s) {
        assert IsAscii(p) by {
          forall i | 0 <= i < |p| ensures IsAsciiChar(p[i]) { assert p[i] == s[i]; }
        }
      } else if IsAscii(p) {
        assert !IsAsciiChar(s[|s| - 1]) by {
          if IsAsciiChar(s[|s| - 1]) {
            forall i | 0 <= i < |s| ensures IsAsciiChar(s[i]) { if i < |p| { assert s[i] == p[i]; } }
          }
        }
      }
    }
  }

  /** Byte length is additive over a prefix. */
  lemma {:induction false} ByteLenPrefix(s: string, i: nat, j: nat)
    requires i <= j <= |s|
    ensures ByteLen(s[..i]) <= ByteLen(s[..j])
    decreases j - i
  {
    if i < j {
      ByteLenPrefix(s, i, j - 1);
      assert s[..j][..j - 1] == s[..j - 1];
    }
  }
}

=== FILE: vectorizer.dfy ===
/** rust/rsvectorizer.rs: preprocess a batch of texts (normalize, then drop
    stop words), run one analyzer on each text and count its n-grams. */
module Vectorizer {
  import opened Base
  import opened Text
  import opened Analyzer
  import Normalizer
  import StopWords
  import Counter

  /** The first step of `process_texts` for one text: normalize only when asked
      with `Some(true)`. */
  function Prepared(tr: char -> string, text: string, normalize: Option<bool>): string
  {
    if normalize == Some(true) then Normalizer.Normalize(tr, text) else text
  }

  /** What `process_texts` makes of one text: the prepared text, with its stop
      words dropped when a stop-word list is given. */
  function ProcessText(tr: char -> string, text: string, normalize: Option<bool>,
                       stopWords: Option<seq<string>>): string
  {
    match stopWords
    case Some(sw) => StopWords.FilterStopWords(Prepared(tr, text, normalize), sw)
    case None => Prepared(tr, text, normalize)
  }

  /** `process_texts`: the whole batch is normalized, then the whole batch is
      filtered; element by element this is `ProcessText`. */
  function ProcessTexts(tr: char -> string, texts: seq<string>, normalize: Option<bool>,
                        stopWords: Option<seq<string>>): (r: seq<string>)
    ensures |r| == |texts|
    ensures forall i :: 0 <= i < |texts| ==> r[i] == ProcessText(tr, texts[i], normalize, stopWords)
  {
    var prepared := if normalize == Some(true) then Normalizer.NormalizeMany(tr, texts) else texts;
    match stopWords
    case Some(sw) => StopWords.FilterStopWordsMany(prepared, sw)
    case None => prepared
  }

  /** With `normalize` other than `Some(true)` and no stop words the texts pass
      through untouched. */
  lemma ProcessTextsUnchanged(tr: char -> string, texts: seq<string>, normalize: Option<bool>)
    requires normalize != Some(true)
    ensures ProcessTexts(tr, texts, normalize, None) == texts
  {
  }

  /** After processing, no word of a text is a stop word, and every word left
      is a word of the prepared text. */
  lemma ProcessTextWords(tr: char -> string, text: string, normalize: Option<bool>, sw: seq<string>)
    ensures forall w :: (w in Words(ProcessText(tr, text, normalize, Some(sw)))
      <==> w in Words(Prepared(tr, text, normalize)) && w !in sw)
  {
    StopWords.FilterStopWordsTokens(Prepared(tr, text, normalize), sw);
  }

  /** Every stop word holds an upper-case ASCII letter. */
  predicate UpperStopWords(sw: seq<string>) {
    forall j :: 0 <= j < |sw| ==> exists i :: 0 <= i < |sw[j]| && IsAsciiUpper(sw[j][i])
  }

  /** Stop words that each hold an upper-case ASCII letter remove nothing from
      a text that has none. */
  lemma UpperStopWordsKeepAll(n: string, sw: seq<string>)
    requires EveryChar(n, c => !IsAsciiUpper(c)) && UpperStopWords(sw)
    ensures StopWords.FilterStopWords(n, sw) == StopWords.FilterStopWords(n, [])
  {
    var ws := Words(n);
    WordsKeep(n, c => !IsAsciiUpper(c));
    forall k | 0 <= k < |ws|
      ensures ws[k] !in StopWords.StopSet(sw)
    {
      forall j | 0 <= j < |sw|
        ensures sw[j] != ws[k]
      {
        var i :| 0 <= i < |sw[j]| && IsAsciiUpper(sw[j][i]);
        assert i < |ws[k]| ==> !IsAsciiUpper(ws[k][i]);
      }
    }
    StopWords.KeepTokensNoop(ws, StopWords.StopSet(sw));
    StopWords.KeepTokensNoop(ws, StopWords.StopSet([]));
  }

  /** Stop words are matched after normalization: a normalized text has no
      upper-case ASCII letter, so stop words that each hold one never remove
      anything. Filtering with them gives the same text as filtering with
      none. */
  lemma ProcessTextNormalizesFirst(tr: char -> string, text: string, sw: seq<string>)
    ensures UpperStopWords(sw) ==>
      ProcessText(tr, text, Some(true), Some(sw)) == ProcessText(tr, text, Some(true), Some([]))
    ensures forall i :: 0 <= i < |ProcessText(tr, text, Some(true), None)| ==>
      !IsAsciiUpper(ProcessText(tr, text, Some(true), None)[i])
  {
    Normalizer.NormalizeShape(tr, text);
    var n := Normalizer.Normalize(tr, text);
    if UpperStopWords(sw) {
      assert EveryChar(n, c => !IsAsciiUpper(c));
      UpperStopWordsKeepAll(n, sw);
    }
  }

  /** `rscount(rssplit_words(text, n_sizes))` */
  function WordCounts(text: string, ns: seq<nat>): map<string, nat>
    requires Positive(ns)
  {
    Counter.Counts(WordNgrams(Words(text), ns))
  }

  /** `rscount(rschar_ngrams(text, n_sizes))` */
  function CharCounts(text: string, ns: seq<nat>): map<string, nat>
    requires Positive(ns)
  {
    Counter.Counts(CharNgramsOf(text, ns))
  }

  /** `rsvectorize_split_words_many`: the counts of the word n-grams of each
      processed text, in input order. */
  function VectorizeSplitWordsMany(tr: char -> string, texts: seq<string>, ns: seq<nat>,
                                   stopWords: Option<seq<string>>, normalize: Option<bool>)
    : (r: seq<map<string, nat>>)
    requires |texts| > 0 ==> Positive(ns)
    ensures |r| == |texts|
    ensures forall i :: 0 <= i < |texts| ==>
      r[i] == WordCounts(ProcessText(tr, texts[i], normalize, stopWords), ns)
  {
    var processed := ProcessTexts(tr, texts, normalize, stopWords);
    seq(|processed|, i requires 0 <= i < |processed| => WordCounts(processed[i], ns))
  }

  /** `rsvectorize_char_ngrams_many`, and `rsvectorize_char_wb_ngrams_many`,
      whose scalar analyzer `rschar_wb_ngrams` yields the same n-grams as
      `rschar_ngrams` (see `Analyzer.CharWbNgrams`). */
  function VectorizeCharNgramsMany(tr: char -> string, texts: seq<string>, ns: seq<nat>,
                                   stopWords: Option<seq<string>>, normalize: Option<bool>)
    : (r: seq<map<string, nat>>)
    requires |texts| > 0 ==> Positive(ns)
    ensures |r| == |texts|
    ensures forall i :: 0 <= i < |texts| ==>
      r[i] == CharCounts(ProcessText(tr, texts[i], normalize, stopWords), ns)
  {
    var processed := ProcessTexts(tr, texts, normalize, stopWords);
    seq(|processed|, i requires 0 <= i < |processed| => CharCounts(processed[i], ns))
  }

  predicate KnownAnalyzer(analyzer: string) {
    analyzer == "word" || analyzer == "char" || analyzer == "char_wb"
  }

  /** `rsvectorize_many`: dispatch on the analyzer name; any other name panics. */
  function VectorizeMany(tr: char -> string, texts: seq<string>, ns: seq<nat>, analyzer: string,
                         stopWords: Option<seq<string>>, normalize: Option<bool>)
    : (r: Result<seq<map<string, nat>>>)
    requires KnownAnalyzer(analyzer) && |texts| > 0 ==> Positive(ns)
    ensures r.Panic? <==> !KnownAnalyzer(analyzer)
    ensures r.Panic? ==> r.msg == "Invalid analyzer type"
    ensures r.Ok? ==> |r.value| == |texts|
    ensures analyzer == "word" ==> r == Ok(VectorizeSplitWordsMany(tr, texts, ns, stopWords, normalize))
    ensures analyzer == "char" || analyzer == "char_wb" ==>
      r == Ok(VectorizeCharNgramsMany(tr, texts, ns, stopWords, normalize))
  {
    if analyzer == "word" then Ok(VectorizeSplitWordsMany(tr, texts, ns, stopWords, normalize))
    else if analyzer == "char" then Ok(VectorizeCharNgramsMany(tr, texts, ns, stopWords, normalize))
    else if analyzer == "char_wb" then Ok(VectorizeCharNgramsMany(tr, texts, ns, stopWords, normalize))
    else Panic("Invalid analyzer type")
  }

  /** Each map counts word n-grams: its keys are exactly the n-grams, each
      value is how often that n-gram occurs, and the values add up to the
      number of n-grams, one window count per size. */
  lemma VectorizeSplitWordsCounts(tr: char -> string, texts: seq<string>, ns: seq<nat>,
                                  stopWords: Option<seq<string>>, normalize: Option<bool>, i: nat)
    requires Positive(ns) && i < |texts|
    ensures var r := VectorizeSplitWordsMany(tr, texts, ns, stopWords, normalize)[i];
      var grams := WordNgrams(Words(ProcessText(tr, texts[i], normalize, stopWords)), ns);
      (forall g :: g in r <==> g in multiset(grams)) &&
      (forall g :: g in r ==> r[g] == multiset(grams)[g]) &&
      Counter.Total(r) == WindowTotal(|Words(ProcessText(tr, texts[i], normalize, stopWords))|, ns)
  {
    var words := Words(ProcessText(tr, texts[i], normalize, stopWords));
    Counter.CountsIsMultiplicity(WordNgrams(words, ns));
    Counter.CountsTotal(WordNgrams(words, ns));
    WordNgramsCount(words, ns);
  }

  /** The same for character n-grams: the values add up to one window count
      per size over the processed text's characters. */
  lemma VectorizeCharCounts(tr: char -> string, texts: seq<string>, ns: seq<nat>,
                            stopWords: Option<seq<string>>, normalize: Option<bool>, i: nat)
    requires Positive(ns) && i < |texts|
    ensures var r := VectorizeCharNgramsMany(tr, texts, ns, stopWords, normalize)[i];
      var grams := CharNgramsOf(ProcessText(tr, texts[i], normalize, stopWords), ns);
      (forall g :: g in r <==> g in multiset(grams)) &&
      (forall g :: g in r ==> r[g] == multiset(grams)[g]) &&
      Counter.Total(r) == WindowTotal(|ProcessText(tr, texts[i], normalize, stopWords)|, ns)
  {
    var text := ProcessText(tr, texts[i], normalize, stopWords);
    Counter.CountsIsMultiplicity(CharNgramsOf(text, ns));
    Counter.CountsTotal(CharNgramsOf(text, ns));
    CharNgramsCount(text, ns);
  }

  /** A text whose every word is a stop word vectorizes to the empty map,
      whatever the analyzer. */
  lemma VectorizeAllStopWords(tr: char -> string, texts: seq<string>, ns: seq<nat>, analyzer: string,
                              sw: seq<string>, normalize: Option<bool>, i: nat)
    requires Positive(ns) && KnownAnalyzer(analyzer) && i < |texts|
    requires var ws := Words(Prepared(tr, texts[i], normalize));
      forall j :: 0 <= j < |ws| ==> ws[j] in sw
    ensures VectorizeMany(tr, texts, ns, analyzer, Some(sw), normalize).value[i] == map[]
  {
    var p := Prepared(tr, texts[i], normalize);
    StopWords.FilterStopWordsEmpty(p, sw);
    assert ProcessText(tr, texts[i], normalize, Some(sw)) == "";
    WordNgramsOfBlank("", ns);
    CharNgramsOfEmpty(ns);
  }

  lemma HelloLowered(s: string)
    requires s == "Hello, world!"
    ensures ToLower(s) == "hello, world!"
  {
    assert ToLowerChar(s[0]) == 'h';
    forall i | 0 < i < |s| ensures ToLowerChar(s[i]) == s[i] { }
  }

  lemma HowLowered(s: string)
    requires s == "How are you?"
    ensures ToLower(s) == "how are you?"
  {
    assert ToLowerChar(s[0]) == 'h';
    forall i | 0 < i < |s| ensures ToLowerChar(s[i]) == s[i] { }
  }

  lemma HelloFiltered(s: string)
    requires s == "hello, world!"
    ensures RemovePunctuation(s) == "hello world"
  {
    var a, b := "hello", " world";
    var rest := b + ['!'] + "";
    assert s == a + [','] + rest;
    RemovePunctuationDrops(b, '!', "");
    RemovePunctuationDrops(a, ',', rest);
  }

  lemma HowFiltered(s: string)
    requires s == "how are you?"
    ensures RemovePunctuation(s) == "how are you"
  {
    assert s == "how are you" + ['?'] + "";
    RemovePunctuationDrops("how are you", '?', "");
  }

  lemma UnidecodeKeeps(tr: char -> string, s: string)
    requires AsciiIdentity(tr) && (s == "Hello, world!" || s == "How are you?")
    ensures Unidecode(tr, s) == s
  {
    assert IsAscii(s);
    UnidecodeOfAscii(tr, s);
  }

  lemma NormalizeHello(tr: char -> string, s: string)
    requires AsciiIdentity(tr) && s == "Hello, world!"
    ensures Normalizer.Normalize(tr, s) == "hello world"
  {
    UnidecodeKeeps(tr, s);
    HelloLowered(s);
    HelloFiltered(ToLower(s));
    TrimNoop(RemovePunctuation(ToLower(s)));
  }

  lemma NormalizeHow(tr: char -> string, s: string)
    requires AsciiIdentity(tr) && s == "How are you?"
    ensures Normalizer.Normalize(tr, s) == "how are you"
  {
    UnidecodeKeeps(tr, s);
    HowLowered(s);
    HowFiltered(ToLower(s));
    TrimNoop(RemovePunctuation(ToLower(s)));
  }

  /** "hello world", "how are you" and "how" split into their words. */
  lemma WordsOfExamples(s: string, ts: seq<string>)
    requires (s == "hello world" && ts == ["hello", "world"])
          || (s == "how are you" && ts == ["how", "are", "you"])
          || (s == "how" && ts == ["how"])
    ensures Words(s) == ts && JoinSpace(ts) == s
  {
    assert forall i :: 0 <= i < |ts| ==> IsToken(ts[i]);
    if s == "hello world" {
      assert JoinSpace(["hello", "world"]) == "hello world";
    } else if s == "how are you" {
      assert JoinSpace(["how", "are", "you"]) == "how are you";
    } else {
      assert JoinSpace(["how"]) == "how";
    }
    WordsOfJoinSpace(ts);
  }

  lemma ExampleStopSet(sw: seq<string>)
    requires sw == ["are", "you"]
    ensures StopWords.StopSet(sw) == {"are", "you"}
  {
  }

  lemma FilterHello(s: string, sw: seq<string>)
    requires s == "hello world" && sw == ["are", "you"]
    ensures StopWords.FilterStopWords(s, sw) == s
  {
    var ts := ["hello", "world"];
    WordsOfExamples(s, ts);
    ExampleStopSet(sw);
    KeepHello(ts, {"are", "you"});
  }

  lemma KeepHello(ts: seq<string>, stop: set<string>)
    requires ts == ["hello", "world"] && stop == {"are", "you"}
    ensures StopWords.KeepTokens(ts, stop) == ts
  {
    assert ts[0] !in stop && ts[1] !in stop;
    StopWords.KeepTokensNoop(ts, stop);
  }

  lemma KeepHow(ts: seq<string>, stop: set<string>)
    requires ts == ["how", "are", "you"] && stop == {"are", "you"}
    ensures StopWords.KeepTokens(ts, stop) == ["how"]
  {
    assert ts[1..][1..][1..] == [];
    assert StopWords.KeepTokens(ts[1..], stop) == [];
  }

  lemma FilterHow(s: string, sw: seq<string>)
    requires s == "how are you" && sw == ["are", "you"]
    ensures StopWords.FilterStopWords(s, sw) == "how"
  {
    var ts := ["how", "are", "you"];
    WordsOfExamples(s, ts);
    ExampleStopSet(sw);
    KeepHow(ts, {"are", "you"});
    WordsOfExamples("how", ["how"]);
  }

  /** Two different words are counted once each. */
  lemma CountsOfTwo(x: string, y: string)
    requires x != y
    ensures Counter.Counts([x, y]) == map[x := 1, y := 1]
  {
    assert [x, y][..1] == [x] && [x][..0] == [];
    assert Counter.Counts([x]) == map[x := 1];
    assert Counter.Counts([x, y]) == Counter.Bump(map[x := 1], y);
  }

  lemma CountHello(s: string)
    requires s == "hello world"
    ensures WordCounts(s, [1]) == map["hello" := 1, "world" := 1]
  {
    var ts := ["hello", "world"];
    WordsOfExamples(s, ts);
    WordUnigrams(ts);
    CountsOfTwo("hello", "world");
  }

  lemma CountHow(s: string)
    requires s == "how"
    ensures WordCounts(s, [1]) == map["how" := 1]
  {
    var ts := ["how"];
    WordsOfExamples(s, ts);
    WordUnigrams(ts);
    assert ts[..0] == [];
  }

  /** `count(["Hello, world!", "How are you?"], stop_words=["are", "you"])` in
      lenlp/counter/count.py: normalized, then "are" and "you" dropped, then
      counted, for any transliteration table that keeps ASCII as it is. */
  lemma VectorizeStopWordsExample(tr: char -> string, a: string, b: string)
    requires AsciiIdentity(tr) && a == "Hello, world!" && b == "How are you?"
    ensures var r := VectorizeMany(tr, [a, b], [1], "word", Some(["are", "you"]), Some(true));
      r.Ok? && |r.value| == 2 &&
      r.value[0] == map["hello" := 1, "world" := 1] && r.value[1] == map["how" := 1]
  {
    var sw := Some(["are", "you"]);
    var texts := [a, b];
    NormalizeHello(tr, a);
    NormalizeHow(tr, b);
    FilterHello(Normalizer.Normalize(tr, a), sw.value);
    FilterHow(Normalizer.Normalize(tr, b), sw.value);
    CountHello(ProcessText(tr, a, Some(true), sw));
    CountHow(ProcessText(tr, b, Some(true), sw));
    assert texts[0] == a && texts[1] == b;
  }

  lemma CountsOfThree(x: string, y: string, z: string)
    requires x != y && y != z && x != z
    ensures Counter.Counts([x, y, z]) == map[x := 1, y := 1, z := 1]
  {
    assert [x, y, z][..2] == [x, y];
    CountsOfTwo(x, y);
    assert Counter.Counts([x, y, z]) == Counter.Bump(map[x := 1, y := 1], z);
  }

  lemma CountHowAreYou(s: string)
    requires s == "how are you"
    ensures WordCounts(s, [1]) == map["how" := 1, "are" := 1, "you" := 1]
  {
    var ts := ["how", "are", "you"];
    WordsOfExamples(s, ts);
    WordUnigrams(ts);
    CountsOfThree("how", "are", "you");
  }

  /** The same texts with the default configuration (unigrams, normalized,
      no stop words), as the count vectorizer sees them. */
  lemma VectorizeWordExample(tr: char -> string, a: string, b: string)
    requires AsciiIdentity(tr) && a == "Hello, world!" && b == "How are you?"
    ensures var r := VectorizeMany(tr, [a, b], [1], "word", None, Some(true));
      r.Ok? && |r.value| == 2 &&
      r.value[0] == map["hello" := 1, "world" := 1] &&
      r.value[1] == map["how" := 1, "are" := 1, "you" := 1]
  {
    var texts := [a, b];
    NormalizeHello(tr, a);
    NormalizeHow(tr, b);
    CountHello(ProcessText(tr, a, Some(true), None));
    CountHowAreYou(ProcessText(tr, b, Some(true), None));
    assert texts[0] == a && texts[1] == b;
  }
}
